=== FILE: README.md ===
# Information-economics teaching models, in Dafny

The repository is a set of Tk teaching applications about contracts under
asymmetric information. Under the widgets sit a handful of closed-form models:

- binary-outcome principal–agent contracts: wage design, acceptance, effort
  choice and counter offers;
- the linear-bonus principal–agent model, with its grid searches;
- lemon (used-car) markets: an adaptive-trust simulator, a seller-removal
  loop and a buyer-belief trading round;
- moral hazard in insurance: the insure × anti-theft-device decision and
  effort-driven theft probabilities;
- Spence education signalling and a screening variant;
- polynomial risk preferences.

This project models those computations as pure Dafny functions and
short methods, and proves what the code and its comments promise about them.

Conventions used throughout:

- A Python float is a Dafny `real`.
- A Python exception is a value: `Common.Result`/`PyError`, or a
  module-specific datatype such as `Signaling.Calculation`.
- Every random draw is a parameter.
- `np.arange`/`np.linspace` grids are input sequences.
- Transcendental functions (log, exp, sqrt, real powers) are
  function-typed parameters. A lemma that needs a property of one (strict
  monotonicity, `exp(0) = 1`, being a square root) asks for it in its
  `requires`.

Modules:

- `Common` holds the Python built-ins written out exactly: `max`, `min`,
  truncating `int()`, half-to-even `round()`, the first-index argmax, and
  the strict-improvement row-major scan the grid searches share.
- `BinaryContract` is the shared binary-outcome model: utilities, IR, IC,
  best response and principal profit.
- `LinearShareContract` covers `Simsoft/sim_soft_4.py`:
  - the revenue-share designer with its clips and 50% fallback;
  - the Nash-split counter offer;
  - the cost sampler, with its draws injected.
- `CompressedContract` covers `SimTest/APPUITest5.py`:
  - the IR/IC-binding contract with proportional compression;
  - the cached effort choice;
  - the bump-then-scale counter offer.
- `DrawnContract` is `SimTest/APPUITest3.py`: the principal remembers the
  last draw, and the agent's stored utilities overwrite the wages.
- `NaiveContract` is the "optimal contract" button of test14/15/17 and
  `AnalyticalPrincipal`.
- `LearningPrincipal` covers `SimTest/principal_agent_module_optimized.py`:
  - the cost draws and `Agent.accept`;
  - the expected profit and the action grid;
  - the bandit update, training and argmax proposal.
- `EffortGrid` is the IR/IC grid search and outcome simulation of test13.py.
- `LinearBonus` and `BonusSearch` are the linear-bonus model and every
  search over its `(w, b)` grid, plus `frange`.
- `TrustMarket` is the adaptive-trust `LemonMarketSimulator` (`_step`, `run`
  and the teaching run of sim_soft_4). `SellerRemoval` is `simulate_market`
  of test15/test17. `UsedCarRound` is the buyer-belief and fixed-price
  trading rounds.
- `TheftInsurance` is the moral-hazard decision page (`_decide`,
  `_simulate`, the policy map). It uses an extended-real `Ext` so that
  `0 · (−∞) = NaN` and the NaN comparisons behave as in Python.
  `EffortInsurance` is the effort-driven bicycle-theft models.
- `Signaling` is the threshold calculator (sim_soft_4, APPUITest3/5, test17)
  and the separating equilibrium of test12.py. `EducationScreening` is the
  threshold-hiring models of test.py–test7.py.
- `RiskPreference` is `dist/test10.py`. `NormalisedUtility` is
  `SimulationSoftware/RiskPreferenceModule.py`.

Duplicated classes share one definition: the signaling thresholds in three
files, the naive contract in four, and the improved models in test3/test4.
Where variants differ, a flag or a separate member carries the difference:
clamped or raw investment, `WageScaled` or `Improved` output, net or gross
coverage, and the conditioned or unconditioned insurer payout.

## Model

| member | source | states |
|---|---|---|
| BinaryContract.BestResponse | Simsoft/sim_soft_4.py:492-496 | choose_effort's uncached branch picks an effort whose expected utility no other effort beats; it shirks only when shirking is strictly better (ties go to effort); the branch that first reads the cache set by evaluate_contract (line 440) is CompressedContract.ChooseEffort, whose code is identical in SimTest/APPUITest5.py, and ChooseEffortCachedAgrees shows it gives the same answer |
| BinaryContract.ProfitSplitsRevenue | Simsoft/sim_soft_4.py:499-506 | principal_income plus the expected wage is the expected revenue under that effort's probability |
| BinaryContract.IncentiveGap | Simsoft/sim_soft_4.py:429-433 | working beats shirking by exactly Δp·(w_H − w_L) − Δc |
| BinaryContract.IncentiveCompatibleIffSpread | Simsoft/sim_soft_4.py:436-441 | with Δp > 0 the IC half of evaluate_contract holds iff the wage spread is at least Δc/Δp |
| BinaryContract.SpreadMakesIndifferent | Simsoft/sim_soft_4.py:337-339 | a spread of exactly Δc/Δp makes effort and shirking equally good (IC binds) |
| LinearShareContract.Design | Simsoft/sim_soft_4.py:337-369 | a designed contract exists only when Δp > 1e-8, Y_H > Y_L and b* ≤ 1, and then 0 ≤ w_L and 0 ≤ w_H ≤ Y_H |
| LinearShareContract.ProposeContract | Simsoft/sim_soft_4.py:332-343 | the 50% share (0.5·Y_H, 0.5·Y_L) is returned when Δp ≤ 1e-8, when Y_H ≤ Y_L, or when b* > 1 |
| LinearShareContract.ProposalIsSafeOrFallback | Simsoft/sim_soft_4.py:362-372 | every proposal is the 50% fallback or has 0 ≤ w_L and 0 ≤ w_H ≤ Y_H |
| LinearShareContract.UnclippedDesignBinds | Simsoft/sim_soft_4.py:339-352 | when neither the w_L ≥ 0 nor the w_H ≤ Y_H clip fires, effort utility equals U0 (IR binds) and equals shirk utility (IC binds) |
| LinearShareContract.UncappedDesignAccepted | Simsoft/sim_soft_4.py:345-356 | without the revenue cap the proposal is accepted and worked for with IC binding; IR binds unless w_L had to be raised to zero |
| LinearShareContract.NashCounterOfferNone | Simsoft/sim_soft_4.py:458-488 | counter_offer is None for Δp ≤ 0 and for TS ≤ 0; otherwise it is None exactly when w_L_new < 0, because w_L_alt = w_L_new − TS/2 is then negative too |
| LinearShareContract.NashCounterOfferSplits | Simsoft/sim_soft_4.py:444-488 | a returned counter offer has spread Δc/Δp and w_L ≥ 0; it gives the agent U0 + TS/2 and the principal π_min + TS/2; it is accepted; and it ignores the rejected wages |
| LinearShareContract.NashCounterOffer | Simsoft/sim_soft_4.py:444-488 | an offer only comes with Δp > 0 and positive total surplus, and it has w_L ≥ 0 and spread exactly Δc/Δp |
| LinearShareContract.AgentIncome | Simsoft/sim_soft_4.py:375-379 | the income agent_income is meant to report for a wage pair: the expected wage under the effort's probability less its cost, i.e. the agent's utility from that pair (see StaleIncomeAfterFallback for what the code reads) |
| LinearShareContract.StoredAfter | Simsoft/sim_soft_4.py:332-372 | self.w_high/self.w_low keep their old value (or stay unset) after the Δp, Y_H ≤ Y_L and b* > 1 fallbacks, and hold the proposal otherwise |
| LinearShareContract.AgentIncomeAsWritten | Simsoft/sim_soft_4.py:375-379 | agent_income as written: AttributeError iff no pair was ever stored, else the agent's utility from the stored pair |
| LinearShareContract.IncomeOfStoredProposal | Simsoft/sim_soft_4.py:337-379 | on the designed path the written agent_income is the income of the proposal just returned |
| LinearShareContract.StaleIncomeAfterFallback | Simsoft/sim_soft_4.py:332-379 | Y = (10, 20), p = (0.9, 0.5), c = (1, 0): the proposal (5, 10) is worth 4.5, yet agent_income says −1 after a stored (0, 0) and raises AttributeError on a first call |
| LinearShareContract.CostSet | Simsoft/sim_soft_4.py:392-421 | with the randint draws injected: c_L ≥ 0; int(0.05·Y_H) ≤ c_H ≤ the drawn c_H; c_L < c_H once c_H ≥ 1; and the gap is within (Y_H − Y_L)/4 unless c_H hit its lower bound |
| CompressedContract.ProposeContract | SimTest/APPUITest5.py:379-404 | Δp ≤ 0 gives the 50% share; otherwise w_L ≥ 0 and w_H ≤ Y_H (for Y_H ≥ 0); a division by zero is possible only when Y_H < 0 |
| CompressedContract.UncompressedBinds | SimTest/APPUITest5.py:391-395 | before compression IC binds and IR holds, with equality unless the max(0, ·) clamp fired |
| CompressedContract.ProposalCompression | SimTest/APPUITest5.py:397-404 | without compression the proposal is the binding contract and is accepted; with it, w_H becomes exactly Y_H and w_L is scaled by the same ratio Y_H/w_H |
| CompressedContract.CompressionBreaksIncentive | SimTest/APPUITest5.py:397-401 | a compressed proposal with c_H > c_L violates IC, since the ratio shrinks the spread below Δc/Δp |
| CompressedContract.Evaluate | SimTest/APPUITest5.py:443-448 | evaluate_contract accepts iff UE ≥ U0 and UE ≥ UL, and caches exactly those two utilities |
| CompressedContract.ChooseEffort | SimTest/APPUITest5.py:485-489 | choose_effort works iff the cached UE ≥ UL; without a cache it is the best response to the given wages |
| CompressedContract.ChooseEffortCachedAgrees | SimTest/APPUITest5.py:443-489 | after evaluating the same contract, the cached choice is the best response |
| CompressedContract.BumpCounterOffer | SimTest/APPUITest5.py:451-482 | Δp = 0 is a ZeroDivisionError, and every failure of the counter offer is a ZeroDivisionError |
| CompressedContract.BumpedRestoresConstraints | SimTest/APPUITest5.py:456-464 | stage one yields spread ≥ Δc/Δp and effort utility ≥ U0, so the pair is accepted; an already accepted pair is unchanged |
| CompressedContract.CounterOfferFirstStage | SimTest/APPUITest5.py:466-470 | if the stage-one pair leaves the principal at least π_min, it is the counter offer, and it is accepted |
| CompressedContract.CounterOfferScaled | SimTest/APPUITest5.py:472-482 | given Δp > 0 (Δp = 0 fails earlier, see BumpCounterOffer) and a stage-one pair leaving less than π_min (the other case is CounterOfferFirstStage): its expected wage w is ≥ U0 + c_H; ZeroDivisionError iff w = 0; for w > 0 an offer iff U0 + c_H ≤ E[Y] − π_min, for w < 0 iff U0 + c_H ≥ E[Y] − π_min, and then profit ≤ π_min; an offer has expected wage U0 + c_H, agent utility U0 and profit E[Y] − U0 − c_H; with U0 + c_H > 0 there is no error and an offer has profit ≥ π_min |
| CompressedContract.ScaledOfferCases | SimTest/APPUITest5.py:472-482 | scaling a pair of expected wage w: ZeroDivisionError iff w = 0; an offer iff U0 + c_H ≤ E[Y] − π_min for w > 0 and iff ≥ for w < 0; an offer has expected wage U0 + c_H, utility U0 and profit E[Y] − U0 − c_H |
| CompressedContract.ScaledCounterOfferBreaksIncentive | SimTest/APPUITest5.py:451-482 | for p = (0.8, 0.2), c = (10, 0), Y = (50, 0) and the rejected pair (100, 0) the counter offer is (12.5, 0), which violates IC |
| CompressedContract.ShiftedCounterOffer | SimTest/APPUITest5.py:451-482 | the corrected counter offer is an error iff Δp = 0 |
| CompressedContract.ShiftedCounterOfferSound | SimTest/APPUITest5.py:451-482 | every corrected counter offer is accepted (IR and IC) and leaves the principal at least π_min; it is refused only when no IR contract can leave π_min |
| DrawnContract.Propose | SimTest/APPUITest3.py:208-217 | ValueError iff Y_H is not a whole number or round(w_H) > Y_H (randint's range is empty or not integral); otherwise the first call proposes w_H = U0 + c_H, later calls reuse the remembered draw, and always w_H − w_L = c_H − c_L |
| DrawnContract.Evaluate | SimTest/APPUITest3.py:244-248 | evaluate_contract accepts iff effort utility ≥ U0 and ≥ shirk utility, and stores those two utilities in place of the wages |
| DrawnContract.ChooseEffortIsBestResponse | SimTest/APPUITest3.py:250-251 | choosing on the stored utilities gives the best response to the evaluated contract |
| DrawnContract.ChooseEffort | SimTest/APPUITest3.py:250-251 | work when the stored effort utility exceeds or ties the shirk one, shirk when it is lower |
| DrawnContract.FirstProposalShortfall | SimTest/APPUITest3.py:212-217 | the first proposal gives effort utility U0 − (1 − p_H)·Δc |
| DrawnContract.PrincipalIncome | SimTest/APPUITest3.py:253-257 | the intended principal_income is the expected profit with the stored utilities standing in for the wages |
| DrawnContract.PrincipalIncomeAsWritten | SimTest/APPUITest3.py:253-257 | the work branch is the expected profit on the stored values; the shirk branch is that profit plus p_L + (1 − p_L)·(Y_H − stored UE) |
| DrawnContract.ShirkIncomeTypo | SimTest/APPUITest3.py:253-257 | the effort branch as written equals the intended one; the shirk branch exceeds it by p_L + (1 − p_L)·(Y_H − stored UE); for example it gives 10.5 where 5 is meant |
| NaiveContract.Evaluate | EntrustmentAgencyIncentiveMechanism/test14.py:183-187 | UA1 and UA0 are the agent's expected utilities under effort and shirking, IC = UA1 − UA0 and PC = UA1 − U0; the reported IC ≥ 0 iff IC holds, PC ≥ 0 iff IR holds, and UP is the principal's effort profit |
| NaiveContract.Naive | EntrustmentAgencyIncentiveMechanism/test14.py:193-203 | each wage is U0 plus the cost of the effort it pays for (w_H − c_H = w_L − c_L = U0), so the spread is c_H − c_L rather than Δc/Δp |
| NaiveContract.NaiveReportSlacks | EntrustmentAgencyIncentiveMechanism/test17.py:159-164 | for the optimal_contract wages the report shows PC = −(1 − p_H)·Δc and IC = −(1 − Δp)·Δc |
| NaiveContract.NaiveContractFailsParticipation | EntrustmentAgencyIncentiveMechanism/test14.py:193-203 | with c_H > c_L and p_H < 1 the contract the comment calls participation-minimal violates participation, and also IC when Δp < 1 |
| NaiveContract.NaiveGaps | EntrustmentAgencyIncentiveMechanism/test15.py:139-147 | under the naive wages effort utility is U0 − (1 − p_H)·Δc and the IC gap is −(1 − Δp)·Δc |
| NaiveContract.NaiveCounterexample | EntrustmentAgencyIncentiveMechanism/test14.py:193-203 | with p_H = 0.8, c_H = 20, c_L = 0, U0 = 0 the reported effort utility is −4 |
| NaiveContract.Binding | EntrustmentAgencyIncentiveMechanism/test14.py:193-203 | the contract at which IR and IC bind exists iff Δp > 0 |
| NaiveContract.BindingIsCheapestAccepted | EntrustmentAgencyIncentiveMechanism/test14.py:183-203 | the binding contract reports PC = IC = 0, and no accepted contract gives the principal more |
| LearningPrincipal.DrawCosts | SimTest/principal_agent_module_optimized.py:52-60 | fixed costs are returned unchanged when both are set; otherwise 0 ≤ c_L ≤ 0.5·c_H and c_H lies in [5, 0.4·(Y_H − Y_L)] |
| LearningPrincipal.Uniform | SimTest/principal_agent_module_optimized.py:58-59 | a uniform draw lies between its bounds |
| LearningPrincipal.AgentAcceptsIsParticipation | SimTest/principal_agent_module_optimized.py:74-80 | Agent.accept is exactly participation, which is weaker than IR-and-IC acceptance |
| LearningPrincipal.ExpectedProfit | SimTest/principal_agent_module_optimized.py:109-124 | the profit is 0 when the agent rejects; otherwise profit plus expected wage equals expected revenue under the agent's best-response effort |
| LearningPrincipal.AnalyticalContractEarnsNothing | SimTest/principal_agent_module_optimized.py:129-138 | when the principal's own cost draw equals the agent's costs, the analytical contract said to bind IR and IC is rejected for c_H > c_L and p_H < 1, so it earns 0 |
| LearningPrincipal.Actions | SimTest/principal_agent_module_optimized.py:168-173 | the action list holds exactly the grid pairs with w_H ≥ w_L |
| LearningPrincipal.Row | SimTest/principal_agent_module_optimized.py:170-172 | one high wage's row holds exactly the low-grid wages not above it |
| LearningPrincipal.InitialQ | SimTest/principal_agent_module_optimized.py:174 | Q starts with one zero entry per action |
| LearningPrincipal.QUpdate | SimTest/principal_agent_module_optimized.py:186-187 | only Q[idx] changes; it moves toward the reward without overshooting for α ∈ [0, 1]; it is the reward at α = 1 and unchanged at α = 0 |
| LearningPrincipal.ChooseActionIndex | SimTest/principal_agent_module_optimized.py:190-193 | the index is in range; it is the random index when exploring, otherwise the first maximal Q index, as np.argmax picks it (every earlier Q is strictly smaller); an empty table is a ValueError |
| LearningPrincipal.Train | SimTest/principal_agent_module_optimized.py:180-187 | training keeps the table size, fails only for an empty action list, and is the identity on no episodes |
| LearningPrincipal.TrainKeepsBounds | SimTest/principal_agent_module_optimized.py:180-187 | with α ∈ [0, 1], Q values and rewards in [lo, hi] stay in [lo, hi] through training |
| LearningPrincipal.ProposeContract | SimTest/principal_agent_module_optimized.py:196-202 | the proposal is the action at the first maximal Q index, as np.argmax picks it: its Q is maximal and every earlier Q is strictly smaller; training happens only when every Q is 0 |
| EffortGrid.UtilHigh | EntrustmentAgencyIncentiveMechanism/test13.py:47-50 | agent_util_high is the shared model's effort utility with revenue R in both states |
| EffortGrid.UtilLow | EntrustmentAgencyIncentiveMechanism/test13.py:51-53 | agent_util_low is the expected wage under p_L, with no cost term |
| EffortGrid.Profit | EntrustmentAgencyIncentiveMechanism/test13.py:55-64 | principal_profit is R minus the expected wage of the chosen effort |
| EffortGrid.FeasibleIsAccepted | EntrustmentAgencyIncentiveMechanism/test13.py:81-85 | the search's filter is exactly IR-and-IC acceptance |
| EffortGrid.Cell | EntrustmentAgencyIncentiveMechanism/test13.py:77-87 | a profit-matrix cell is non-NaN iff the pair is feasible, and then it holds the effort profit |
| EffortGrid.GridSearch | EntrustmentAgencyIncentiveMechanism/test13.py:66-90 | every cell is as in Cell; the result is None iff no cell is feasible; otherwise it is the first feasible cell of maximal profit |
| EffortGrid.GridSearchFeasibility | EntrustmentAgencyIncentiveMechanism/test13.py:73-90 | the chosen contract satisfies IR and IC, and no feasible pair earns more |
| EffortGrid.SimulateOutcome | EntrustmentAgencyIncentiveMechanism/test13.py:99-111 | None for an unknown effort label; otherwise the wage follows the drawn output, agent utility is wage − cost, and agent utility plus profit is R − cost |
| LinearBonus.BestEffort | EntrustmentAgencyIncentiveMechanism/opticalContrast.py:34-42 | no effort (the division by zero) iff b > 0 and c = 0; 0 for b ≤ 0; otherwise e* solves 2c·e* = b, and it is positive for b, c > 0 |
| LinearBonus.BestEffortMaximises | EntrustmentAgencyIncentiveMechanism/opticalContrast.py:12-13 | for c > 0, e* exists and maximises w + b·e − c·e² over e ≥ 0; for b > 0 the loss from another effort is c·(e − e*)² |
| LinearBonus.AgentUtility | EntrustmentAgencyIncentiveMechanism/opticalContrast.py:44-50 | zero effort is worth w, and for c > 0 no effort is worth more than w + b²/(4c) |
| LinearBonus.Profit | EntrustmentAgencyIncentiveMechanism/opticalContrast.py:52-56 | zero effort costs the principal w, and profit plus agent utility is P·e − c·e² for every c (wage and bonus are transfers) |
| LinearBonus.Simulate | EntrustmentAgencyIncentiveMechanism/test2.py:51-67 | ZeroDivisionError iff b > 0 and c = 0; otherwise simulate returns e*, and agent utility plus profit is P·e* − c·e*²; b ≤ 0 gives (0, w, −w) |
| BonusSearch.Evaluate | EntrustmentAgencyIncentiveMechanism/opticalContrast.py:78-85 | a point keeps its (w, b); it is unbounded (numpy's e = +inf, u_agent NaN, profit NaN for P ≥ 0 and −inf for P < 0) iff b > 0 and c = 0; otherwise its effort is the best response and utility plus profit is the surplus P·e − c·e² |
| BonusSearch.Score | EntrustmentAgencyIncentiveMechanism/opticalContrast.py:85-88 | the strict-improvement scan never takes a point iff it is unbounded (NaN and −inf never beat the best) or the check is on and u_agent < outside_option; otherwise it sees the point's profit |
| BonusSearch.Scores | EntrustmentAgencyIncentiveMechanism/opticalContrast.py:78-88 | the score matrix is rectangular and holds Score at every (w, b) |
| BonusSearch.Search | EntrustmentAgencyIncentiveMechanism/opticalContrast.py:78-99 | no point is found iff no score beats the floor; otherwise the first point of maximal profit, which is finite and participates when checked |
| BonusSearch.SearchResultIsOptimal | EntrustmentAgencyIncentiveMechanism/opticalContrast.py:89-99 | the returned profit is at least that of every participating grid point |
| BonusSearch.OpticalSearch | EntrustmentAgencyIncentiveMechanism/opticalContrast.py:58-99 | with no feasible point the result is (0, 0, 0, 0, −1e15), below the −1e14 sentinel; otherwise a finite participating first maximum |
| BonusSearch.ImprovedSearch | EntrustmentAgencyIncentiveMechanism/test3.py:54-75 | with nothing feasible the fields are None and the profit is −1e9; otherwise the first participating point of maximal profit |
| BonusSearch.UncheckedSearch | EntrustmentAgencyIncentiveMechanism/test2.py:330-349 | with Python floats and no participation check: ZeroDivisionError iff some grid point is unbounded, i.e. iff c = 0, the w grid is non-empty and some b > 0; otherwise the first (w, b) of strictly greatest profit, or (0, 0, 0) |
| BonusSearch.UnboundedSomewhere | EntrustmentAgencyIncentiveMechanism/test2.py:340-346 | some grid point divides by zero iff c = 0, the w grid is non-empty and some b > 0 |
| BonusSearch.UncheckedScoresEverything | EntrustmentAgencyIncentiveMechanism/test2.py:340-349 | without the check exactly the finite grid points are scored, each with its profit |
| BonusSearch.Frange | EntrustmentAgencyIncentiveMechanism/test2.py:365-370 | for step > 0 yields start + k·step in increasing order while ≤ stop + 1e-9, and the next value would exceed it; a start already past the limit yields nothing |
| BonusSearch.FeasibleRowMembers | EntrustmentAgencyIncentiveMechanism/test5.py:259-276 | a point is collected from a row iff some b yields it and `ua < u0` does not skip it (never for an unbounded point, whose ua is NaN) |
| BonusSearch.FeasiblePointsMembers | EntrustmentAgencyIncentiveMechanism/test5.py:259-276 | a point is collected from the grid iff some (w, b) yields it and the participation test does not skip it |
| BonusSearch.CollectFeasible | EntrustmentAgencyIncentiveMechanism/test5.py:259-276 | the collection loop builds exactly the points the participation test keeps, in w-outer, b-inner order |
| BonusSearch.FloatArgMax | EntrustmentAgencyIncentiveMechanism/test5.py:289-290 | np.argmax on doubles: an index no element is above (NaN above all, −inf below every number), and every earlier element lies strictly below it |
| BonusSearch.ScanReport | EntrustmentAgencyIncentiveMechanism/test5.py:259-293 | None iff no point is kept; otherwise np.argmax's pick: a kept grid point that no kept point is above in numpy's order, the first such; its profit is NaN if any point's is; with c ≠ 0 a finite point of greatest kept profit |
| BonusSearch.HeatCell | EntrustmentAgencyIncentiveMechanism/test6.py:237-249 | a cell is masked iff ua < u0 skips the point; otherwise it holds the finite profit or utility, or for an unbounded point NaN utility or its NaN/−inf profit |
| BonusSearch.Heatmap | EntrustmentAgencyIncentiveMechanism/test6.py:237-251 | z is indexed [b][w] with every cell as in HeatCell; valid_count counts the unmasked cells, unbounded ones included; with c ≠ 0 every unmasked cell is finite |
| TrustMarket.Init | Simsoft/sim_soft_4.py:877-880 | the good count is round(total·q0) within ½, the counts add to total, and trust starts at q0 |
| TrustMarket.Share | Simsoft/sim_soft_4.py:891 | q_t·(high + low) = high when there are cars, and q_t = high otherwise (division by 1) |
| TrustMarket.Price | Simsoft/sim_soft_4.py:892 | p_t − V_L = τ·(V_H − V_L); full trust gives V_H and none gives V_L |
| TrustMarket.Exits | Simsoft/sim_soft_4.py:894 | for τ ≤ 1 and V_L ≤ V_H, good sellers exit iff high > 0, τ < 1 and V_L < V_H |
| TrustMarket.NextTrust | Simsoft/sim_soft_4.py:898-900 | the updated trust lies in [0, 1] |
| TrustMarket.Step | Simsoft/sim_soft_4.py:890-907 | share and price are taken before any exit; with price < V_H and high > 0, between 1 and high sellers exit; low is unchanged; the row logs post-step counts with pre-step share and price; V_H = 0 is a ZeroDivisionError |
| TrustMarket.ShareIsFraction | Simsoft/sim_soft_4.py:891 | q_t = high/max(high + low, 1) lies in [0, 1] |
| TrustMarket.PriceBetweenValues | Simsoft/sim_soft_4.py:892 | for trust in [0, 1] the price lies between V_L and V_H |
| TrustMarket.DistrustForcesExit | Simsoft/sim_soft_4.py:894-897 | with trust < 1, V_L < V_H and good cars left, some good sellers exit |
| TrustMarket.TrustMovesTowardShare | Simsoft/sim_soft_4.py:898-900 | for β ∈ [0, 1] the new trust lies between the old trust and the share |
| TrustMarket.Append | Simsoft/sim_soft_4.py:902-907 | appending a row keeps the five lists the same length and grows them by one |
| TrustMarket.Run | SimTest/APPUITest5.py:795-806 | at most `steps` rows in five aligned lists; the terminal message is logged iff the run stopped early on high = 0; high never rises, low stays fixed, trust stays in [0, 1] |
| TrustMarket.TeachingRun | Simsoft/sim_soft_4.py:1017-1060 | steps ≤ 0 leaves the history empty and reading its last row is an IndexError; otherwise it stops after the first step logging high = 0, and the summary's final count is at most the initial one |
| SellerRemoval.AveragePrice | EntrustmentAgencyIncentiveMechanism/test17.py:230 | the expected price is the car-weighted average of the two values |
| SellerRemoval.AverageBelowHigh | EntrustmentAgencyIncentiveMechanism/test15.py:206-209 | with bad cars on offer and lv < hv the average price stays below hv |
| SellerRemoval.AverageWithoutLemons | EntrustmentAgencyIncentiveMechanism/test15.py:206-209 | with no bad cars the average price is exactly hv |
| SellerRemoval.SimulateMarket | EntrustmentAgencyIncentiveMechanism/test17.py:218-235 | the lists have equal length, at most 1002; the rounds count up from 0, the final one possibly logged twice; h starts at h0, stays ≥ 0 after the start, never rises for step ≥ 0, and l is constant; the loop stops at h ≤ 0, at price ≥ hv, or at round 1000; only a negative l can divide by zero |
| SellerRemoval.SimulateWithLemons | EntrustmentAgencyIncentiveMechanism/test15.py:202-211 | with bad cars worth less the loop ends only at h = 0 or at round 1000 |
| SellerRemoval.SimulateWithoutLemons | EntrustmentAgencyIncentiveMechanism/test15.py:202-211 | with no bad cars it stops at once, giving rounds [0, 0] and counts [h0, h0] |
| UsedCarRound.OfferPrice | EntrustmentAgencyIncentiveMechanism/test7.py:114-115 | the offer is 4 + 6·belief, so it lies in [4, 10] for a belief in [0, 1] |
| UsedCarRound.BeliefPrices | EntrustmentAgencyIncentiveMechanism/test7.py:123-131 | a detected car fetches its true value when checking, every other car the offer price |
| UsedCarRound.FixedPrices | EntrustmentAgencyIncentiveMechanism/test2.py:115-125 | a detected car fetches its true value when checking, every other car 5.0 |
| UsedCarRound.Trade | EntrustmentAgencyIncentiveMechanism/test7.py:123-148 | n_sold ≤ n_cars; zero sales report (0, 0); otherwise the average price is revenue / n_sold and the good share lies in [0, 1] |
| UsedCarRound.UniformPriceSales | EntrustmentAgencyIncentiveMechanism/test7.py:123-138 | at one common price good cars sell iff it is ≥ 8 and bad cars iff it is ≥ 3 |
| UsedCarRound.UniformPriceRevenue | EntrustmentAgencyIncentiveMechanism/test7.py:123-138 | at one common price the revenue is that price times the number sold |
| UsedCarRound.UncheckedFixedRound | EntrustmentAgencyIncentiveMechanism/test2.py:115-138 | without checking no good car sells, the good share is 0, every bad car sells, and any sale averages 5, which is the revenue over the number sold |
| UsedCarRound.UpdateBelief | EntrustmentAgencyIncentiveMechanism/test7.py:146-148 | the belief moves toward the good share by rate·(share − belief); for a rate in [0, 1] it lies between the two |
| UsedCarRound.BeliefRound | EntrustmentAgencyIncentiveMechanism/test3.py:107-147 | zero sales give (0, 0); otherwise the average price is the revenue over the number sold and the good share is the good sales over the number sold, at the prices the belief sets; the belief is updated toward that share and stays in [0, 1]; without checking the sales are the good cars if offer ≥ 8 plus the bad cars if offer ≥ 3 |
| UsedCarRound.FixedMarket | EntrustmentAgencyIncentiveMechanism/test.py:99-148 | cars are generated only when the list is empty; zero sales give (0, 0); otherwise the average price is the revenue over the number sold and the good share is the good sales over the number sold, at the fixed prices; without checking no good car sells and the average is 5 |
| TheftInsurance.Utility | SimTest/APPUITest3.py:753-759 | −∞ exactly for non-positive wealth; otherwise log or the CRRA kernel, log when \|γ − 1\| < 1e-8 |
| TheftInsurance.Lottery | Simsoft/sim_soft_4.py:1226-1227 | with positive wealth in both outcomes the expected utility is the finite (1 − p)·u(good) + p·u(bad); a ruinous bad outcome gives −∞ when it has positive probability and NaN (0·−∞) when it has none |
| TheftInsurance.Analyse | Simsoft/sim_soft_4.py:1215-1241 | premium is d·p; EU_no_dev and EU_dev are the lotteries over w / w − d and w − c_d / w − d − c_d with probabilities p and p_d; U_no_dev = u(w − d·p) and U_dev = u(w − d·p − c_d); uninsured, the device is installed iff EU_dev > EU_no_dev (strict float comparison); insured, iff U_dev > U_no_dev; the owner insures iff U_no_dev ≥ max(EU_no_dev, EU_dev) with Python's max; the actual probability is clamped to [0, 1] |
| TheftInsurance.CostlyDeviceNotInstalledWhenInsured | Simsoft/sim_soft_4.py:1232-1234 | with a strictly increasing utility, c_d > 0 means the insured owner does not install |
| TheftInsurance.PositiveWealthFinite | SimTest/APPUITest3.py:768-788 | when wealth stays positive in every outcome, no NaN or −∞ appears in the expected utilities |
| TheftInsurance.RuinWithZeroProbability | SimTest/APPUITest3.py:773-781 | with p = 0 and ruinous theft, EU_no_dev is NaN, and neither the device nor the insurance comparison succeeds |
| TheftInsurance.ExtraPayout | SimTest/APPUITest5.py:1030-1033 | the extra payout is 0 unless the true probability exceeds p; it is ≥ 0 and at most d·(1 − p) for d ≥ 0 |
| TheftInsurance.Decide | SimTest/APPUITest5.py:1012-1045 | cat ∈ {0..3}; cat ≥ 2 iff insure; cat = 1 iff uninsured with device; cat = 2 iff insured with device; extra loss is non-zero only when insured and at most d·(1 − p) |
| TheftInsurance.Category | SimTest/APPUITest5.py:1036-1043 | the heat-map code lies in 0..3 and is ≥ 2 iff the client insures |
| TheftInsurance.Decode | SimTest/APPUITest5.py:1092-1093 | on the codes 0..3 it inverts Category: each code decodes to the insure and install flags it was built from |
| TheftInsurance.CategoryRoundTrip | SimTest/APPUITest5.py:1036-1093 | decoding the category of any decision gives the decision back |
| TheftInsurance.DecodeRecoversDecision | SimTest/APPUITest5.py:1090-1093 | decoding the category gives back the (insured, install) decision sim_soft_4 computes directly |
| TheftInsurance.UnconditionedPayout | Simsoft/sim_soft_4.py:1238-1241 | the older files' extra payout is non-negative for d ≥ 0 |
| TheftInsurance.PayoutVariantsAgreeWhenInsured | SimTest/APPUITest3.py:785-788 | the two payout variants agree for an insured owner; an uninsured one gets 0 in APPUITest5 |
| TheftInsurance.NoHazardNoExtraPayout | Simsoft/sim_soft_4.py:1238-1241 | with q ≤ 0 and p_d ≤ p the insurer pays nothing extra |
| TheftInsurance.PolicyMap | SimTest/APPUITest5.py:1048-1060 | cell [i][j] of both grids is _decide at (g_vals[i], q_vals[j]); every category is in 0..3 and every hazard is ≥ 0 for d ≥ 0 |
| EffortInsurance.TheftProbability | EntrustmentAgencyIncentiveMechanism/test7.py:168-173 | the probability lies in [0, 1] and is p0 − α·effort when that is already in range |
| EffortInsurance.EffortLowersTheft | EntrustmentAgencyIncentiveMechanism/test7.py:168-173 | in the linear model with α ≥ 0, more effort never raises the theft probability |
| EffortInsurance.NetCoverage | EntrustmentAgencyIncentiveMechanism/test4.py:157-170 | the improved models pay max(0, coverage − deductible) ≥ 0; the early ones pay the coverage |
| EffortInsurance.SimulateOne | EntrustmentAgencyIncentiveMechanism/test7.py:175-181 | company profit = premium − p·(net coverage) |
| EffortInsurance.InsuranceIsTransfer | EntrustmentAgencyIncentiveMechanism/test.py:175-194 | the insured's expected return plus the insurer's profit is the expected value of the bicycle |
| EffortInsurance.SaferInsuredMoreProfitable | EntrustmentAgencyIncentiveMechanism/test3.py:165-178 | a lower theft probability never lowers the insurer's profit when the payout is non-negative |
| EffortInsurance.Outcomes | EntrustmentAgencyIncentiveMechanism/test2.py:170-186 | one plain-model outcome per effort in the list |
| EffortInsurance.SumProbBounds | EntrustmentAgencyIncentiveMechanism/test2.py:170-186 | summed probabilities lie in [0, n] |
| EffortInsurance.GroupProfitIdentity | EntrustmentAgencyIncentiveMechanism/test2.py:170-186 | the total insurer profit is n·premium − coverage·Σp |
| EffortInsurance.GroupProbBounds | EntrustmentAgencyIncentiveMechanism/test2.py:170-186 | the summed theft probabilities of a group lie in [0, n] |
| EffortInsurance.GroupProfit | EntrustmentAgencyIncentiveMechanism/test2.py:170-186 | the group's total insurer profit is n·premium − coverage·Σp |
| EffortInsurance.SimulateGroup | EntrustmentAgencyIncentiveMechanism/test2.py:170-186 | an empty list is a ZeroDivisionError; otherwise averages of probability and return, and the summed company profit |
| Signaling.Calculate | Simsoft/sim_soft_4.py:1403-1449 | rejects a2 ≤ a1, then c1 ≤ c2; a zero cost crashes; otherwise e_L·c1 = e_H·c2 = a2 − a1, and e* is the midpoint, present iff e_L < e_H |
| Signaling.SeparatingIffSameSign | SimTest/APPUITest3.py:918-938 | for a2 > a1 and c1 > c2 with non-zero costs, separation holds iff c2 > 0 or c1 < 0 |
| Signaling.MidpointSeparates | SimTest/APPUITest5.py:1227-1257 | with 0 < c2 < c1, e_L < e* < e_H: the low type loses by imitating and the high type gains by signalling e* |
| Signaling.PlotThreshold | EntrustmentAgencyIncentiveMechanism/test17.py:306-307 | a threshold is NaN iff its cost is 0, else it times the cost is a2 − a1 |
| Signaling.PlotMatchesCalculation | EntrustmentAgencyIncentiveMechanism/test17.py:306-307 | where both apply, the plotted thresholds are the calculated e_L and e_H |
| Signaling.ComputeEquilibrium | EntrustmentAgencyIncentiveMechanism/test12.py:46-57 | error iff c1 = 0; low type (0, R_low); high type ((R_high − R_low)/c1, R_high); warning iff R_high − c2·e_high < R_low |
| Signaling.TypeUtility | EntrustmentAgencyIncentiveMechanism/test12.py:59-73 | the high type's utility plus c2·e is R_high; the low type's plus c1·e is R_low |
| Signaling.LowTypeIndifferent | EntrustmentAgencyIncentiveMechanism/test12.py:20-24 | at e_high the low type is exactly indifferent: R_high − c1·e_high = R_low |
| Signaling.NoWarningUnderSingleCrossing | EntrustmentAgencyIncentiveMechanism/test12.py:22-24 | with c1 > 0, c2 ≤ c1 and R_high ≥ R_low the warning never fires |
| Signaling.TypeUtilityNonIncreasing | EntrustmentAgencyIncentiveMechanism/test12.py:59-73 | with non-negative costs, utility never rises with education |
| EducationScreening.EffectiveInvest | EntrustmentAgencyIncentiveMechanism/test3.py:192-196 | the clamping classes raise a negative invest to 0; the others use it as given |
| EducationScreening.LaborUtility | EntrustmentAgencyIncentiveMechanism/test7.py:191-196 | wage·ability − c·e² when e ≥ threshold, else −c·e² |
| EducationScreening.FirmPayoff | EntrustmentAgencyIncentiveMechanism/test7.py:197-202 | 0 below the threshold; otherwise payoff plus wage is the output (10 + 10·ability, or (wage + 10)·ability in test.py) |
| EducationScreening.HiringPremium | EntrustmentAgencyIncentiveMechanism/test5.py:96-101 | being hired is worth exactly wage·ability to the worker |
| EducationScreening.ThresholdMonotone | EntrustmentAgencyIncentiveMechanism/test6.py:70-82 | raising the threshold never helps the worker, and changes the firm's payoff only by dropping a hire |
| EducationScreening.MoreEducationCostsMore | EntrustmentAgencyIncentiveMechanism/test6.py:70-75 | on the same side of the threshold, more non-negative education never raises the worker's utility |
| EducationScreening.ClampOnlyForNegative | EntrustmentAgencyIncentiveMechanism/test4.py:184-189 | the clamp changes nothing for invest ≥ 0 and treats a negative invest as 0 |
| EducationScreening.HireProfitable | EntrustmentAgencyIncentiveMechanism/test.py:225-237 | test.py's firm earns at least 10 from an able worker; the improved firm profits iff wage < 10 + 10·ability |
| EducationScreening.SimulateAsWritten | EntrustmentAgencyIncentiveMechanism/test3.py:192-209 | simulate as written: the worker's side uses the clamped invest, the firm the raw one |
| EducationScreening.ClampedWorkerPaidWithoutHire | EntrustmentAgencyIncentiveMechanism/test3.py:192-209 | invest −1 with threshold 0 pays the worker 50 while the firm does not hire |
| EducationScreening.Simulate | EntrustmentAgencyIncentiveMechanism/test6.py:70-87 | the corrected simulate (test3, test4 and test6 as written let the firm test the raw invest, see SimulateAsWritten): worker and firm both decide on the clamped investment |
| EducationScreening.SimulateHiresConsistently | EntrustmentAgencyIncentiveMechanism/test6.py:64-87 | the worker is paid iff the firm hires, and the result equals the as-written one for invest ≥ 0 |
| EducationScreening.Candidates | EntrustmentAgencyIncentiveMechanism/test3.py:215 | the candidate thresholds are 0, 0.5, …, 9.5 |
| EducationScreening.AllHiredTotal | EntrustmentAgencyIncentiveMechanism/test3.py:217-224 | when everyone invests the threshold, the firm's total is the surplus, whatever the threshold |
| EducationScreening.FindOptimalThreshold | EntrustmentAgencyIncentiveMechanism/test4.py:203-220 | IndexError iff a cost or wage list is shorter; otherwise best_s = 0.0, every candidate's total is at most the best, and the best is max(−1e9, surplus) |
| EducationScreening.EduScan | EntrustmentAgencyIncentiveMechanism/test5.py:503-531 | threshold mode fixes invest = 2 and hires iff the threshold ≤ 2; invest mode fixes threshold = 2 and hires iff invest ≥ 2 |
| RiskPreference.ClampLoss | EntrustmentAgencyIncentiveMechanism/dist/test10.py:33-37 | the payoff is raised to −0.9999 if below it and kept otherwise |
| RiskPreference.Utility | EntrustmentAgencyIncentiveMechanism/dist/test10.py:23-60 | a risk lover's utility stays above −1; above the loss floor, neutral and unknown attitudes return x, and the risk lover returns x only at 0 |
| RiskPreference.Convex | EntrustmentAgencyIncentiveMechanism/dist/test10.py:54-56 | (c + 1)² − 1 above the floor exceeds −1 and meets the identity only at 0 |
| RiskPreference.UtilityAtZero | EntrustmentAgencyIncentiveMechanism/dist/test10.py:39-60 | every attitude values 0 at 0 (the averse branch is 1 − exp(0)) |
| RiskPreference.UtilityMonotone | EntrustmentAgencyIncentiveMechanism/dist/test10.py:24-60 | every attitude prefers more to less (the averse one for a > 0 and an increasing exp) |
| RiskPreference.PreferringAboveNeutralOnGains | EntrustmentAgencyIncentiveMechanism/dist/test10.py:51-60 | neutral returns x; on gains preferring (x + 1)² − 1 is at least x |
| RiskPreference.ComputeExpectedUtility | EntrustmentAgencyIncentiveMechanism/dist/test10.py:62-73 | the loop computes Σ utility(x_i)·p_i over the zipped lists |
| RiskPreference.ExpectedUtility | EntrustmentAgencyIncentiveMechanism/dist/test10.py:62-73 | an empty outcome or probability list gives 0 |
| RiskPreference.ZipIgnoresExtra | EntrustmentAgencyIncentiveMechanism/dist/test10.py:70-71 | zip pairs only the common prefix: the expectation equals the one over both lists cut to the shorter length |
| RiskPreference.WeightedMonotone | EntrustmentAgencyIncentiveMechanism/dist/test10.py:62-73 | pointwise larger utilities with non-negative probabilities give a larger expectation |
| RiskPreference.WeightedCongruent | EntrustmentAgencyIncentiveMechanism/dist/test10.py:62-73 | utilities agreeing on the outcomes give the same expectation |
| RiskPreference.NeutralExpectedUtilityIsMean | EntrustmentAgencyIncentiveMechanism/dist/test10.py:51-73 | above the floor, neutral expected utility is the expected payoff |
| RiskPreference.PreferringExpectsMoreOnGains | EntrustmentAgencyIncentiveMechanism/dist/test10.py:51-73 | over gains, a risk lover's expected utility is at least the neutral one |
| RiskPreference.ExpectedUtilityPair | EntrustmentAgencyIncentiveMechanism/dist/test10.py:62-73 | a two-outcome expectation is f(x)·p + f(y)·q |
| RiskPreference.BestChoice | EntrustmentAgencyIncentiveMechanism/dist/test10.py:75-93 | (None, −1e9) iff every EU ≤ −1e9 (including the empty list); otherwise the first choice of maximal EU |
| RiskPreference.Scenario | EntrustmentAgencyIncentiveMechanism/dist/test10.py:95-113 | invest iff EU of [gain, −loss] under [p, 1 − p] exceeds utility(0) |
| RiskPreference.NeutralScenarioCapsLoss | EntrustmentAgencyIncentiveMechanism/dist/test10.py:106-113 | a neutral investor invests iff gain·p − min(loss, 0.9999)·(1 − p) > 0 |
| NormalisedUtility.Curve | SimulationSoftware/RiskPreferenceModule.py:143-165 | the curve raises ValueError iff averse, with nature off, on a negative rescaled payoff |
| NormalisedUtility.Utility | SimulationSoftware/RiskPreferenceModule.py:127-166 | equal payoffs y1 = y2 are a ZeroDivisionError; otherwise it fails only where the averse curve does |
| NormalisedUtility.LinearIsIdentity | SimulationSoftware/RiskPreferenceModule.py:132-165 | with y1 ≠ y2, neutral or nature returns x itself for every x ≥ −0.9999 |
| NormalisedUtility.EndpointsFixed | SimulationSoftware/RiskPreferenceModule.py:143-165 | every attitude maps y1 to y1 and y2 to y2 |
| NormalisedUtility.CurvesAroundIdentity | SimulationSoftware/RiskPreferenceModule.py:148-165 | on [0, 1], t² ≤ t ≤ √t |
| NormalisedUtility.CurvatureBounds | SimulationSoftware/RiskPreferenceModule.py:148-165 | between the payoffs, preferring never exceeds x and averse never falls below x |
| NormalisedUtility.AverseFailsBelowRange | SimulationSoftware/RiskPreferenceModule.py:148-155 | below the lower payoff the averse utility raises ValueError |
| NormalisedUtility.ExpectedPair | SimulationSoftware/RiskPreferenceModule.py:168-178 | a two-outcome expectation is u(x)·p + u(y)·q, failing with the first failure |
| NormalisedUtility.NeutralExpectedIsMean | SimulationSoftware/RiskPreferenceModule.py:168-178 | neutral expected utility is the expected payoff |
| NormalisedUtility.ExpectedRaisesFirst | SimulationSoftware/RiskPreferenceModule.py:168-178 | the expectation raises iff some outcome's utility raises, and then raises the first such error |
| NormalisedUtility.CalculateAsWritten | SimulationSoftware/RiskPreferenceModule.py:95-120 | a negative probability, then a sum ≠ 1, is rejected before anything is computed |
| NormalisedUtility.Validate | SimulationSoftware/RiskPreferenceModule.py:95-101 | the probabilities are accepted iff both are ≥ 0 and they sum to 1; a negative one is reported before a bad sum |
| NormalisedUtility.ProbabilitiesDetachFromPayoffs | SimulationSoftware/RiskPreferenceModule.py:113-120 | entering (20, 0.75), (10, 0.25) shows 12.5; the same lottery in the other order shows 17.5, its true mean |
| NormalisedUtility.Calculate | SimulationSoftware/RiskPreferenceModule.py:95-120 | the same validation; equal payoffs give ZeroDivisionError |
| NormalisedUtility.CalculateOrderFree | SimulationSoftware/RiskPreferenceModule.py:113-120 | the corrected result does not depend on the order of the two (payoff, probability) pairs |
| NormalisedUtility.NeutralCalculateIsMean | SimulationSoftware/RiskPreferenceModule.py:113-178 | a neutral user is shown o1·p1 + o2·p2 |
| NormalisedUtility.Scenario | SimulationSoftware/RiskPreferenceModule.py:180-198 | invest iff EU(invest) > EU(not invest); equal stored payoffs give ZeroDivisionError |
| NormalisedUtility.AverseScenarioFailsOnDefaults | SimulationSoftware/RiskPreferenceModule.py:180-198 | with the default payoffs 10 and 20, the averse scenario raises ValueError, since utility(0) lies below the range |
| NormalisedUtility.NeutralScenarioAgrees | SimulationSoftware/RiskPreferenceModule.py:180-198 | a neutral user decides exactly as the test10 model does |
| Common.ScanFirstMax | EntrustmentAgencyIncentiveMechanism/test13.py:73-90 | the strict-improvement row-major scan finds a cell iff one beats the floor, and then the first cell of maximal value |
| Common.RoundHalfEven | Simsoft/sim_soft_4.py:879 | Python's round lies within ½ of its argument, strictly away from ties, and a tie goes to the even neighbour |
| Common.Trunc | Simsoft/sim_soft_4.py:403-404 | int() truncates toward zero |

## Left out

- Tk/ttkbootstrap/matplotlib presentation: windows, menus, logs, popups,
  plots, timers and report text. They hold no behaviour to state.
- File and report output: CSV/TXT export and report file names built from
  the date and a random number.
- Random number generation. Every draw is a parameter, checked against the
  range the generator promises. This covers `cost_set`, car generation and
  quality detection, `simulate_outcome`, training exploration and the cost
  draws.
- `round(x, 2)` on returned wages. Properties are stated of the unrounded
  values.
- Floating-point artefacts: accumulated `np.arange` steps and `frange`
  drift. Grids are exact input sequences.
- The logarithm, exp, sqrt and real powers. They are function-typed
  parameters, and math.pow's OverflowError is not modelled.
- `_random_demo`, `monte_carlo_ce`, RiskPreferenceCore and the
  certainty-equivalent pages. These are transcendental Monte Carlo with no
  stateable core.
- The `cost_set` of APPUITest3 and APPUITest5, which is only a pair of
  randint calls.
- The Q-learning `discount` parameter. It is stored and never used.
- `best_contract`: it is the argmax step of `propose_contract`, modelled there.
- The `nature` branch of RiskPreferenceModule's plotting. It is modelled
  only as the flag that selects the identity curve.
- Files with no core: test8.py, test9.py, test16.py and test18.py;
  SimulationSoftware/InsuranceModule.py, IncentiveMechanismModule.py,
  LemonsMarketModule.py, EducationSignalModule.py and SimAppUI.py;
  Simsoft/base_module.py; SimTest/risk_preference_module_optimized.py.
  They are widget stubs, fragments or transcendental printouts.
- LinearBonus.BestEffort: models the division by zero for b > 0 and c = 0
  as no effort. Simulate turns it into Python's ZeroDivisionError; the numpy
  searches of BonusSearch turn it into an unbounded point (e = +inf, NaN
  utility, NaN or −inf profit). Other float overflow is not modelled.
- BonusSearch.Frange: requires a positive step unless the start is already
  past the limit. With a non-positive step and start ≤ stop + 1e-9 the
  generator never ends, and that run is not modelled.
- DrawnContract.Propose: follows `random.randint` up to Python 3.11, where a
  whole-valued float bound is accepted. Python 3.12 rejects every float bound
  with TypeError, and that is not modelled.
- EffortInsurance.TheftProbability: the power `(1 − effort)**alpha` is a
  total parameter. A negative base with a non-integral α, which Python turns
  into a complex number and then a TypeError in `min`, is not modelled. Nor
  is 0 raised to a negative α, which raises ZeroDivisionError.
- RiskPreference.Utility: `math.exp` is a total parameter. Its OverflowError
  for exponents above about 709.78 is not modelled.
- LearningPrincipal.AnalyticalContractEarnsNothing: covers only the case
  where the principal's own cost draw equals the agent's costs. With
  independent draws the naive contract can be accepted or rejected either
  way.
- LinearShareContract.CostSet: requires the injected draws to lie in their
  randint ranges. An empty range, which the source reports as ValueError,
  is not modelled.
- TrustMarket.Step: `int(round(·))` on the exit count is Python's
  half-to-even round, written out exactly. Float error in the exit ratio is
  not modelled.

## Findings

| source | as written | input that shows it | evidently intended | confidence | as-written member | corrected member |
|---|---|---|---|---|---|---|
| EntrustmentAgencyIncentiveMechanism/test14.py:193-203 (same in test15.py:144-147, test17.py:159-164, SimTest/principal_agent_module_optimized.py:132-138) | w_H = U0 + c_H and w_L = w_H − Δc, said to bind participation and IC | p_H = 0.8, p_L = 0.2, c_H = 20, c_L = 0, U0 = 0: effort utility is −4 < U0 | the contract at which IR and IC bind: spread Δc/Δp and expected wage U0 + c_H | high; not executed | NaiveContract.NaiveContractFailsParticipation | NaiveContract.BindingIsCheapestAccepted |
| SimTest/APPUITest5.py:472-482 | the scaled counter offer multiplies both wages by α_ir, which shrinks the IC spread | p = (0.8, 0.2), c = (10, 0), Y = (50, 0), U0 = 0, π_min = 0, rejected (100, 0): offer (12.5, 0); effort is worth 0, shirking 2.5 | an offer meeting IR and IC (the docstring): shift both wages down equally until IR binds | high; not executed | CompressedContract.ScaledCounterOfferBreaksIncentive | CompressedContract.ShiftedCounterOfferSound |
| SimTest/APPUITest3.py:257 | shirk-branch principal_income adds p_low where it should multiply | p_L = 0.5, Y = (10, 0), stored (0, 0): 10.5 instead of 5 | p_low · (res_high − w_high) + (1 − p_low) · (res_low − w_low) | high; not executed | DrawnContract.ShirkIncomeTypo | DrawnContract.PrincipalIncome |
| EntrustmentAgencyIncentiveMechanism/test3.py:192-209 (same in test4.py:184-201, test6.py:70-87) | labor_utility clamps a negative invest to 0, but firm_payoff tests the raw invest | Student(ability 1, cost 0.1, wage 50), invest −1, threshold 0: the worker is paid 50 and the firm does not hire | both sides decide on the same clamped investment | medium; not executed | EducationScreening.ClampedWorkerPaidWithoutHire | EducationScreening.SimulateHiresConsistently |
| SimulationSoftware/RiskPreferenceModule.py:113-120 | the payoffs are swapped into ascending order but the probabilities are not | payoff 20 with p 0.75, payoff 10 with p 0.25: shows 12.5; the lottery's mean is 17.5 | keep each probability with its payoff when reordering | high; not executed | NormalisedUtility.ProbabilitiesDetachFromPayoffs | NormalisedUtility.CalculateOrderFree |
| Simsoft/sim_soft_4.py:332-345, 365-379 | agent_income reads self.w_high/self.w_low, which the early 50% fallbacks of propose_contract return without setting | Y = (10, 20), p = (0.9, 0.5), c = (1, 0), (0, 0) stored before: the returned proposal (5, 10) is worth 4.5 to a working agent, agent_income says −1; on a first call it raises AttributeError | agent_income reports on the proposal just returned | medium; not executed | LinearShareContract.StaleIncomeAfterFallback | LinearShareContract.AgentIncome |

=== FILE: binary_contract.dfy ===
/** The binary-outcome principal–agent model shared by every contract
    designer: output is high or low, effort raises the probability of high
    output, the agent is risk neutral and pays a private cost for the effort
    level chosen. */
module BinaryContract {

  /** Exogenous parameters: revenues Y_H, Y_L, the probabilities of high
      output under effort and under shirking, and the reservation utility. */
  datatype Env = Env(revHigh: real, revLow: real, pHigh: real, pLow: real, uRes: real)

  /** The agent's private costs of effort (c_H) and of shirking (c_L). */
  datatype Costs = Costs(effort: real, shirk: real)

  /** A wage pair: paid on high and on low output. */
  datatype Contract = Contract(wHigh: real, wLow: real)

  datatype Effort = Work | Shirk

  function ExpectedWage(p: real, k: Contract): real
  {
    p * k.wHigh + (1.0 - p) * k.wLow
  }

  function ExpectedRevenue(p: real, env: Env): real
  {
    p * env.revHigh + (1.0 - p) * env.revLow
  }

  function ProbOf(env: Env, e: Effort): real
  {
    if e == Work then env.pHigh else env.pLow
  }

  function CostOf(costs: Costs, e: Effort): real
  {
    if e == Work then costs.effort else costs.shirk
  }

  /** Agent's expected utility under effort `e`: expected wage minus the
      cost of `e` (sim_soft_4 writes it as p·(w_H−c)+(1−p)·(w_L−c), which is
      the same real number). */
  function Utility(env: Env, costs: Costs, k: Contract, e: Effort): real
  {
    ExpectedWage(ProbOf(env, e), k) - CostOf(costs, e)
  }

  /** Participation (IR): working is worth at least the outside option. */
  predicate Participates(env: Env, costs: Costs, k: Contract)
  {
    Utility(env, costs, k, Work) >= env.uRes
  }

  /** Incentive compatibility (IC): working is worth at least shirking. */
  predicate IncentiveCompatible(env: Env, costs: Costs, k: Contract)
  {
    Utility(env, costs, k, Work) >= Utility(env, costs, k, Shirk)
  }

  /** evaluate_contract in sim_soft_4 and APPUITest5: accept iff IR and IC. */
  predicate Accepts(env: Env, costs: Costs, k: Contract)
  {
    Participates(env, costs, k) && IncentiveCompatible(env, costs, k)
  }

  /** choose_effort: the effort with the larger expected utility, ties to
      effort. */
  function BestResponse(env: Env, costs: Costs, k: Contract): (e: Effort)
    ensures forall e' :: Utility(env, costs, k, e') <= Utility(env, costs, k, e)
    ensures e == Shirk ==> Utility(env, costs, k, Work) < Utility(env, costs, k, Shirk)
  {
    if Utility(env, costs, k, Work) >= Utility(env, costs, k, Shirk) then Work else Shirk
  }

  /** principal_income: expected revenue minus expected wage, both under
      the probability of the given effort. */
  function PrincipalProfit(env: Env, k: Contract, e: Effort): (r: real)
  {
    var p := ProbOf(env, e);
    p * (env.revHigh - k.wHigh) + (1.0 - p) * (env.revLow - k.wLow)
  }

  /** The principal's profit and the wage bill always add up to the
      expected revenue of the effort level. */
  lemma ProfitSplitsRevenue(env: Env, k: Contract, e: Effort)
    ensures PrincipalProfit(env, k, e) + ExpectedWage(ProbOf(env, e), k)
            == ExpectedRevenue(ProbOf(env, e), env)
  {
  }

  /** Working beats shirking by Δp·(w_H − w_L) − Δc. */
  lemma IncentiveGap(env: Env, costs: Costs, k: Contract)
    ensures Utility(env, costs, k, Work) - Utility(env, costs, k, Shirk)
            == (env.pHigh - env.pLow) * (k.wHigh - k.wLow) - (costs.effort - costs.shirk)
  {
  }

  /** With Δp > 0, IC holds exactly when the wage spread covers Δc/Δp. */
  lemma {:induction false} IncentiveCompatibleIffSpread(env: Env, costs: Costs, k: Contract)
    requires env.pHigh - env.pLow > 0.0
    ensures IncentiveCompatible(env, costs, k)
            <==> k.wHigh - k.wLow >= (costs.effort - costs.shirk) / (env.pHigh - env.pLow)
  {
    var dp := env.pHigh - env.pLow;
    var s := (costs.effort - costs.shirk) / dp;
    IncentiveGap(env, costs, k);
    assert s * dp == costs.effort - costs.shirk;
    if k.wHigh - k.wLow >= s {
      assert dp * (k.wHigh - k.wLow) >= dp * s;
    } else {
      assert dp * (k.wHigh - k.wLow) < dp * s;
    }
  }

  /** A contract whose spread is exactly Δc/Δp makes the agent indifferent
      between working and shirking (IC binds). */
  lemma {:induction false} SpreadMakesIndifferent(env: Env, costs: Costs, k: Contract)
    requires env.pHigh - env.pLow != 0.0
    requires k.wHigh - k.wLow == (costs.effort - costs.shirk) / (env.pHigh - env.pLow)
    ensures Utility(env, costs, k, Work) == Utility(env, costs, k, Shirk)
  {
    IncentiveGap(env, costs, k);
  }
}

=== FILE: bonus_search.dfy ===
/** Exhaustive searches over (w, b) grids for the linear-bonus model:
    find_optimal_contract in EntrustmentAgencyIncentiveMechanism/
    opticalContrast.py and in the ImprovedPrincipalAgentModel of test3.py,
    test4.py and test7.py; run_optimal_contract_search with frange in
    test2.py; the feasible-point scan of test5.py; and the participation
    heat map of test6.py. The grids (np.arange results) are inputs. */
module BonusSearch {
  import opened Common
  import opened LinearBonus

  /** The fixed parameters: cost factor c, outside option U0, price P. */
  datatype Terms = Terms(c: real, u0: real, price: real)

  /** A double as the numpy code holds it: a finite value, −inf or NaN. */
  datatype Float = Finite(x: real) | NegInf | NaN

  /** What a grid point offers: the agent's best effort, its utility, and
      the principal's profit at that effort. A positive bonus with c = 0 is
      `Unbounded`: numpy's b/(2c) is +inf, the utility w + b·e − c·e² is NaN
      (0·inf), and the profit P·e − (w + b·e) is NaN when P ≥ 0 and −inf
      when P < 0. */
  datatype Point =
    | Point(w: real, b: real, e: real, ua: real, profit: real)
    | Unbounded(w: real, b: real, nanProfit: bool)

  function Evaluate(t: Terms, w: real, b: real): (p: Point)
    ensures p.w == w && p.b == b
    ensures p.Unbounded? <==> b > 0.0 && t.c == 0.0
    ensures p.Unbounded? ==> (p.nanProfit <==> t.price >= 0.0)
    ensures p.Point? ==> BestEffort(b, t.c) == Some(p.e)
    ensures p.Point? ==> p.ua + p.profit == t.price * p.e - t.c * (p.e * p.e)
  {
    match BestEffort(b, t.c)
    case None => Unbounded(w, b, t.price >= 0.0)
    case Some(e) => Point(w, b, e, AgentUtility(w, b, e, t.c), Profit(t.price, w, b, e))
  }

  /** The participation test `ua < u0` does not skip the point. A NaN
      utility compares false, so an unbounded point is never skipped. */
  predicate Passes(t: Terms, p: Point)
  {
    p.Unbounded? || p.ua >= t.u0
  }

  /** The profit of a point as a double. */
  function ProfitValue(p: Point): Float
  {
    match p
    case Point(_, _, _, _, profit) => Finite(profit)
    case Unbounded(_, _, nanProfit) => if nanProfit then NaN else NegInf
  }

  /** The point's profit as the strict-improvement search sees it: None
      when the participation filter (if any) skips it, and None for an
      unbounded point, whose NaN or −inf profit never compares greater than
      the best so far. */
  function Score(t: Terms, w: real, b: real, check: bool): (s: Option<real>)
    ensures s.None? <==> Evaluate(t, w, b).Unbounded? || (check && !Passes(t, Evaluate(t, w, b)))
    ensures s.Some? ==> Evaluate(t, w, b).Point? && s.value == Evaluate(t, w, b).profit
  {
    var p := Evaluate(t, w, b);
    if p.Unbounded? || (check && p.ua < t.u0) then None else Some(p.profit)
  }

  /** The scores of the whole grid, w outer and b inner. */
  function Scores(t: Terms, ws: seq<real>, bs: seq<real>, check: bool): (m: seq<seq<Option<real>>>)
    ensures |m| == |ws| && Rectangular(m, |bs|)
    ensures forall i, j :: 0 <= i < |ws| && 0 <= j < |bs| ==> m[i][j] == Score(t, ws[i], bs[j], check)
  {
    seq(|ws|, i requires 0 <= i < |ws| => seq(|bs|, j requires 0 <= j < |bs| => Score(t, ws[i], bs[j], check)))
  }

  /** The loop shared by the searches (w outer, b inner): start from the
      floor, skip points failing participation when `check` is set, and
      keep a point only when its profit is strictly greater than the best
      so far. `found` is None exactly when no point beats the floor;
      otherwise it is the first point of maximal profit. */
  method Search(t: Terms, ws: seq<real>, bs: seq<real>, floor: real, check: bool)
    returns (found: Option<Point>, bestProfit: real)
    ensures found.None? <==> NoneAbove(Scores(t, ws, bs, check), |bs|, floor)
    ensures found.None? ==> bestProfit == floor
    ensures found.Some? ==>
              found.value.Point? && bestProfit == found.value.profit && bestProfit > floor
              && exists bi, bj :: 0 <= bi < |ws| && 0 <= bj < |bs|
                   && found.value == Evaluate(t, ws[bi], bs[bj])
                   && (check ==> found.value.ua >= t.u0)
                   && FirstMaxCell(Scores(t, ws, bs, check), |bs|, bi, bj, bestProfit)
  {
    var m := Scores(t, ws, bs, check);
    var ok, bi, bj, best := ScanFirstMax(m, |bs|, floor);
    if ok {
      found := Some(Evaluate(t, ws[bi], bs[bj]));
    } else {
      found := None;
    }
    bestProfit := best;
  }

  /** Every point a participation-checked search returns satisfies
      participation and earns at least as much as every point that does. */
  lemma {:induction false} SearchResultIsOptimal(t: Terms, ws: seq<real>, bs: seq<real>, bi: int, bj: int, best: real)
    requires 0 <= bi < |ws| && 0 <= bj < |bs|
    requires FirstMaxCell(Scores(t, ws, bs, true), |bs|, bi, bj, best)
    ensures forall i, j ::
              0 <= i < |ws| && 0 <= j < |bs| && Evaluate(t, ws[i], bs[j]).Point? && Evaluate(t, ws[i], bs[j]).ua >= t.u0
              ==> Evaluate(t, ws[i], bs[j]).profit <= best
  {
    var m := Scores(t, ws, bs, true);
    forall i, j | 0 <= i < |ws| && 0 <= j < |bs| && Evaluate(t, ws[i], bs[j]).Point?
                  && Evaluate(t, ws[i], bs[j]).ua >= t.u0
      ensures Evaluate(t, ws[i], bs[j]).profit <= best
    {
      assert m[i][j] == Score(t, ws[i], bs[j], true);
    }
  }

  /** find_optimal_contract in opticalContrast.py: the tuple
      (w, b, π, e, U_A) starts as (0, 0, −1e15, 0, 0). The caller treats a
      profit below −1e14 as "no feasible contract", which is what an
      untouched start gives. Unbounded points are never chosen. */
  method OpticalSearch(t: Terms, ws: seq<real>, bs: seq<real>) returns (r: Point)
    ensures r.Point?
    ensures NoneAbove(Scores(t, ws, bs, true), |bs|, -1000000000000000.0) ==>
              r == Point(0.0, 0.0, 0.0, 0.0, -1000000000000000.0) && r.profit < -100000000000000.0
    ensures !NoneAbove(Scores(t, ws, bs, true), |bs|, -1000000000000000.0) ==>
              r.profit > -1000000000000000.0 && r.ua >= t.u0
              && exists bi, bj :: 0 <= bi < |ws| && 0 <= bj < |bs| && r == Evaluate(t, ws[bi], bs[bj])
                   && FirstMaxCell(Scores(t, ws, bs, true), |bs|, bi, bj, r.profit)
  {
    var found, best := Search(t, ws, bs, -1000000000000000.0, true);
    r := if found.Some? then found.value else Point(0.0, 0.0, 0.0, 0.0, best);
  }

  /** ImprovedPrincipalAgentModel.find_optimal_contract (test3.py, test4.py,
      test7.py): the start is (None, None, −1e9, 0, 0). */
  datatype Improved = Improved(w: Option<real>, b: Option<real>, profit: real, e: real, ua: real)

  method ImprovedSearch(t: Terms, ws: seq<real>, bs: seq<real>) returns (r: Improved)
    ensures r.w.None? <==> NoneAbove(Scores(t, ws, bs, true), |bs|, -1000000000.0)
    ensures r.w.None? ==> r == Improved(None, None, -1000000000.0, 0.0, 0.0)
    ensures r.w.Some? ==>
              r.b.Some? && r.profit > -1000000000.0 && r.ua >= t.u0
              && exists bi, bj :: 0 <= bi < |ws| && 0 <= bj < |bs|
                   && Evaluate(t, ws[bi], bs[bj]) == Point(r.w.value, r.b.value, r.e, r.ua, r.profit)
                   && FirstMaxCell(Scores(t, ws, bs, true), |bs|, bi, bj, r.profit)
  {
    var found, best := Search(t, ws, bs, -1000000000.0, true);
    match found
    case None => r := Improved(None, None, best, 0.0, 0.0);
    case Some(p) => r := Improved(Some(p.w), Some(p.b), p.profit, p.e, p.ua);
  }

  /** run_optimal_contract_search (test2.py): no participation check, the
      best profit starts at −9999999 and the reported triple (w, b, π) at
      (0, 0, 0). The grid holds Python floats, so the first grid point with
      a positive bonus and c = 0 raises ZeroDivisionError. */
  method UncheckedSearch(t: Terms, ws: seq<real>, bs: seq<real>) returns (r: Result<(real, real, real)>)
    ensures r.Err? <==> exists i, j :: 0 <= i < |ws| && 0 <= j < |bs| && Evaluate(t, ws[i], bs[j]).Unbounded?
    ensures r.Err? <==> t.c == 0.0 && |ws| > 0 && exists j :: 0 <= j < |bs| && bs[j] > 0.0
    ensures r.Err? ==> r.error == ZeroDivisionError
    ensures r.Ok? && NoneAbove(Scores(t, ws, bs, false), |bs|, -9999999.0) ==> r.value == (0.0, 0.0, 0.0)
    ensures r.Ok? && !NoneAbove(Scores(t, ws, bs, false), |bs|, -9999999.0) ==>
              exists bi, bj :: 0 <= bi < |ws| && 0 <= bj < |bs| && r.value.0 == ws[bi] && r.value.1 == bs[bj]
                && Evaluate(t, ws[bi], bs[bj]).Point? && r.value.2 == Evaluate(t, ws[bi], bs[bj]).profit
                && FirstMaxCell(Scores(t, ws, bs, false), |bs|, bi, bj, r.value.2)
  {
    UnboundedSomewhere(t, ws, bs);
    if exists i, j :: 0 <= i < |ws| && 0 <= j < |bs| && Evaluate(t, ws[i], bs[j]).Unbounded? {
      r := Err(ZeroDivisionError);
    } else {
      var found, best := Search(t, ws, bs, -9999999.0, false);
      match found
      case None => r := Ok((0.0, 0.0, 0.0));
      case Some(p) => r := Ok((p.w, p.b, p.profit));
    }
  }

  /** Some grid point divides by zero exactly when c = 0, the w grid is
      non-empty and some bonus of the b grid is positive. */
  lemma UnboundedSomewhere(t: Terms, ws: seq<real>, bs: seq<real>)
    ensures (exists i, j :: 0 <= i < |ws| && 0 <= j < |bs| && Evaluate(t, ws[i], bs[j]).Unbounded?)
            <==> t.c == 0.0 && |ws| > 0 && exists j :: 0 <= j < |bs| && bs[j] > 0.0
  {
    if t.c == 0.0 && |ws| > 0 && exists j :: 0 <= j < |bs| && bs[j] > 0.0 {
      var j :| 0 <= j < |bs| && bs[j] > 0.0;
      assert Evaluate(t, ws[0], bs[j]).Unbounded?;
    }
  }

  /** Without the participation check every finite grid point is scored. */
  lemma UncheckedScoresEverything(t: Terms, w: real, b: real)
    ensures Score(t, w, b, false).Some? <==> Evaluate(t, w, b).Point?
    ensures Evaluate(t, w, b).Point? ==> Score(t, w, b, false) == Some(Evaluate(t, w, b).profit)
  {
  }

  /** The k-th value frange yields. */
  function FrangeAt(start: real, step: real, k: nat): real
  {
    start + k as real * step
  }

  lemma FrangeNext(start: real, step: real, k: nat)
    ensures FrangeAt(start, step, k + 1) == FrangeAt(start, step, k) + step
  {
  }

  /** frange in test2.py: start, start + step, … while the value is at most
      stop + 1e-9 (exact arithmetic in place of accumulated floats). A
      non-positive step yields nothing when start is already past the
      limit and never stops otherwise; only the first case is modelled. */
  method Frange(start: real, stop: real, step: real) returns (vals: seq<real>)
    requires step > 0.0 || start > stop + 0.000000001
    ensures step <= 0.0 ==> vals == []
    ensures forall k :: 0 <= k < |vals| ==> vals[k] == FrangeAt(start, step, k)
    ensures forall k :: 0 <= k < |vals| ==> vals[k] <= stop + 0.000000001
    ensures FrangeAt(start, step, |vals|) > stop + 0.000000001
    ensures forall k :: 0 < k < |vals| ==> vals[k - 1] < vals[k]
  {
    var limit := stop + 0.000000001;
    var bound := if start <= limit then ((limit - start) / step).Floor + 1 else 0;
    vals := [];
    var val := start;
    while val <= limit
      invariant val == FrangeAt(start, step, |vals|)
      invariant forall k :: 0 <= k < |vals| ==> vals[k] == FrangeAt(start, step, k)
      invariant forall k :: 0 <= k < |vals| ==> vals[k] <= limit
      invariant |vals| <= bound
      invariant step <= 0.0 ==> |vals| == 0
      decreases bound - |vals|
    {
      FrangeStepBound(start, limit, step, |vals|);
      FrangeNext(start, step, |vals|);
      vals := vals + [val];
      val := val + step;
    }
    forall k | 0 < k < |vals|
      ensures vals[k - 1] < vals[k]
    {
      FrangeNext(start, step, k - 1);
    }
  }

  /** A value start + n·step still inside the range means n is below the
      iteration bound. */
  lemma FrangeStepBound(start: real, limit: real, step: real, n: nat)
    requires step > 0.0 && FrangeAt(start, step, n) <= limit
    ensures start <= limit
    ensures n < ((limit - start) / step).Floor + 1
  {
    assert n as real * step <= limit - start;
    assert n as real * step >= 0.0;
    assert n as real <= (limit - start) / step;
  }

  /** The points of one row (fixed w) that pass the participation test,
      in b order. */
  function FeasibleRow(t: Terms, w: real, bs: seq<real>): (ps: seq<Point>)
  {
    if |bs| == 0 then []
    else
      var p := Evaluate(t, w, bs[|bs| - 1]);
      FeasibleRow(t, w, bs[..|bs| - 1]) + (if Passes(t, p) then [p] else [])
  }

  /** The points of the grid that pass the participation test, w outer
      and b inner: the list run_pa_scan in test5.py collects before taking
      its argmax. */
  function FeasiblePoints(t: Terms, ws: seq<real>, bs: seq<real>): (ps: seq<Point>)
  {
    if |ws| == 0 then []
    else FeasiblePoints(t, ws[..|ws| - 1], bs) + FeasibleRow(t, ws[|ws| - 1], bs)
  }

  /** A point is collected from a row exactly when some b of the row yields
      it and it passes the participation test. */
  lemma {:induction false} FeasibleRowMembers(t: Terms, w: real, bs: seq<real>, x: Point)
    ensures x in FeasibleRow(t, w, bs) <==>
            exists j :: 0 <= j < |bs| && x == Evaluate(t, w, bs[j]) && Passes(t, x)
  {
    if |bs| > 0 {
      var init := bs[..|bs| - 1];
      FeasibleRowMembers(t, w, init, x);
      if exists j :: 0 <= j < |bs| && x == Evaluate(t, w, bs[j]) && Passes(t, x) {
        var j :| 0 <= j < |bs| && x == Evaluate(t, w, bs[j]) && Passes(t, x);
        if j < |bs| - 1 {
          assert bs[j] == init[j];
        }
      }
      if x in FeasibleRow(t, w, init) {
        var j :| 0 <= j < |init| && x == Evaluate(t, w, init[j]) && Passes(t, x);
        assert init[j] == bs[j];
      }
    }
  }

  /** A point is collected from the grid exactly when some (w, b) of the
      grid yields it and it passes the participation test. */
  lemma {:induction false} FeasiblePointsMembers(t: Terms, ws: seq<real>, bs: seq<real>, x: Point)
    ensures x in FeasiblePoints(t, ws, bs) <==>
            exists i, j :: 0 <= i < |ws| && 0 <= j < |bs| && x == Evaluate(t, ws[i], bs[j]) && Passes(t, x)
  {
    if |ws| > 0 {
      var init := ws[..|ws| - 1];
      var last := ws[|ws| - 1];
      FeasiblePointsMembers(t, init, bs, x);
      FeasibleRowMembers(t, last, bs, x);
      if exists i, j :: 0 <= i < |ws| && 0 <= j < |bs| && x == Evaluate(t, ws[i], bs[j]) && Passes(t, x) {
        var i, j :| 0 <= i < |ws| && 0 <= j < |bs| && x == Evaluate(t, ws[i], bs[j]) && Passes(t, x);
        if i < |ws| - 1 {
          assert ws[i] == init[i];
        }
      }
      if x in FeasiblePoints(t, init, bs) {
        var i, j :| 0 <= i < |init| && 0 <= j < |bs| && x == Evaluate(t, init[i], bs[j]) && Passes(t, x);
        assert init[i] == ws[i];
      }
    }
  }

  /** The collection loop of run_pa_scan in test5.py. */
  method CollectFeasible(t: Terms, ws: seq<real>, bs: seq<real>) returns (points: seq<Point>)
    ensures points == FeasiblePoints(t, ws, bs)
  {
    points := [];
    var i := 0;
    while i < |ws|
      invariant 0 <= i <= |ws|
      invariant points == FeasiblePoints(t, ws[..i], bs)
    {
      var j := 0;
      while j < |bs|
        invariant 0 <= j <= |bs|
        invariant points == FeasiblePoints(t, ws[..i], bs) + FeasibleRow(t, ws[i], bs[..j])
      {
        var p := Evaluate(t, ws[i], bs[j]);
        assert bs[..j + 1][..j] == bs[..j];
        if !(p.Point? && p.ua < t.u0) {
          points := points + [p];
        }
        j := j + 1;
      }
      assert bs[..|bs|] == bs;
      assert ws[..i + 1][..i] == ws[..i];
      i := i + 1;
    }
    assert ws[..|ws|] == ws;
  }

  /** numpy's order for argmax on doubles: NaN above everything, −inf
      below every finite value. */
  predicate Above(a: Float, b: Float)
  {
    match a
    case NaN => !b.NaN?
    case Finite(x) => b.NegInf? || (b.Finite? && x > b.x)
    case NegInf => false
  }

  lemma AboveThrough(a: Float, b: Float, c: Float)
    requires Above(a, b) && !Above(c, b)
    ensures Above(a, c)
  {
  }

  /** np.argmax on doubles: the first NaN when there is one, otherwise the
      first index of a maximal value. */
  function FloatArgMax(xs: seq<Float>): (k: nat)
    requires |xs| > 0
    ensures k < |xs|
    ensures forall j :: 0 <= j < |xs| ==> !Above(xs[j], xs[k])
    ensures forall j :: 0 <= j < k ==> Above(xs[k], xs[j])
  {
    if |xs| == 1 then 0
    else
      var k' := FloatArgMax(xs[..|xs| - 1]);
      if Above(xs[|xs| - 1], xs[k']) then
        assert forall j :: 0 <= j < |xs| - 1 ==> Above(xs[|xs| - 1], xs[j]) by {
          forall j | 0 <= j < |xs| - 1
            ensures Above(xs[|xs| - 1], xs[j])
          {
            assert xs[..|xs| - 1][j] == xs[j];
            AboveThrough(xs[|xs| - 1], xs[k'], xs[j]);
          }
        }
        |xs| - 1
      else k'
  }

  /** run_pa_scan in test5.py: None when no grid point passes the
      participation test; otherwise the point np.argmax picks from the
      collected profits. That is the first collected point whose profit no
      collected profit is above. A NaN profit wins, and with a non-zero
      cost factor the report is a participating point of greatest profit. */
  method ScanReport(t: Terms, ws: seq<real>, bs: seq<real>) returns (best: Option<Point>)
    ensures best.None? <==>
            forall i, j :: 0 <= i < |ws| && 0 <= j < |bs| ==> !Passes(t, Evaluate(t, ws[i], bs[j]))
    ensures best.Some? ==>
              Passes(t, best.value)
              && (exists i, j :: 0 <= i < |ws| && 0 <= j < |bs| && best.value == Evaluate(t, ws[i], bs[j]))
              && (forall i, j :: 0 <= i < |ws| && 0 <= j < |bs| && Passes(t, Evaluate(t, ws[i], bs[j])) ==>
                    !Above(ProfitValue(Evaluate(t, ws[i], bs[j])), ProfitValue(best.value)))
    ensures best.Some? ==>
              exists k :: 0 <= k < |FeasiblePoints(t, ws, bs)| && FeasiblePoints(t, ws, bs)[k] == best.value
                && forall k' :: 0 <= k' < k ==> Above(ProfitValue(best.value), ProfitValue(FeasiblePoints(t, ws, bs)[k']))
    ensures best.Some? && (exists i, j :: 0 <= i < |ws| && 0 <= j < |bs| && ProfitValue(Evaluate(t, ws[i], bs[j])).NaN?) ==>
              ProfitValue(best.value).NaN?
    ensures best.Some? && t.c != 0.0 ==>
              best.value.Point? && best.value.ua >= t.u0
              && forall i, j :: 0 <= i < |ws| && 0 <= j < |bs| && Evaluate(t, ws[i], bs[j]).ua >= t.u0 ==>
                   Evaluate(t, ws[i], bs[j]).profit <= best.value.profit
  {
    var points := CollectFeasible(t, ws, bs);
    if |points| == 0 {
      best := None;
      forall i, j | 0 <= i < |ws| && 0 <= j < |bs|
        ensures !Passes(t, Evaluate(t, ws[i], bs[j]))
      {
        FeasiblePointsMembers(t, ws, bs, Evaluate(t, ws[i], bs[j]));
      }
    } else {
      var profits := seq(|points|, k requires 0 <= k < |points| => ProfitValue(points[k]));
      var k := FloatArgMax(profits);
      best := Some(points[k]);
      assert points[k] in points;
      FeasiblePointsMembers(t, ws, bs, points[k]);
      forall i, j | 0 <= i < |ws| && 0 <= j < |bs| && Passes(t, Evaluate(t, ws[i], bs[j]))
        ensures !Above(ProfitValue(Evaluate(t, ws[i], bs[j])), ProfitValue(points[k]))
      {
        var x := Evaluate(t, ws[i], bs[j]);
        FeasiblePointsMembers(t, ws, bs, x);
        var k' :| 0 <= k' < |points| && points[k'] == x;
        assert profits[k'] == ProfitValue(x);
      }
      assert forall k' :: 0 <= k' < k ==> profits[k'] == ProfitValue(points[k']);
      if exists i, j :: 0 <= i < |ws| && 0 <= j < |bs| && ProfitValue(Evaluate(t, ws[i], bs[j])).NaN? {
        var i, j :| 0 <= i < |ws| && 0 <= j < |bs| && ProfitValue(Evaluate(t, ws[i], bs[j])).NaN?;
        assert Passes(t, Evaluate(t, ws[i], bs[j]));
      }
    }
  }

  /** One heatmap cell. None is a cell the participation test masks to
      NaN, which valid_count skips; Some(v) is a counted cell holding the
      profit or the agent's utility as chosen, which for an unbounded point
      is NaN, or −inf for a negative price's profit. */
  function HeatCell(t: Terms, w: real, b: real, showProfit: bool): (c: Option<Float>)
    ensures c.None? <==> !Passes(t, Evaluate(t, w, b))
    ensures c.Some? && Evaluate(t, w, b).Point? ==>
              c.value == Finite(if showProfit then Evaluate(t, w, b).profit else Evaluate(t, w, b).ua)
    ensures c.Some? && Evaluate(t, w, b).Unbounded? ==>
              c.value == (if showProfit then ProfitValue(Evaluate(t, w, b)) else NaN)
  {
    var p := Evaluate(t, w, b);
    match p
    case Point(_, _, _, ua, profit) => if ua < t.u0 then None else Some(Finite(if showProfit then profit else ua))
    case Unbounded(_, _, _) => Some(if showProfit then ProfitValue(p) else NaN)
  }

  /** run_pa_3d_heatmap in test6.py: the grid is indexed [b][w] (meshgrid
      rows follow b), a cell failing participation is NaN (None), otherwise
      it holds the profit or the agent's utility as chosen; valid_count
      counts the cells that pass. With c ≠ 0 every counted cell is finite. */
  method Heatmap(t: Terms, ws: seq<real>, bs: seq<real>, showProfit: bool)
    returns (z: seq<seq<Option<Float>>>, validCount: nat)
    ensures |z| == |bs| && Rectangular(z, |ws|)
    ensures forall i, j :: 0 <= i < |bs| && 0 <= j < |ws| ==> z[i][j] == HeatCell(t, ws[j], bs[i], showProfit)
    ensures forall i, j :: 0 <= i < |bs| && 0 <= j < |ws| ==>
              (z[i][j].Some? <==> Passes(t, Evaluate(t, ws[j], bs[i])))
    ensures t.c != 0.0 ==> forall i, j :: 0 <= i < |bs| && 0 <= j < |ws| && z[i][j].Some? ==> z[i][j].value.Finite?
    ensures validCount == CountFilled(z)
  {
    z := [];
    validCount := 0;
    var i := 0;
    while i < |bs|
      invariant 0 <= i <= |bs|
      invariant |z| == i && Rectangular(z, |ws|)
      invariant forall a, b :: 0 <= a < i && 0 <= b < |ws| ==> z[a][b] == HeatCell(t, ws[b], bs[a], showProfit)
      invariant validCount == CountFilled(z)
    {
      var row: seq<Option<Float>> := [];
      var j := 0;
      while j < |ws|
        invariant 0 <= j <= |ws|
        invariant |row| == j
        invariant forall b :: 0 <= b < j ==> row[b] == HeatCell(t, ws[b], bs[i], showProfit)
        invariant validCount == CountFilled(z) + CountSome(row)
      {
        var cell := HeatCell(t, ws[j], bs[i], showProfit);
        CountSomeAppend(row, cell);
        if cell.Some? {
          validCount := validCount + 1;
        }
        row := row + [cell];
        j := j + 1;
      }
      CountFilledAppend(z, row);
      z := z + [row];
      i := i + 1;
    }
    forall i, j | 0 <= i < |bs| && 0 <= j < |ws| && t.c != 0.0 && z[i][j].Some?
      ensures z[i][j].value.Finite?
    {
      assert Evaluate(t, ws[j], bs[i]).Point?;
    }
  }
}

=== FILE: common.dfy ===
/** Shared vocabulary for the information-economics models: optional and
    failing results, and the few Python numeric built-ins (max, min,
    int(), round()) written out exactly over the reals. */
module Common {

  datatype Option<T> = None | Some(value: T)

  /** The Python exceptions the modelled code can raise on some inputs. */
  datatype PyError = ZeroDivisionError | ValueError | IndexError | AttributeError

  datatype Result<T> = Ok(value: T) | Err(error: PyError)

  /** Python's `max(a, b)`: keeps the first argument unless the second is
      strictly greater. */
  function Max(a: real, b: real): (r: real)
    ensures r >= a && r >= b
    ensures r == a || r == b
  {
    if b > a then b else a
  }

  /** Python's `min(a, b)`: keeps the first argument unless the second is
      strictly smaller. */
  function Min(a: real, b: real): (r: real)
    ensures r <= a && r <= b
    ensures r == a || r == b
  {
    if b < a then b else a
  }

  function IntMax(a: int, b: int): (r: int)
    ensures r >= a && r >= b
    ensures r == a || r == b
  {
    if b > a then b else a
  }

  function IntMin(a: int, b: int): (r: int)
    ensures r <= a && r <= b
    ensures r == a || r == b
  {
    if b < a then b else a
  }

  function Abs(x: real): (r: real)
    ensures r >= 0.0 && (r == x || r == -x)
  {
    if x < 0.0 then -x else x
  }

  /** `max(0.0, min(1.0, x))` and `min(max(x, 0.0), 1.0)`: both spellings in
      the source agree on reals. */
  function Clamp01(x: real): (r: real)
    ensures 0.0 <= r <= 1.0
    ensures 0.0 <= x <= 1.0 ==> r == x
    ensures x < 0.0 ==> r == 0.0
    ensures x > 1.0 ==> r == 1.0
  {
    Max(0.0, Min(1.0, x))
  }

  lemma Clamp01Monotone(x: real, y: real)
    requires x <= y
    ensures Clamp01(x) <= Clamp01(y)
  {
  }

  /** Python's `int(x)` on a float: truncation toward zero. */
  function Trunc(x: real): (r: int)
    ensures x >= 0.0 ==> r as real <= x < r as real + 1.0
    ensures x < 0.0 ==> r as real - 1.0 < x <= r as real
  {
    if x >= 0.0 then x.Floor else -((-x).Floor)
  }

  /** Python's one-argument `round(x)`: nearest integer, ties to even. */
  function RoundHalfEven(x: real): (r: int)
    ensures -0.5 <= r as real - x <= 0.5
    ensures x - x.Floor as real != 0.5 ==> -0.5 < r as real - x < 0.5
    ensures x - x.Floor as real == 0.5 ==> r % 2 == 0
  {
    var f := x.Floor;
    var frac := x - f as real;
    if frac < 0.5 then f
    else if frac > 0.5 then f + 1
    else if f % 2 == 0 then f
    else f + 1
  }

  /** First index of a maximal element, as `np.argmax` returns it. */
  function ArgMax(xs: seq<real>): (k: nat)
    requires |xs| > 0
    ensures k < |xs|
    ensures forall j :: 0 <= j < |xs| ==> xs[j] <= xs[k]
    ensures forall j :: 0 <= j < k ==> xs[j] < xs[k]
  {
    if |xs| == 1 then 0
    else
      var k' := ArgMax(xs[..|xs| - 1]);
      if xs[|xs| - 1] > xs[k'] then |xs| - 1 else k'
  }

  /** Scaling by a factor in [0, 1] keeps a value between zero and itself.
      The product is passed as `y` so that callers can name it by any
      linear expression. */
  lemma ScaleWithinUnit(a: real, x: real, y: real)
    requires 0.0 <= a <= 1.0 && y == a * x
    ensures x >= 0.0 ==> 0.0 <= y <= x
    ensures x <= 0.0 ==> x <= y <= 0.0
  {
    if x >= 0.0 {
      assert a * x >= 0.0;
      assert a * x <= 1.0 * x;
    } else {
      assert a * x <= 0.0;
      assert a * x >= 1.0 * x;
    }
  }

  lemma ProductPositive(a: real, b: real)
    requires a > 0.0 && b > 0.0
    ensures a * b > 0.0
  {
  }

  lemma ProductNonZero(a: real, b: real)
    requires a != 0.0 && b != 0.0
    ensures a * b != 0.0
  {
  }

  /** Taking a positive product away leaves strictly less. */
  lemma BelowByProduct(u: real, r: real, a: real, b: real)
    requires a > 0.0 && b > 0.0 && u == r - a * b
    ensures u < r
  {
    ProductPositive(a, b);
  }

  /** Multiplying by a non-negative factor keeps an inequality. */
  lemma MulLeft(c: real, a: real, b: real)
    requires c >= 0.0 && a <= b
    ensures c * a <= c * b
  {
    assert c * b - c * a == c * (b - a);
  }

  /** Squaring keeps the order of non-negative numbers. */
  lemma SquareMonotone(a: real, b: real)
    requires 0.0 <= a <= b
    ensures a * a <= b * b
  {
    MulLeft(a, a, b);
    MulLeft(b, a, b);
    assert a * b == b * a;
  }

  /** A non-negative quantity over a larger positive one is a fraction. */
  lemma FractionInUnit(x: real, d: real)
    requires 0.0 <= x <= d && d > 0.0
    ensures 0.0 <= x / d <= 1.0
    ensures x < d ==> x / d < 1.0
  {
    assert x / d * d == x;
    if x / d >= 1.0 {
      MulLeft(d, 1.0, x / d);
    }
  }

  /** Moving t toward q by a fraction b of the gap lands between them. */
  lemma ConvexStep(t: real, q: real, b: real, r: real)
    requires 0.0 <= b <= 1.0 && r == t + b * (q - t)
    ensures t <= q ==> t <= r <= q
    ensures q <= t ==> q <= r <= t
  {
    ScaleWithinUnit(b, q - t, r - t);
  }

  /** Row-major order of grid cells: (i, j) is visited before (i', j'). */
  predicate Before(i: int, j: int, i': int, j': int)
  {
    i < i' || (i == i' && j < j')
  }

  /** A rectangular matrix with `n` columns. */
  predicate Rectangular<T>(mat: seq<seq<T>>, n: int)
  {
    forall a :: 0 <= a < |mat| ==> |mat[a]| == n
  }

  /** Every filled cell of the matrix is at most p, and every filled cell
      visited before (bi, bj) is strictly below p: (bi, bj) is where a
      strict-improvement scan would have stopped updating. */
  predicate FirstMaxCell(mat: seq<seq<Option<real>>>, n: int, bi: int, bj: int, p: real)
    requires Rectangular(mat, n)
  {
    forall a, b :: 0 <= a < |mat| && 0 <= b < n && mat[a][b].Some? ==>
      mat[a][b].value <= p && (Before(a, b, bi, bj) ==> mat[a][b].value < p)
  }

  /** No filled cell of the matrix exceeds the floor. */
  predicate NoneAbove(mat: seq<seq<Option<real>>>, n: int, floor: real)
    requires Rectangular(mat, n)
  {
    forall a, b :: 0 <= a < |mat| && 0 <= b < n && mat[a][b].Some? ==> mat[a][b].value <= floor
  }

  /** The row-major scan with strict improvement that the grid searches
      share: starting from `floor`, a filled cell replaces the best when it
      is strictly greater. `found` is false exactly when no cell beats the
      floor; otherwise (bi, bj) is the first cell of maximal value. */
  method ScanFirstMax(mat: seq<seq<Option<real>>>, n: nat, floor: real)
    returns (found: bool, bi: nat, bj: nat, best: real)
    requires Rectangular(mat, n)
    ensures found <==> !NoneAbove(mat, n, floor)
    ensures !found ==> best == floor
    ensures found ==> bi < |mat| && bj < n && mat[bi][bj] == Some(best) && best > floor
                      && FirstMaxCell(mat, n, bi, bj, best)
  {
    found, bi, bj, best := false, 0, 0, floor;
    var i := 0;
    while i < |mat|
      invariant 0 <= i <= |mat|
      invariant !found ==> best == floor && bi == 0 && bj == 0
      invariant found <==> !NoneAbove(mat[..i], n, floor)
      invariant found ==> bi < i && bj < n && mat[bi][bj] == Some(best) && best > floor
      invariant FirstMaxCell(mat[..i], n, bi, bj, best)
    {
      var j := 0;
      while j < n
        invariant 0 <= j <= n
        invariant !found ==> best == floor && bi == 0 && bj == 0
        invariant found <==>
                  !NoneAbove(mat[..i], n, floor)
                  || (exists b :: 0 <= b < j && mat[i][b].Some? && mat[i][b].value > floor)
        invariant found ==> bi <= i && bj < n && (bi == i ==> bj < j) && mat[bi][bj] == Some(best) && best > floor
        invariant FirstMaxCell(mat[..i], n, bi, bj, best)
        invariant forall b :: 0 <= b < j && mat[i][b].Some? ==>
                    mat[i][b].value <= best && (Before(i, b, bi, bj) ==> mat[i][b].value < best)
      {
        if mat[i][j].Some? && mat[i][j].value > best {
          found, bi, bj, best := true, i, j, mat[i][j].value;
        }
        j := j + 1;
      }
      assert mat[..i + 1] == mat[..i] + [mat[i]];
      i := i + 1;
    }
    assert mat[..|mat|] == mat;
  }

  /** Number of filled entries of a row. */
  function CountSome<T>(row: seq<Option<T>>): (n: nat)
    ensures n <= |row|
  {
    if |row| == 0 then 0 else CountSome(row[..|row| - 1]) + (if row[|row| - 1].Some? then 1 else 0)
  }

  /** Number of filled cells of a matrix. */
  function CountFilled<T>(mat: seq<seq<Option<T>>>): nat
  {
    if |mat| == 0 then 0 else CountFilled(mat[..|mat| - 1]) + CountSome(mat[|mat| - 1])
  }

  lemma CountSomeAppend<T>(row: seq<Option<T>>, x: Option<T>)
    ensures CountSome(row + [x]) == CountSome(row) + (if x.Some? then 1 else 0)
  {
    assert (row + [x])[..|row|] == row;
  }

  lemma CountFilledAppend<T>(mat: seq<seq<Option<T>>>, row: seq<Option<T>>)
    ensures CountFilled(mat + [row]) == CountFilled(mat) + CountSome(row)
  {
    assert (mat + [row])[..|mat|] == mat;
  }
}

=== FILE: compressed_contract.dfy ===
/** The contract designer and bargaining agent of SimTest/APPUITest5.py:
    the closed-form contract at which IR and IC bind, made non-negative and
    compressed proportionally when it exceeds the high revenue; and a
    counter offer that first restores IC and IR and then scales the wages
    down to what the principal can afford. */
module CompressedContract {
  import opened Common
  import opened BinaryContract

  /** PrincipalAI.propose_contract (unrounded). A zero wage to compress by
      is a Python ZeroDivisionError; it needs Y_H < 0. */
  function ProposeContract(env: Env, costs: Costs): (r: Result<Contract>)
    ensures env.pHigh - env.pLow <= 0.0 ==> r == Ok(Contract(0.5 * env.revHigh, 0.5 * env.revLow))
    ensures r.Err? ==> env.revHigh < 0.0
    ensures env.pHigh - env.pLow > 0.0 && r.Ok? ==> r.value.wLow >= 0.0 || env.revHigh < 0.0
    ensures env.pHigh - env.pLow > 0.0 && r.Ok? ==> r.value.wHigh <= env.revHigh || env.revHigh < 0.0
  {
    var dc := costs.effort - costs.shirk;
    var dp := env.pHigh - env.pLow;
    if dp <= 0.0 then Ok(Contract(0.5 * env.revHigh, 0.5 * env.revLow))
    else
      var k := Uncompressed(env, costs);
      if k.wHigh > env.revHigh then
        if k.wHigh == 0.0 then Err(ZeroDivisionError)
        else
          var ratio := env.revHigh / k.wHigh;
          Ok(Contract(k.wHigh * ratio, k.wLow * ratio))
      else Ok(k)
  }

  /** The contract before compression: w_L = max(0, U0 + c_H − p_H·Δc/Δp)
      and w_H = w_L + Δc/Δp. */
  function Uncompressed(env: Env, costs: Costs): Contract
    requires env.pHigh - env.pLow > 0.0
  {
    var s := (costs.effort - costs.shirk) / (env.pHigh - env.pLow);
    var wl := Max(0.0, env.uRes + costs.effort - env.pHigh * s);
    Contract(wl + s, wl)
  }

  /** Before compression IC binds, and IR binds too unless the low wage was
      clamped at zero, in which case IR holds with slack. */
  lemma {:induction false} UncompressedBinds(env: Env, costs: Costs)
    requires env.pHigh - env.pLow > 0.0
    ensures var k := Uncompressed(env, costs);
            && k.wLow >= 0.0
            && Utility(env, costs, k, Work) == Utility(env, costs, k, Shirk)
            && Utility(env, costs, k, Work) >= env.uRes
            && (env.uRes + costs.effort - env.pHigh * ((costs.effort - costs.shirk) / (env.pHigh - env.pLow)) >= 0.0
                ==> Utility(env, costs, k, Work) == env.uRes)
  {
    var k := Uncompressed(env, costs);
    var s := (costs.effort - costs.shirk) / (env.pHigh - env.pLow);
    SpreadMakesIndifferent(env, costs, k);
    assert ExpectedWage(env.pHigh, k) == k.wLow + env.pHigh * s;
  }

  /** When no compression is needed the proposal is the binding contract
      and is accepted; when it is compressed, the high wage becomes exactly
      Y_H and the ratio Y_H/w_H scales both wages. */
  lemma {:induction false} ProposalCompression(env: Env, costs: Costs)
    requires env.pHigh - env.pLow > 0.0
    ensures var k := Uncompressed(env, costs);
            k.wHigh <= env.revHigh ==> ProposeContract(env, costs) == Ok(k) && Accepts(env, costs, k)
    ensures var k := Uncompressed(env, costs);
            k.wHigh > env.revHigh && k.wHigh != 0.0 ==>
              && ProposeContract(env, costs).Ok?
              && ProposeContract(env, costs).value.wHigh == env.revHigh
              && ProposeContract(env, costs).value.wLow == k.wLow * (env.revHigh / k.wHigh)
  {
    UncompressedBinds(env, costs);
  }

  /** Compression by a ratio below one shrinks the spread, so a proposal
      whose effort cost exceeds the shirking cost then violates IC. */
  lemma {:induction false} CompressionBreaksIncentive(env: Env, costs: Costs)
    requires env.pHigh - env.pLow > 0.0 && costs.effort > costs.shirk
    requires Uncompressed(env, costs).wHigh > env.revHigh >= 0.0
    ensures ProposeContract(env, costs).Ok?
    ensures !IncentiveCompatible(env, costs, ProposeContract(env, costs).value)
  {
    var k := Uncompressed(env, costs);
    var dp := env.pHigh - env.pLow;
    var s := (costs.effort - costs.shirk) / dp;
    var ratio := env.revHigh / k.wHigh;
    var k2 := ProposeContract(env, costs).value;
    assert k2 == Contract(k.wHigh * ratio, k.wLow * ratio);
    assert s > 0.0;
    FractionInUnit(env.revHigh, k.wHigh);
    assert k2.wHigh - k2.wLow == ratio * s;
    assert ratio * s < s by {
      ProductPositive(1.0 - ratio, s);
      assert s - ratio * s == (1.0 - ratio) * s;
    }
    IncentiveCompatibleIffSpread(env, costs, k2);
  }

  /** What evaluate_contract caches: the effort and shirk utilities. */
  datatype Evaluation = Evaluation(accept: bool, ue: real, ul: real)

  /** AgentAI.evaluate_contract: accept iff UE ≥ U0 and UE ≥ UL. */
  function Evaluate(env: Env, costs: Costs, k: Contract): (v: Evaluation)
    ensures v.accept <==> Accepts(env, costs, k)
    ensures v.ue == Utility(env, costs, k, Work) && v.ul == Utility(env, costs, k, Shirk)
  {
    var ue := Utility(env, costs, k, Work);
    var ul := Utility(env, costs, k, Shirk);
    Evaluation(ue >= env.uRes && ue >= ul, ue, ul)
  }

  /** AgentAI.choose_effort: work iff UE ≥ UL, preferring the pair cached
      by the last evaluate_contract over the wages it is given. */
  function ChooseEffort(cache: Option<Evaluation>, env: Env, costs: Costs, k: Contract): (e: Effort)
    ensures cache.Some? ==> (e == Work <==> cache.value.ue >= cache.value.ul)
    ensures cache.None? ==> e == BestResponse(env, costs, k)
  {
    match cache
    case Some(v) => if v.ue >= v.ul then Work else Shirk
    case None =>
      if Utility(env, costs, k, Work) >= Utility(env, costs, k, Shirk) then Work else Shirk
  }

  /** If the cache comes from evaluating the same contract, choose_effort
      is the agent's best response; a cache from another contract can
      disagree with it. */
  lemma ChooseEffortCachedAgrees(env: Env, costs: Costs, k: Contract)
    ensures ChooseEffort(Some(Evaluate(env, costs, k)), env, costs, k) == BestResponse(env, costs, k)
  {
  }

  /** AgentAI.counter_offer (unrounded). Stage one raises the spread to
      Δc/Δp and adds any participation shortfall to both wages; if the
      principal's effort profit then reaches `minProfit` that pair is
      returned. Otherwise both wages are scaled by α_ir = (U0 + c_H)/E[w],
      provided α_ir ≤ α_π0 = (E[Y] − minProfit)/E[w]. Dividing by a zero Δp
      or a zero E[w] is a ZeroDivisionError. */
  function BumpCounterOffer(env: Env, costs: Costs, k: Contract, minProfit: real): (r: Result<Option<Contract>>)
    ensures env.pHigh - env.pLow == 0.0 ==> r == Err(ZeroDivisionError)
    ensures r.Err? ==> r.error == ZeroDivisionError
  {
    var dp := env.pHigh - env.pLow;
    if dp == 0.0 then Err(ZeroDivisionError)
    else
      var k1 := Bumped(env, costs, k);
      if PrincipalProfit(env, k1, Work) >= minProfit then Ok(Some(k1))
      else ScaledOffer(env, costs, k1, minProfit)
  }

  /** Stage two of counter_offer: scale both wages by α_ir when α_ir ≤ α_π0. */
  function ScaledOffer(env: Env, costs: Costs, k1: Contract, minProfit: real): Result<Option<Contract>>
  {
    var expWage := ExpectedWage(env.pHigh, k1);
    if expWage == 0.0 then Err(ZeroDivisionError)
    else
      var alphaIr := (env.uRes + costs.effort) / expWage;
      var alphaPi := (ExpectedRevenue(env.pHigh, env) - minProfit) / expWage;
      if alphaIr <= alphaPi then Ok(Some(Contract(k1.wHigh * alphaIr, k1.wLow * alphaIr)))
      else Ok(None)
  }

  /** Stage one of counter_offer: spread raised to Δc/Δp, then the IR
      shortfall added to both wages. */
  function Bumped(env: Env, costs: Costs, k: Contract): Contract
    requires env.pHigh - env.pLow != 0.0
  {
    var minDiff := (costs.effort - costs.shirk) / (env.pHigh - env.pLow);
    var wh := if k.wHigh - k.wLow < minDiff then k.wLow + minDiff else k.wHigh;
    var eu := env.pHigh * wh + (1.0 - env.pHigh) * k.wLow - costs.effort;
    if eu < env.uRes then
      var bump := env.uRes - eu;
      Contract(wh + bump, k.wLow + bump)
    else Contract(wh, k.wLow)
  }

  /** Stage one restores the agent's constraints: the spread is at least
      Δc/Δp, effort is worth at least U0 (exactly U0 if a shortfall was
      added), so with Δp > 0 the pair is accepted. A pair that already met
      both is returned unchanged. */
  lemma {:induction false} BumpedRestoresConstraints(env: Env, costs: Costs, k: Contract)
    requires env.pHigh - env.pLow > 0.0
    ensures var k1 := Bumped(env, costs, k);
            && k1.wHigh - k1.wLow >= (costs.effort - costs.shirk) / (env.pHigh - env.pLow)
            && Utility(env, costs, k1, Work) >= env.uRes
            && Accepts(env, costs, k1)
            && (Utility(env, costs, k1, Work) > env.uRes ==> k1.wLow == k.wLow)
    ensures Accepts(env, costs, k) ==> Bumped(env, costs, k) == k
  {
    var k1 := Bumped(env, costs, k);
    var minDiff := (costs.effort - costs.shirk) / (env.pHigh - env.pLow);
    var wh := if k.wHigh - k.wLow < minDiff then k.wLow + minDiff else k.wHigh;
    assert ExpectedWage(env.pHigh, Contract(wh, k.wLow) ) - costs.effort
           == env.pHigh * wh + (1.0 - env.pHigh) * k.wLow - costs.effort;
    IncentiveCompatibleIffSpread(env, costs, k1);
    IncentiveCompatibleIffSpread(env, costs, k);
  }

  /** If stage one already leaves the principal `minProfit`, that pair is
      the counter offer; it is accepted and meets the profit floor. */
  lemma {:induction false} CounterOfferFirstStage(env: Env, costs: Costs, k: Contract, minProfit: real)
    requires env.pHigh - env.pLow > 0.0
    requires PrincipalProfit(env, Bumped(env, costs, k), Work) >= minProfit
    ensures BumpCounterOffer(env, costs, k, minProfit) == Ok(Some(Bumped(env, costs, k)))
    ensures Accepts(env, costs, Bumped(env, costs, k))
  {
    BumpedRestoresConstraints(env, costs, k);
  }

  /** The scaled path. Stage one leaves an expected wage E[w] ≥ U0 + c_H.
      A zero E[w] is a ZeroDivisionError. For E[w] > 0 a contract comes back
      exactly when U0 + c_H ≤ E[Y] − minProfit; for E[w] < 0, which needs
      U0 + c_H < 0, dividing by E[w] flips the comparison and a contract
      comes back exactly when U0 + c_H ≥ E[Y] − minProfit, leaving the
      principal at most `minProfit`. A returned contract has expected wage
      U0 + c_H (IR binds). When U0 + c_H > 0 the first case always applies
      and the principal gets at least `minProfit`. */
  lemma {:induction false} CounterOfferScaled(env: Env, costs: Costs, k: Contract, minProfit: real)
    requires env.pHigh - env.pLow > 0.0
    requires PrincipalProfit(env, Bumped(env, costs, k), Work) < minProfit
    ensures var r := BumpCounterOffer(env, costs, k, minProfit);
            var w := ExpectedWage(env.pHigh, Bumped(env, costs, k));
            && w >= env.uRes + costs.effort
            && (r.Err? <==> w == 0.0)
            && (w > 0.0 ==> r.Ok? && (r.value.Some? <==> env.uRes + costs.effort <= ExpectedRevenue(env.pHigh, env) - minProfit))
            && (w < 0.0 ==> r.Ok? && (r.value.Some? <==> env.uRes + costs.effort >= ExpectedRevenue(env.pHigh, env) - minProfit))
            && (r.Ok? && r.value.Some? ==>
                  && ExpectedWage(env.pHigh, r.value.value) == env.uRes + costs.effort
                  && Utility(env, costs, r.value.value, Work) == env.uRes
                  && PrincipalProfit(env, r.value.value, Work) == ExpectedRevenue(env.pHigh, env) - (env.uRes + costs.effort))
            && (w < 0.0 && r.Ok? && r.value.Some? ==> PrincipalProfit(env, r.value.value, Work) <= minProfit)
    ensures env.uRes + costs.effort > 0.0 ==>
            var r := BumpCounterOffer(env, costs, k, minProfit);
            && r.Ok?
            && (r.value.Some? <==> env.uRes + costs.effort <= ExpectedRevenue(env.pHigh, env) - minProfit)
            && (r.value.Some? ==> PrincipalProfit(env, r.value.value, Work) >= minProfit)
  {
    var k1 := Bumped(env, costs, k);
    BumpedRestoresConstraints(env, costs, k);
    assert BumpCounterOffer(env, costs, k, minProfit) == ScaledOffer(env, costs, k1, minProfit);
    ScaledOfferCases(env, costs, k1, minProfit);
  }

  /** Stage two on its own: the error, the two signs of E[w], and the
      binding participation constraint of a returned contract. */
  lemma {:induction false} ScaledOfferCases(env: Env, costs: Costs, k1: Contract, minProfit: real)
    ensures var r := ScaledOffer(env, costs, k1, minProfit);
            var w := ExpectedWage(env.pHigh, k1);
            && (r.Err? <==> w == 0.0)
            && (w > 0.0 ==> r.Ok? && (r.value.Some? <==> env.uRes + costs.effort <= ExpectedRevenue(env.pHigh, env) - minProfit))
            && (w < 0.0 ==> r.Ok? && (r.value.Some? <==> env.uRes + costs.effort >= ExpectedRevenue(env.pHigh, env) - minProfit))
            && (r.Ok? && r.value.Some? ==>
                  && ExpectedWage(env.pHigh, r.value.value) == env.uRes + costs.effort
                  && Utility(env, costs, r.value.value, Work) == env.uRes
                  && PrincipalProfit(env, r.value.value, Work) == ExpectedRevenue(env.pHigh, env) - (env.uRes + costs.effort))
  {
    var w := ExpectedWage(env.pHigh, k1);
    if w != 0.0 {
      var alphaIr := (env.uRes + costs.effort) / w;
      if w > 0.0 {
        DivideByPositive(env.uRes + costs.effort, ExpectedRevenue(env.pHigh, env) - minProfit, w);
      } else {
        DivideByNegative(env.uRes + costs.effort, ExpectedRevenue(env.pHigh, env) - minProfit, w);
      }
      var k2 := Contract(k1.wHigh * alphaIr, k1.wLow * alphaIr);
      ScaledExpectedWage(env.pHigh, k1, alphaIr);
      ProfitSplitsRevenue(env, k2, Work);
    }
  }

  lemma DivideByPositive(a: real, b: real, w: real)
    requires w > 0.0
    ensures (a / w) * w == a
    ensures a / w <= b / w <==> a <= b
  {
    if a <= b {
      assert a / w <= b / w;
    }
  }

  lemma DivideByNegative(a: real, b: real, w: real)
    requires w < 0.0
    ensures (a / w) * w == a
    ensures a / w <= b / w <==> a >= b
  {
    DivideByPositive(-a, -b, -w);
    assert a / w == (-a) / (-w);
    assert b / w == (-b) / (-w);
  }

  lemma ScaledExpectedWage(p: real, k: Contract, alpha: real)
    ensures ExpectedWage(p, Contract(k.wHigh * alpha, k.wLow * alpha)) == alpha * ExpectedWage(p, k)
  {
  }

  /** The scaled counter offer can break IC, although the agent's offer is
      meant to satisfy IR and IC: with p_H = 0.8, p_L = 0.2, c_H = 10,
      c_L = 0, U0 = 0, Y = (50, 0), π_min = 0 and the rejected pair (100, 0),
      the counter offer is (12.5, 0), under which effort is worth 0 and
      shirking 2.5. */
  lemma ScaledCounterOfferBreaksIncentive()
    ensures var env := Env(50.0, 0.0, 0.8, 0.2, 0.0);
            var costs := Costs(10.0, 0.0);
            && BumpCounterOffer(env, costs, Contract(100.0, 0.0), 0.0) == Ok(Some(Contract(12.5, 0.0)))
            && !IncentiveCompatible(env, costs, Contract(12.5, 0.0))
  {
    var env := Env(50.0, 0.0, 0.8, 0.2, 0.0);
    var costs := Costs(10.0, 0.0);
    assert Bumped(env, costs, Contract(100.0, 0.0)) == Contract(100.0, 0.0);
  }

  /** The corrected counter offer: when stage one leaves the principal too
      little, lower both wages by the same amount until IR binds, which
      keeps the incentive spread intact. */
  function ShiftedCounterOffer(env: Env, costs: Costs, k: Contract, minProfit: real): (r: Result<Option<Contract>>)
    ensures env.pHigh - env.pLow == 0.0 <==> r.Err?
  {
    var dp := env.pHigh - env.pLow;
    if dp == 0.0 then Err(ZeroDivisionError)
    else
      var k1 := Bumped(env, costs, k);
      if PrincipalProfit(env, k1, Work) >= minProfit then Ok(Some(k1))
      else if env.uRes + costs.effort <= ExpectedRevenue(env.pHigh, env) - minProfit then
        var cut := ExpectedWage(env.pHigh, k1) - (env.uRes + costs.effort);
        Ok(Some(Contract(k1.wHigh - cut, k1.wLow - cut)))
      else Ok(None)
  }

  /** Every corrected counter offer (Δp > 0) is accepted and leaves the
      principal at least `minProfit`; it is refused only when no IR
      contract can leave `minProfit`. */
  lemma {:induction false} ShiftedCounterOfferSound(env: Env, costs: Costs, k: Contract, minProfit: real)
    requires env.pHigh - env.pLow > 0.0
    ensures var r := ShiftedCounterOffer(env, costs, k, minProfit);
            && r.Ok?
            && (r.value.Some? ==> Accepts(env, costs, r.value.value)
                                  && PrincipalProfit(env, r.value.value, Work) >= minProfit)
            && (r.value.None? <==> PrincipalProfit(env, Bumped(env, costs, k), Work) < minProfit
                                   && env.uRes + costs.effort > ExpectedRevenue(env.pHigh, env) - minProfit)
  {
    var k1 := Bumped(env, costs, k);
    BumpedRestoresConstraints(env, costs, k);
    if PrincipalProfit(env, k1, Work) < minProfit && env.uRes + costs.effort <= ExpectedRevenue(env.pHigh, env) - minProfit {
      var cut := ExpectedWage(env.pHigh, k1) - (env.uRes + costs.effort);
      var k2 := Contract(k1.wHigh - cut, k1.wLow - cut);
      assert ExpectedWage(env.pHigh, k2) == env.uRes + costs.effort;
      IncentiveCompatibleIffSpread(env, costs, k1);
      IncentiveCompatibleIffSpread(env, costs, k2);
      ProfitSplitsRevenue(env, k2, Work);
    }
  }
}

=== FILE: drawn_contract.dfy ===
/** The contract round of SimTest/APPUITest3.py: the principal remembers
    the last random draw and uses it as the next high wage; the agent
    stores its effort and shirk utilities in the fields that used to hold
    the wages, and the principal's income is then computed from those
    stored values. */
module DrawnContract {
  import opened Common
  import opened BinaryContract
  import NaiveContract

  /** PrincipalAI state: `memory` is self.w (0 before the first proposal). */
  datatype Proposal = Proposal(contract: Contract, memory: real)

  /** The high wage about to be proposed: U0 + c_H on the first call, else
      the remembered draw. */
  function HighWage(env: Env, costs: Costs, memory: real): real
  {
    if memory == 0.0 then env.uRes + costs.effort else memory
  }

  /** PrincipalAI.propose_contract with the `random.randint` result `draw`
      injected. The draw lies in [round(w_H), Y_H]. randint raises
      ValueError when Y_H is not a whole number (a non-integer stop for
      randrange) and when the range is empty. */
  function Propose(env: Env, costs: Costs, memory: real, draw: int): (r: Result<Proposal>)
    requires WholeNumber(env.revHigh) && RoundHalfEven(HighWage(env, costs, memory)) as real <= env.revHigh ==>
             RoundHalfEven(HighWage(env, costs, memory)) <= draw && draw as real <= env.revHigh
    ensures r.Err? <==> !WholeNumber(env.revHigh) || RoundHalfEven(HighWage(env, costs, memory)) as real > env.revHigh
    ensures r.Err? ==> r.error == ValueError
    ensures r.Ok? ==> r.value.contract.wHigh - r.value.contract.wLow == costs.effort - costs.shirk
    ensures r.Ok? && memory == 0.0 ==> r.value.contract == NaiveContract.Naive(env, costs)
    ensures r.Ok? && memory != 0.0 ==> r.value.contract.wHigh == memory
    ensures r.Ok? ==> HighWage(env, costs, memory) - 0.5 <= r.value.memory <= env.revHigh
  {
    var wh := HighWage(env, costs, memory);
    var lo := RoundHalfEven(wh);
    if !WholeNumber(env.revHigh) then Err(ValueError)
    else if lo as real > env.revHigh then Err(ValueError)
    else Ok(Proposal(Contract(wh, wh - (costs.effort - costs.shirk)), draw as real))
  }

  /** A float with no fractional part, the only float randint accepts as
      a bound. */
  predicate WholeNumber(x: real)
  {
    x.Floor as real == x
  }

  /** What AgentAI.evaluate_contract leaves behind in self.w_high/self.w_low:
      the effort and the shirk utility. */
  datatype Stored = Stored(ue: real, ul: real)

  /** AgentAI.evaluate_contract: accept iff effort beats U0 and shirking. */
  function Evaluate(env: Env, costs: Costs, k: Contract): (r: (bool, Stored))
    ensures r.0 <==> Accepts(env, costs, k)
    ensures r.1 == Stored(Utility(env, costs, k, Work), Utility(env, costs, k, Shirk))
  {
    var ue := env.pHigh * (k.wHigh - costs.effort) + (1.0 - env.pHigh) * (k.wLow - costs.effort);
    var ul := env.pLow * (k.wHigh - costs.shirk) + (1.0 - env.pLow) * (k.wLow - costs.shirk);
    assert ue == Utility(env, costs, k, Work);
    assert ul == Utility(env, costs, k, Shirk);
    (ue >= env.uRes && ue >= ul, Stored(ue, ul))
  }

  /** AgentAI.choose_effort on the stored utilities: the effort whose
      stored utility is higher, with a tie going to effort. */
  function ChooseEffort(s: Stored): (e: Effort)
    ensures s.ue > s.ul ==> e == Work
    ensures s.ue < s.ul ==> e == Shirk
    ensures s.ue == s.ul ==> e == Work
  {
    if s.ue >= s.ul then Work else Shirk
  }

  /** After evaluating a contract, choose_effort is the best response to
      that contract. */
  lemma ChooseEffortIsBestResponse(env: Env, costs: Costs, k: Contract)
    ensures ChooseEffort(Evaluate(env, costs, k).1) == BestResponse(env, costs, k)
  {
  }

  /** The first proposal is accepted only in the degenerate cases where the
      naive contract meets participation: its effort utility falls short of
      U0 by (1 − p_H)·Δc. */
  lemma {:induction false} FirstProposalShortfall(env: Env, costs: Costs, draw: int)
    requires WholeNumber(env.revHigh)
    requires RoundHalfEven(env.uRes + costs.effort) <= draw && draw as real <= env.revHigh
    ensures Propose(env, costs, 0.0, draw).Ok?
    ensures var k := Propose(env, costs, 0.0, draw).value.contract;
            Evaluate(env, costs, k).1.ue == env.uRes - (1.0 - env.pHigh) * (costs.effort - costs.shirk)
  {
    NaiveContract.NaiveGaps(env, costs);
  }

  /** AgentAI.principal_income as written: the stored utilities stand in
      for the wages, and the shirk branch adds p_L where it should
      multiply. */
  function PrincipalIncomeAsWritten(env: Env, s: Stored, e: Effort): (r: real)
    ensures e == Work ==> r == PrincipalProfit(env, Contract(s.ue, s.ul), Work)
    ensures e == Shirk ==>
            r == PrincipalProfit(env, Contract(s.ue, s.ul), Shirk) + env.pLow + (1.0 - env.pLow) * (env.revHigh - s.ue)
  {
    if e == Work then env.pHigh * (env.revHigh - s.ue) + (1.0 - env.pHigh) * (env.revLow - s.ul)
    else env.pLow + (env.revHigh - s.ue) + (1.0 - env.pLow) * (env.revLow - s.ul)
  }

  /** The shirk branch as intended: the p_L-weighted expected profit. */
  function PrincipalIncome(env: Env, s: Stored, e: Effort): (r: real)
    ensures r == PrincipalProfit(env, Contract(s.ue, s.ul), e)
  {
    var p := ProbOf(env, e);
    p * (env.revHigh - s.ue) + (1.0 - p) * (env.revLow - s.ul)
  }

  /** The two agree under effort; under shirking the written value exceeds
      the intended one by p_L + (1 − p_L)·(Y_H − x), where x is the stored
      effort value. With p_L = 0.5, Y = (10, 0) and stored (0, 0) the written
      value is 10.5 where 5 is meant. */
  lemma {:induction false} ShirkIncomeTypo(env: Env, s: Stored)
    ensures PrincipalIncomeAsWritten(env, s, Work) == PrincipalIncome(env, s, Work)
    ensures PrincipalIncomeAsWritten(env, s, Shirk) - PrincipalIncome(env, s, Shirk)
            == env.pLow + (1.0 - env.pLow) * (env.revHigh - s.ue)
    ensures var env' := Env(10.0, 0.0, 0.9, 0.5, 0.0);
            PrincipalIncomeAsWritten(env', Stored(0.0, 0.0), Shirk) == 10.5
            && PrincipalIncome(env', Stored(0.0, 0.0), Shirk) == 5.0
  {
  }
}

=== FILE: education_screening.dfy ===
/** Education as a screening device: a student with ability, unit cost of
    education and wage chooses an investment; the firm hires when the
    investment reaches its threshold. EducationSignalingModel (test.py,
    test2.py) and ImprovedEducationSignaling (test3.py to test7.py) differ
    only in whether a negative investment is first raised to zero and in
    the firm's output formula. */
module EducationScreening {
  import opened Common

  datatype Student = Student(ability: real, cost: real, wage: real)

  /** The firm's output when it hires: `10 + 10*ability` in the improved
      classes and test2.py, `(wage + 10)*ability` in test.py. */
  datatype Output = Improved | WageScaled

  /** The investment the worker's side works with: test3.py, test4.py and
      test6.py raise a negative investment to zero, the others do not. */
  function EffectiveInvest(invest: real, clamp: bool): (e: real)
    ensures clamp ==> e >= 0.0 && e == Max(invest, 0.0)
    ensures !clamp ==> e == invest
  {
    if clamp && invest < 0.0 then 0.0 else invest
  }

  /** `labor_utility`: the wage times ability when hired, less the quadratic
      cost of education either way. */
  function LaborUtility(st: Student, invest: real, threshold: real, clamp: bool): (u: real)
    ensures var e := EffectiveInvest(invest, clamp);
            u + st.cost * e * e == (if e >= threshold then st.wage * st.ability else 0.0)
  {
    var e := EffectiveInvest(invest, clamp);
    if e >= threshold then st.wage * st.ability - st.cost * (e * e)
    else -(st.cost * (e * e))
  }

  function Produce(st: Student, out: Output): real
  {
    match out
    case Improved => 10.0 + 10.0 * st.ability
    case WageScaled => (st.wage + 10.0) * st.ability
  }

  /** `firm_payoff`: output less the wage when the (raw) investment reaches
      the threshold, nothing otherwise. */
  function FirmPayoff(st: Student, invest: real, threshold: real, out: Output): (f: real)
    ensures invest < threshold ==> f == 0.0
    ensures invest >= threshold ==> f + st.wage == Produce(st, out)
  {
    if invest >= threshold then Produce(st, out) - st.wage else 0.0
  }

  /** Hiring is worth exactly the wage times ability to the worker: at the
      same investment, a hired and a rejected worker differ by that much. */
  lemma HiringPremium(st: Student, invest: real, t1: real, t2: real, clamp: bool)
    requires EffectiveInvest(invest, clamp) >= t1 && EffectiveInvest(invest, clamp) < t2
    ensures LaborUtility(st, invest, t1, clamp) - LaborUtility(st, invest, t2, clamp) == st.wage * st.ability
  {
  }

  /** Raising the threshold never helps the worker (when the wage is worth
      something) and switches the firm's payoff off exactly past the
      investment. */
  lemma ThresholdMonotone(st: Student, invest: real, t: real, t': real, clamp: bool, out: Output)
    requires t <= t' && st.wage * st.ability >= 0.0
    ensures LaborUtility(st, invest, t', clamp) <= LaborUtility(st, invest, t, clamp)
    ensures FirmPayoff(st, invest, t', out) != FirmPayoff(st, invest, t, out) ==>
              t <= invest < t' && FirmPayoff(st, invest, t', out) == 0.0
  {
  }

  /** Beyond the threshold, more education only costs the worker. */
  lemma MoreEducationCostsMore(st: Student, e: real, e': real, threshold: real, clamp: bool)
    requires st.cost >= 0.0 && 0.0 <= e <= e'
    requires (e >= threshold) == (e' >= threshold)
    ensures LaborUtility(st, e', threshold, clamp) <= LaborUtility(st, e, threshold, clamp)
  {
    SquareMonotone(e, e');
    MulLeft(st.cost, e * e, e' * e');
  }

  /** The clamp matters only for negative investments, which it treats as
      no education at all. */
  lemma ClampOnlyForNegative(st: Student, invest: real, threshold: real)
    ensures invest >= 0.0 ==> LaborUtility(st, invest, threshold, true) == LaborUtility(st, invest, threshold, false)
    ensures invest < 0.0 ==> LaborUtility(st, invest, threshold, true) == LaborUtility(st, 0.0, threshold, false)
  {
  }

  /** test.py's firm profits from every hire of an able worker at a
      non-negative wage; the improved firm profits exactly when the wage is
      below 10 + 10*ability. */
  lemma HireProfitable(st: Student)
    ensures st.ability >= 1.0 && st.wage >= 0.0 ==> FirmPayoff(st, 0.0, 0.0, WageScaled) >= 10.0
    ensures FirmPayoff(st, 0.0, 0.0, Improved) > 0.0 <==> st.wage < 10.0 + 10.0 * st.ability
  {
    if st.ability >= 1.0 && st.wage >= 0.0 {
      MulLeft(st.wage + 10.0, 1.0, st.ability);
      assert (st.wage + 10.0) * st.ability >= st.wage + 10.0;
    }
  }

  /** `simulate` of the clamping classes, as written: the worker's side
      hires on the clamped investment, the firm's on the raw one. */
  function SimulateAsWritten(st: Student, invest: real, threshold: real): (r: (real, real))
    ensures r.0 == LaborUtility(st, invest, threshold, true)
    ensures r.1 == FirmPayoff(st, invest, threshold, Improved)
  {
    (LaborUtility(st, invest, threshold, true), FirmPayoff(st, invest, threshold, Improved))
  }

  /** With investment -1 and threshold 0, the default student counts the
      full wage as hired while the firm records no hire at all. */
  lemma ClampedWorkerPaidWithoutHire()
    ensures var st := Student(1.0, 0.1, 50.0);
            var r := SimulateAsWritten(st, -1.0, 0.0);
            r.0 == 50.0 && r.1 == 0.0 && Produce(st, Improved) - st.wage == -30.0
  {
  }

  /** `simulate` with both sides deciding on the clamped investment. */
  function Simulate(st: Student, invest: real, threshold: real, clamp: bool): (r: (real, real))
    ensures r.0 == LaborUtility(st, invest, threshold, clamp)
    ensures r.1 == FirmPayoff(st, EffectiveInvest(invest, clamp), threshold, Improved)
  {
    var e := EffectiveInvest(invest, clamp);
    (LaborUtility(st, invest, threshold, clamp), FirmPayoff(st, e, threshold, Improved))
  }

  /** In the corrected simulation the worker is paid exactly when the firm
      hires, and nothing changes for non-negative investments. */
  lemma SimulateHiresConsistently(st: Student, invest: real, threshold: real, clamp: bool)
    ensures var e := EffectiveInvest(invest, clamp);
            var r := Simulate(st, invest, threshold, clamp);
            if e >= threshold
            then r.0 + st.cost * e * e == st.wage * st.ability && r.1 + st.wage == Produce(st, Improved)
            else r.0 + st.cost * e * e == 0.0 && r.1 == 0.0
    ensures invest >= 0.0 ==> Simulate(st, invest, threshold, true) == SimulateAsWritten(st, invest, threshold)
  {
  }

  /** `np.arange(0.0, 10.0, 0.5)`: the thresholds `find_optimal_threshold`
      tries, in order. */
  function Candidates(): (cs: seq<real>)
    ensures |cs| == 20 && cs[0] == 0.0
    ensures forall k :: 0 <= k < |cs| ==> cs[k] == (k as real) / 2.0
  {
    seq(20, k => (k as real) / 2.0)
  }

  /** Total firm payoff over the students when each invests `invest` and
      the firm sets `threshold`. */
  function TotalFirm(sts: seq<Student>, invest: real, threshold: real): real
  {
    if |sts| == 0 then 0.0
    else TotalFirm(sts[..|sts| - 1], invest, threshold) + FirmPayoff(sts[|sts| - 1], invest, threshold, Improved)
  }

  /** Sum of output less wage: the firm's total when everyone is hired. */
  function Surplus(sts: seq<Student>): real
  {
    if |sts| == 0 then 0.0
    else Surplus(sts[..|sts| - 1]) + (Produce(sts[|sts| - 1], Improved) - sts[|sts| - 1].wage)
  }

  /** When every student invests at least the threshold, the firm's total is
      the surplus, whatever the threshold is. */
  lemma {:induction false} AllHiredTotal(sts: seq<Student>, invest: real, threshold: real)
    requires invest >= threshold
    ensures TotalFirm(sts, invest, threshold) == Surplus(sts)
  {
    if |sts| > 0 {
      AllHiredTotal(sts[..|sts| - 1], invest, threshold);
    }
  }

  /** `find_optimal_threshold`: for each candidate s every student invests
      exactly s, the firm's payoffs are summed, and a strictly better total
      replaces the best, starting from -1e9. The lists are read by index up
      to the length of the ability list; a shorter cost or wage list raises
      IndexError. Because investing s always meets threshold s, every
      candidate yields the same total, so the first candidate 0.0 is
      returned. */
  method FindOptimalThreshold(abilities: seq<real>, costs: seq<real>, wages: seq<real>)
    returns (r: Result<(real, real)>)
    ensures r.Err? <==> |costs| < |abilities| || |wages| < |abilities|
    ensures r.Err? ==> r.error == IndexError
    ensures r.Ok? ==>
              var sts := seq(|abilities|, i requires 0 <= i < |abilities| => Student(abilities[i], costs[i], wages[i]));
              && r.value.0 == 0.0
              && r.value.1 == Max(-1e9, Surplus(sts))
              && (forall k :: 0 <= k < |Candidates()| ==>
                    TotalFirm(sts, Candidates()[k], Candidates()[k]) <= r.value.1)
  {
    if |costs| < |abilities| || |wages| < |abilities| {
      return Err(IndexError);
    }
    var sts := seq(|abilities|, i requires 0 <= i < |abilities| => Student(abilities[i], costs[i], wages[i]));
    var cs := Candidates();
    var bestS, bestProfit := 0.0, -1e9;
    var k := 0;
    while k < |cs|
      invariant 0 <= k <= |cs|
      invariant bestS == 0.0
      invariant bestProfit == if k == 0 then -1e9 else Max(-1e9, Surplus(sts))
      invariant forall j :: 0 <= j < k ==> TotalFirm(sts, cs[j], cs[j]) <= bestProfit
    {
      var s := cs[k];
      var total := 0.0;
      var i := 0;
      while i < |sts|
        invariant 0 <= i <= |sts|
        invariant total == TotalFirm(sts[..i], s, s)
      {
        assert sts[..i + 1][..i] == sts[..i];
        total := total + FirmPayoff(sts[i], s, s, Improved);
        i := i + 1;
      }
      assert sts[..|sts|] == sts;
      AllHiredTotal(sts, s, s);
      if total > bestProfit {
        bestS, bestProfit := s, total;
      }
      k := k + 1;
    }
    return Ok((bestS, bestProfit));
  }

  /** What `run_edu_scan` in test5.py varies: the threshold with the
      investment fixed at 2.0, or the investment with the threshold fixed
      at 2.0. */
  datatype ScanMode = ScanThreshold | ScanInvest

  /** `run_edu_scan`: one unclamped simulation per scanned value. In
      threshold mode the worker is hired (and the firm gains output less
      wage) exactly while the threshold is at most 2; in invest mode,
      exactly from investment 2 on. */
  method EduScan(st: Student, mode: ScanMode, values: seq<real>)
    returns (labor: seq<real>, firm: seq<real>)
    ensures |labor| == |values| && |firm| == |values|
    ensures mode.ScanThreshold? ==> forall k :: 0 <= k < |values| ==>
              && labor[k] + st.cost * 4.0 == (if values[k] <= 2.0 then st.wage * st.ability else 0.0)
              && firm[k] == (if values[k] <= 2.0 then Produce(st, Improved) - st.wage else 0.0)
    ensures mode.ScanInvest? ==> forall k :: 0 <= k < |values| ==>
              && labor[k] + st.cost * values[k] * values[k] == (if values[k] >= 2.0 then st.wage * st.ability else 0.0)
              && firm[k] == (if values[k] >= 2.0 then Produce(st, Improved) - st.wage else 0.0)
  {
    labor, firm := [], [];
    var k := 0;
    while k < |values|
      invariant 0 <= k <= |values|
      invariant |labor| == k && |firm| == k
      invariant forall j :: 0 <= j < k ==>
                  if mode.ScanThreshold? then (labor[j], firm[j]) == Simulate(st, 2.0, values[j], false)
                  else (labor[j], firm[j]) == Simulate(st, values[j], 2.0, false)
    {
      var r := if mode.ScanThreshold? then Simulate(st, 2.0, values[k], false) else Simulate(st, values[k], 2.0, false);
      labor, firm := labor + [r.0], firm + [r.1];
      k := k + 1;
    }
  }
}

=== FILE: effort_grid.dfy ===
/** MoralHazardModel of EntrustmentAgencyIncentiveMechanism/test13.py: a
    binary-outcome principal–agent model with one revenue R in both states,
    effort cost C_h and no shirking cost, searched over a grid of wage pairs
    for the most profitable contract satisfying IR and IC. */
module EffortGrid {
  import opened Common
  import opened BinaryContract

  datatype Model = Model(r: real, pHigh: real, pLow: real, costHigh: real, uRes: real)

  /** The model as an instance of the shared binary-outcome environment. */
  function AsEnv(m: Model): Env
  {
    Env(m.r, m.r, m.pHigh, m.pLow, m.uRes)
  }

  function AsCosts(m: Model): Costs
  {
    Costs(m.costHigh, 0.0)
  }

  /** agent_util_high. */
  function UtilHigh(m: Model, wH: real, wL: real): (u: real)
    ensures u == Utility(AsEnv(m), AsCosts(m), Contract(wH, wL), Work)
  {
    m.pHigh * wH + (1.0 - m.pHigh) * wL - m.costHigh
  }

  /** agent_util_low: shirking costs nothing. */
  function UtilLow(m: Model, wH: real, wL: real): (u: real)
    ensures u == Utility(AsEnv(m), AsCosts(m), Contract(wH, wL), Shirk)
    ensures u == ExpectedWage(m.pLow, Contract(wH, wL))
  {
    m.pLow * wH + (1.0 - m.pLow) * wL
  }

  /** principal_profit: with one revenue in both states the profit is R
      minus the expected wage of the effort level. */
  function Profit(m: Model, wH: real, wL: real, high: bool): (p: real)
    ensures p == PrincipalProfit(AsEnv(m), Contract(wH, wL), if high then Work else Shirk)
    ensures p == m.r - ExpectedWage(if high then m.pHigh else m.pLow, Contract(wH, wL))
  {
    if high then m.pHigh * (m.r - wH) + (1.0 - m.pHigh) * (m.r - wL)
    else m.pLow * (m.r - wH) + (1.0 - m.pLow) * (m.r - wL)
  }

  /** The search's filter: IR (U_H ≥ U_A0) and IC (U_H ≥ U_L). */
  predicate Feasible(m: Model, wH: real, wL: real)
  {
    UtilHigh(m, wH, wL) >= m.uRes && UtilHigh(m, wH, wL) >= UtilLow(m, wH, wL)
  }

  lemma FeasibleIsAccepted(m: Model, wH: real, wL: real)
    ensures Feasible(m, wH, wL) <==> Accepts(AsEnv(m), AsCosts(m), Contract(wH, wL))
  {
  }

  /** The tuple grid_search_contract returns. */
  datatype Best = Best(wH: real, wL: real, uHigh: real, uLow: real, profit: real)

  function BestAt(m: Model, wH: real, wL: real): Best
  {
    Best(wH, wL, UtilHigh(m, wH, wL), UtilLow(m, wH, wL), Profit(m, wH, wL, true))
  }

  /** Cell (i, j) of the profit matrix: the effort profit when the pair
      (ws[j], wl[i]) is feasible, NaN (None) otherwise. */
  function Cell(m: Model, wH: real, wL: real): (c: Option<real>)
    ensures c.Some? <==> Feasible(m, wH, wL)
    ensures c.Some? ==> c.value == Profit(m, wH, wL, true)
  {
    if Feasible(m, wH, wL) then Some(Profit(m, wH, wL, true)) else None
  }

  /** grid_search_contract over the given grids (`wl` outer, `ws` inner):
      the matrix marks exactly the feasible cells with their profit, and the
      best contract is the first feasible cell of maximal profit, or None if
      no cell is feasible. */
  method GridSearch(m: Model, ws: seq<real>, wl: seq<real>) returns (best: Option<Best>, mat: seq<seq<Option<real>>>)
    ensures |mat| == |wl|
    ensures forall i :: 0 <= i < |wl| ==> |mat[i]| == |ws|
    ensures forall i, j :: 0 <= i < |wl| && 0 <= j < |ws| ==> mat[i][j] == Cell(m, ws[j], wl[i])
    ensures best.None? <==> forall i, j :: 0 <= i < |wl| && 0 <= j < |ws| ==> mat[i][j].None?
    ensures best.Some? ==>
              exists bi, bj :: 0 <= bi < |wl| && 0 <= bj < |ws| && mat[bi][bj] == Some(best.value.profit)
                && best.value == BestAt(m, ws[bj], wl[bi])
                && FirstMaxCell(mat, |ws|, bi, bj, best.value.profit)
  {
    best := None;
    mat := [];
    ghost var bi, bj := 0, 0;
    var i := 0;
    while i < |wl|
      invariant 0 <= i <= |wl|
      invariant |mat| == i
      invariant forall a :: 0 <= a < i ==> |mat[a]| == |ws|
      invariant forall a, b :: 0 <= a < i && 0 <= b < |ws| ==> mat[a][b] == Cell(m, ws[b], wl[a])
      invariant best.None? <==> forall a, b :: 0 <= a < i && 0 <= b < |ws| ==> mat[a][b].None?
      invariant best.Some? ==>
                  0 <= bi < i && 0 <= bj < |ws| && mat[bi][bj] == Some(best.value.profit)
                  && best.value == BestAt(m, ws[bj], wl[bi])
                  && FirstMaxCell(mat, |ws|, bi, bj, best.value.profit)
    {
      var row: seq<Option<real>> := [];
      var j := 0;
      while j < |ws|
        invariant 0 <= j <= |ws|
        invariant |row| == j
        invariant forall b :: 0 <= b < j ==> row[b] == Cell(m, ws[b], wl[i])
        invariant best.None? <==>
                    (forall a, b :: 0 <= a < i && 0 <= b < |ws| ==> mat[a][b].None?)
                    && (forall b :: 0 <= b < j ==> row[b].None?)
        invariant best.Some? ==>
                    0 <= bi <= i && 0 <= bj < |ws| && (bi == i ==> bj < j)
                    && (bi < i ==> mat[bi][bj] == Some(best.value.profit))
                    && (bi == i ==> row[bj] == Some(best.value.profit))
                    && best.value == BestAt(m, ws[bj], wl[bi])
                    && FirstMaxCell(mat, |ws|, bi, bj, best.value.profit)
                    && (forall b :: 0 <= b < j && row[b].Some? ==>
                          row[b].value <= best.value.profit
                          && (Before(i, b, bi, bj) ==> row[b].value < best.value.profit))
      {
        var wH, wL := ws[j], wl[i];
        var uh := UtilHigh(m, wH, wL);
        var ul := UtilLow(m, wH, wL);
        if uh >= m.uRes && uh >= ul {
          var profit := Profit(m, wH, wL, true);
          row := row + [Some(profit)];
          if best.None? || profit > best.value.profit {
            best := Some(Best(wH, wL, uh, ul, profit));
            bi, bj := i, j;
          }
        } else {
          row := row + [None];
        }
        j := j + 1;
      }
      mat := mat + [row];
      i := i + 1;
    }
  }

  /** The search's result read in the model's own terms: the cell it picks
      satisfies IR and IC, and no feasible pair earns the principal more. */
  lemma {:induction false} GridSearchFeasibility(m: Model, ws: seq<real>, wl: seq<real>,
                                                 mat: seq<seq<Option<real>>>, bi: int, bj: int)
    requires |mat| == |wl| && forall i :: 0 <= i < |wl| ==> |mat[i]| == |ws|
    requires forall i, j :: 0 <= i < |wl| && 0 <= j < |ws| ==> mat[i][j] == Cell(m, ws[j], wl[i])
    requires 0 <= bi < |wl| && 0 <= bj < |ws| && mat[bi][bj].Some?
    requires FirstMaxCell(mat, |ws|, bi, bj, mat[bi][bj].value)
    ensures Feasible(m, ws[bj], wl[bi])
    ensures forall i, j :: 0 <= i < |wl| && 0 <= j < |ws| && Feasible(m, ws[j], wl[i]) ==>
              Profit(m, ws[j], wl[i], true) <= Profit(m, ws[bj], wl[bi], true)
  {
    assert Cell(m, ws[bj], wl[bi]).Some?;
    forall i, j | 0 <= i < |wl| && 0 <= j < |ws| && Feasible(m, ws[j], wl[i])
      ensures Profit(m, ws[j], wl[i], true) <= Profit(m, ws[bj], wl[bi], true)
    {
      assert mat[i][j] == Cell(m, ws[j], wl[i]);
      assert mat[i][j].Some?;
    }
  }

  /** The three effort labels simulate_outcome distinguishes. */
  datatype EffortLabel = High | Low | Unknown

  /** The realised outcome: whether output was high, the wage paid, the
      agent's utility and the principal's profit. */
  datatype Outcome = Outcome(highOutput: bool, wage: real, agentUtility: real, principalProfit: real)

  /** simulate_outcome with the `random.random()` draw `u` injected. */
  function SimulateOutcome(m: Model, effort: EffortLabel, wH: real, wL: real, u: real): (r: Option<Outcome>)
    ensures r.None? <==> effort == Unknown
    ensures r.Some? ==> r.value.highOutput == (u < (if effort == High then m.pHigh else m.pLow))
    ensures r.Some? ==> r.value.wage == (if r.value.highOutput then wH else wL)
    ensures r.Some? ==> r.value.agentUtility == r.value.wage - (if effort == High then m.costHigh else 0.0)
    ensures r.Some? ==> r.value.agentUtility + r.value.principalProfit
                        == m.r - (if effort == High then m.costHigh else 0.0)
  {
    if effort == Unknown then None
    else
      var prob := if effort == High then m.pHigh else m.pLow;
      var cost := if effort == High then m.costHigh else 0.0;
      var high := u < prob;
      var wage := if high then wH else wL;
      Some(Outcome(high, wage, wage - cost, m.r - wage))
  }
}

=== FILE: effort_insurance.dfy ===
/** The bicycle-theft insurance models of the early teaching pages
    (InsuranceRiskModel in EntrustmentAgencyIncentiveMechanism/test.py and
    test2.py, ImprovedInsuranceRiskModel in test3.py, test4.py, test5.py and
    test7.py): the insured's anti-theft effort lowers the theft probability,
    the insured pays a premium and is paid the coverage (net of any
    deductible) when the bicycle, worth 100, is stolen. */
module EffortInsurance {
  import opened Common

  const BicycleValue: real := 100.0

  datatype Policy = Policy(p0: real, alpha: real, premium: real, coverage: real, deductible: real)

  /** The 'linear' risk model, or the 'power' one with the real power
      supplied: p0 * (1 - effort)^alpha. */
  datatype RiskModel = Linear | Power(pow: (real, real) -> real)

  /** `theft_probability`: the raw probability clamped to [0, 1]. */
  function TheftProbability(pol: Policy, model: RiskModel, effort: real): (p: real)
    ensures 0.0 <= p <= 1.0
    ensures model.Linear? && 0.0 <= pol.p0 - pol.alpha * effort <= 1.0 ==> p == pol.p0 - pol.alpha * effort
  {
    var raw := match model
      case Linear => pol.p0 - pol.alpha * effort
      case Power(pow) => pol.p0 * pow(1.0 - effort, pol.alpha);
    Clamp01(raw)
  }

  /** In the linear model, more effort never raises the theft probability
      when effort lowers risk (alpha >= 0). */
  lemma EffortLowersTheft(pol: Policy, e1: real, e2: real)
    requires pol.alpha >= 0.0 && e1 <= e2
    ensures TheftProbability(pol, Linear, e2) <= TheftProbability(pol, Linear, e1)
  {
    MulLeft(pol.alpha, e1, e2);
    assert pol.p0 - pol.alpha * e2 <= pol.p0 - pol.alpha * e1;
    Clamp01Monotone(pol.p0 - pol.alpha * e2, pol.p0 - pol.alpha * e1);
  }

  /** The coverage actually paid: `max(0, coverage - deductible)` in the
      improved models; test.py and test2.py pay the coverage as given. */
  function NetCoverage(pol: Policy, improved: bool): (c: real)
    ensures improved ==> c >= 0.0 && c >= pol.coverage - pol.deductible
    ensures improved && pol.coverage - pol.deductible >= 0.0 ==> c == pol.coverage - pol.deductible
    ensures !improved ==> c == pol.coverage
  {
    if improved then Max(0.0, pol.coverage - pol.deductible) else pol.coverage
  }

  /** One insured: theft probability, the insured's expected return and the
      insurer's expected profit. */
  datatype Outcome = Outcome(p: real, expReturn: real, companyProfit: real)

  /** `simulate_one` / `simulate_once` / `simulate`. */
  function SimulateOne(pol: Policy, model: RiskModel, improved: bool, effort: real): (o: Outcome)
    ensures o.p == TheftProbability(pol, model, effort)
    ensures o.companyProfit == pol.premium - o.p * NetCoverage(pol, improved)
  {
    var p := TheftProbability(pol, model, effort);
    var cover := NetCoverage(pol, improved);
    Outcome(p, -pol.premium + (1.0 - p) * BicycleValue + p * cover, pol.premium - p * cover)
  }

  /** Insurance only moves money: the insured's expected return and the
      insurer's expected profit add up to the expected value of the
      bicycle, whatever the premium and coverage. */
  lemma InsuranceIsTransfer(pol: Policy, model: RiskModel, improved: bool, effort: real)
    ensures var o := SimulateOne(pol, model, improved, effort);
            o.expReturn + o.companyProfit == (1.0 - o.p) * BicycleValue
  {
  }

  /** The insurer earns more from a safer insured when the payout is
      non-negative. */
  lemma SaferInsuredMoreProfitable(pol: Policy, model: RiskModel, improved: bool, e1: real, e2: real)
    requires NetCoverage(pol, improved) >= 0.0
    requires TheftProbability(pol, model, e2) <= TheftProbability(pol, model, e1)
    ensures SimulateOne(pol, model, improved, e1).companyProfit <= SimulateOne(pol, model, improved, e2).companyProfit
  {
    var o1, o2 := SimulateOne(pol, model, improved, e1), SimulateOne(pol, model, improved, e2);
    ProfitFallsWithRisk(pol.premium, NetCoverage(pol, improved), o2.p, o1.p, o2.companyProfit, o1.companyProfit);
  }

  /** premium - p * c is non-increasing in p for a non-negative payout c;
      the two profits are passed in so that callers compare them directly. */
  lemma ProfitFallsWithRisk(premium: real, c: real, p: real, p': real, profit: real, profit': real)
    requires c >= 0.0 && p <= p'
    requires profit == premium - p * c && profit' == premium - p' * c
    ensures profit' <= profit
  {
    MulLeft(c, p, p');
    assert p * c == c * p && p' * c == c * p';
    assert p * c <= p' * c;
  }

  /** The outcomes of a group of insureds under the plain model. */
  function Outcomes(pol: Policy, efforts: seq<real>): (os: seq<Outcome>)
    ensures |os| == |efforts|
    ensures forall i :: 0 <= i < |efforts| ==> os[i] == SimulateOne(pol, Linear, false, efforts[i])
    ensures forall i :: 0 <= i < |efforts| ==>
              0.0 <= os[i].p <= 1.0 && os[i].companyProfit == pol.premium - os[i].p * pol.coverage
  {
    seq(|efforts|, i requires 0 <= i < |efforts| => SimulateOne(pol, Linear, false, efforts[i]))
  }

  /** Reference sums over a group of outcomes. */
  function SumProb(os: seq<Outcome>): real
  {
    if |os| == 0 then 0.0 else SumProb(os[..|os| - 1]) + os[|os| - 1].p
  }

  function SumReturn(os: seq<Outcome>): real
  {
    if |os| == 0 then 0.0 else SumReturn(os[..|os| - 1]) + os[|os| - 1].expReturn
  }

  function SumProfit(os: seq<Outcome>): real
  {
    if |os| == 0 then 0.0 else SumProfit(os[..|os| - 1]) + os[|os| - 1].companyProfit
  }

  /** Probabilities in [0, 1] sum to at most the group size. */
  lemma {:induction false} SumProbBounds(os: seq<Outcome>)
    requires forall i :: 0 <= i < |os| ==> 0.0 <= os[i].p <= 1.0
    ensures 0.0 <= SumProb(os) <= |os| as real
  {
    if |os| > 0 {
      SumProbBounds(os[..|os| - 1]);
    }
  }

  /** The insurer's total profit is the premiums collected less the
      coverage times the total theft probability. */
  lemma {:induction false} GroupProfitIdentity(os: seq<Outcome>, premium: real, cov: real)
    requires forall i :: 0 <= i < |os| ==> os[i].companyProfit == premium - os[i].p * cov
    ensures SumProfit(os) == |os| as real * premium - cov * SumProb(os)
  {
    if |os| > 0 {
      var init := os[..|os| - 1];
      GroupProfitIdentity(init, premium, cov);
      var o := os[|os| - 1];
      GroupStep(|init| as real, premium, cov, SumProb(init), SumProfit(init), o.p,
                SumProfit(os), SumProb(os), |os| as real);
    }
  }

  lemma GroupStep(n: real, premium: real, cov: real, sp: real, sprof: real, p: real, sprof': real, sp': real, n': real)
    requires sprof == n * premium - cov * sp
    requires sprof' == sprof + (premium - p * cov) && sp' == sp + p && n' == n + 1.0
    ensures sprof' == n' * premium - cov * sp'
  {
    assert cov * sp' == cov * sp + cov * p;
  }

  lemma GroupProbBounds(pol: Policy, efforts: seq<real>)
    ensures 0.0 <= SumProb(Outcomes(pol, efforts)) <= |efforts| as real
  {
    SumProbBounds(Outcomes(pol, efforts));
  }

  lemma GroupProfit(pol: Policy, efforts: seq<real>)
    ensures var os := Outcomes(pol, efforts);
            SumProfit(os) == |efforts| as real * pol.premium - pol.coverage * SumProb(os)
  {
    GroupProfitIdentity(Outcomes(pol, efforts), pol.premium, pol.coverage);
  }

  /** `simulate_group` in test2.py: average theft probability, average
      return and the insurer's total profit, which is the premiums less the
      coverage times the total theft probability; an empty group divides
      by zero. */
  method SimulateGroup(pol: Policy, efforts: seq<real>) returns (r: Result<(real, real, real)>)
    ensures |efforts| == 0 <==> r.Err?
    ensures r.Err? ==> r.error == ZeroDivisionError
    ensures r.Ok? ==>
              var n := |efforts| as real;
              var os := Outcomes(pol, efforts);
              && r.value.0 == SumProb(os) / n
              && r.value.1 == SumReturn(os) / n
              && r.value.2 == SumProfit(os)
              && r.value.2 == n * pol.premium - pol.coverage * SumProb(os)
              && 0.0 <= r.value.0 <= 1.0
  {
    var os := Outcomes(pol, efforts);
    var totalProb, totalReturn, totalProfit := 0.0, 0.0, 0.0;
    var i := 0;
    while i < |efforts|
      invariant 0 <= i <= |efforts|
      invariant totalProb == SumProb(os[..i])
      invariant totalReturn == SumReturn(os[..i])
      invariant totalProfit == SumProfit(os[..i])
    {
      assert os[..i + 1][..i] == os[..i];
      var o := os[i];
      totalProb := totalProb + o.p;
      totalReturn := totalReturn + o.expReturn;
      totalProfit := totalProfit + o.companyProfit;
      i := i + 1;
    }
    assert os[..i] == os;
    if |efforts| == 0 {
      return Err(ZeroDivisionError);
    }
    var n := |efforts| as real;
    GroupProbBounds(pol, efforts);
    GroupProfit(pol, efforts);
    FractionInUnit(totalProb, n);
    r := Ok((totalProb / n, totalReturn / n, totalProfit));
  }
}

=== FILE: learning_principal.dfy ===
/** SimTest/principal_agent_module_optimized.py: the cost sampler, the
    agent's acceptance and effort rules, the principal's expected profit,
    the analytical contract, and the bookkeeping of the Q-learning principal
    (a bandit over a grid of wage pairs). Every random number is an input:
    `u` values are the uniform fractions behind `rng.uniform`, `roll` is
    `rng.random()` and `randomIndex` is `rng.integers(len(actions))`. */
module LearningPrincipal {
  import opened Common
  import opened BinaryContract
  import NaiveContract

  /** The optional fixed costs of EnvironmentParams. */
  datatype CostSpec = CostSpec(fixedHigh: Option<real>, fixedLow: Option<real>)

  /** EnvironmentParams.draw_costs: the fixed pair when both are set, else
      c_H ~ U(5, 0.4·(Y_H − Y_L)) and c_L ~ U(0, 0.5·c_H). */
  function DrawCosts(env: Env, spec: CostSpec, u1: real, u2: real): (c: Costs)
    requires 0.0 <= u1 < 1.0 && 0.0 <= u2 < 1.0
    ensures spec.fixedHigh.Some? && spec.fixedLow.Some? ==>
            c == Costs(spec.fixedHigh.value, spec.fixedLow.value)
    ensures !(spec.fixedHigh.Some? && spec.fixedLow.Some?) && c.effort >= 0.0 ==>
            0.0 <= c.shirk <= 0.5 * c.effort
    ensures !(spec.fixedHigh.Some? && spec.fixedLow.Some?) && 5.0 <= 0.4 * (env.revHigh - env.revLow) ==>
            5.0 <= c.effort <= 0.4 * (env.revHigh - env.revLow)
  {
    if spec.fixedHigh.Some? && spec.fixedLow.Some? then Costs(spec.fixedHigh.value, spec.fixedLow.value)
    else
      var cH := Uniform(5.0, (env.revHigh - env.revLow) * 0.4, u1);
      Costs(cH, Uniform(0.0, cH * 0.5, u2))
  }

  /** `rng.uniform(lo, hi)` for the fraction u. */
  function Uniform(lo: real, hi: real, u: real): (r: real)
    requires 0.0 <= u < 1.0
    ensures lo <= hi ==> lo <= r <= hi
  {
    var d := hi - lo;
    assert lo <= hi ==> 0.0 <= u * d <= d by {
      if lo <= hi {
        ScaleWithinUnit(u, d, u * d);
      }
    }
    lo + u * d
  }

  /** Agent.accept: only the participation constraint is checked. */
  predicate AgentAccepts(env: Env, costs: Costs, k: Contract)
  {
    env.pHigh * (k.wHigh - costs.effort) + (1.0 - env.pHigh) * (k.wLow - costs.effort) >= env.uRes
  }

  /** Acceptance here is exactly participation, a weaker test than the
      IR-and-IC acceptance of the interactive modules. */
  lemma AgentAcceptsIsParticipation(env: Env, costs: Costs, k: Contract)
    ensures AgentAccepts(env, costs, k) <==> Participates(env, costs, k)
    ensures Accepts(env, costs, k) ==> AgentAccepts(env, costs, k)
  {
    assert env.pHigh * (k.wHigh - costs.effort) + (1.0 - env.pHigh) * (k.wLow - costs.effort)
           == Utility(env, costs, k, Work);
  }

  /** AbstractPrincipal._expected_profit: nothing if the agent rejects,
      else expected revenue minus wage under the agent's chosen effort
      (Agent.choose_effort, ties to effort). */
  function ExpectedProfit(env: Env, costs: Costs, k: Contract): (r: real)
    ensures !Participates(env, costs, k) ==> r == 0.0
    ensures Participates(env, costs, k) ==>
            r + ExpectedWage(ProbOf(env, BestResponse(env, costs, k)), k)
            == ExpectedRevenue(ProbOf(env, BestResponse(env, costs, k)), env)
  {
    AgentAcceptsIsParticipation(env, costs, k);
    if !AgentAccepts(env, costs, k) then 0.0
    else
      var e := BestResponse(env, costs, k);
      ProfitSplitsRevenue(env, k, e);
      PrincipalProfit(env, k, e)
  }

  /** AnalyticalPrincipal.propose_contract: the naive wage pair. The
      principal computes it from its own fresh cost draw; this lemma takes
      the case where that draw equals the agent's costs (fixed or commonly
      known costs). Because the agent's effort utility under it is then
      U0 − (1 − p_H)·Δc, the agent rejects it whenever effort is costlier
      than shirking and p_H < 1, and the principal's expected profit is 0. */
  lemma {:induction false} AnalyticalContractEarnsNothing(env: Env, costs: Costs)
    requires costs.effort > costs.shirk && env.pHigh < 1.0
    ensures !AgentAccepts(env, costs, NaiveContract.Naive(env, costs))
    ensures ExpectedProfit(env, costs, NaiveContract.Naive(env, costs)) == 0.0
  {
    NaiveContract.NaiveContractFailsParticipation(env, costs);
    AgentAcceptsIsParticipation(env, costs, NaiveContract.Naive(env, costs));
  }

  /** The action list: (w_H, w_L) for w_H in the high grid, then w_L in the
      low grid, keeping pairs with w_H ≥ w_L. */
  function Actions(highs: seq<real>, lows: seq<real>): (r: seq<Contract>)
    ensures forall a :: a in r ==> a.wHigh >= a.wLow
    ensures forall a :: a in r <==> a.wHigh in highs && a.wLow in lows && a.wHigh >= a.wLow
    ensures |r| <= |highs| * |lows|
  {
    if |highs| == 0 then []
    else
      var rest := Actions(highs[1..], lows);
      assert |highs| * |lows| == |lows| + |highs[1..]| * |lows|;
      assert forall x :: x in highs <==> x == highs[0] || x in highs[1..] by {
        assert highs == [highs[0]] + highs[1..];
      }
      Row(highs[0], lows) + rest
  }

  /** The pairs with a given high wage, in the order of the low grid. */
  function Row(wh: real, lows: seq<real>): (r: seq<Contract>)
    ensures forall a :: a in r <==> a.wHigh == wh && a.wLow in lows && wh >= a.wLow
    ensures |r| <= |lows|
  {
    if |lows| == 0 then []
    else
      var rest := Row(wh, lows[1..]);
      assert forall x :: x in lows <==> x == lows[0] || x in lows[1..] by {
        assert lows == [lows[0]] + lows[1..];
      }
      if wh >= lows[0] then [Contract(wh, lows[0])] + rest else rest
  }

  /** A freshly built learner has one zero Q value per action. */
  function InitialQ(n: nat): (q: seq<real>)
    ensures |q| == n && AllZero(q)
  {
    seq(n, _ => 0.0)
  }

  predicate AllZero(q: seq<real>)
  {
    forall j :: 0 <= j < |q| ==> q[j] == 0.0
  }

  /** The bandit update Q[idx] += α·(reward − Q[idx]): only entry idx moves,
      and it moves towards the reward without overshooting when α ∈ [0, 1]. */
  function QUpdate(q: seq<real>, idx: nat, reward: real, alpha: real): (r: seq<real>)
    requires idx < |q|
    ensures |r| == |q|
    ensures forall j :: 0 <= j < |q| && j != idx ==> r[j] == q[j]
    ensures 0.0 <= alpha <= 1.0 ==> Min(q[idx], reward) <= r[idx] <= Max(q[idx], reward)
    ensures alpha == 1.0 ==> r[idx] == reward
    ensures alpha == 0.0 ==> r == q
  {
    var v := q[idx] + alpha * (reward - q[idx]);
    assert 0.0 <= alpha <= 1.0 ==> Min(q[idx], reward) <= v <= Max(q[idx], reward) by {
      if 0.0 <= alpha <= 1.0 {
        ConvexStep(q[idx], reward, alpha, v);
      }
    }
    q[idx := v]
  }

  /** The random inputs one training episode consumes. */
  datatype Episode = Episode(roll: real, randomIndex: nat, u1: real, u2: real)

  predicate ValidEpisode(ep: Episode, n: nat)
  {
    0.0 <= ep.roll < 1.0 && 0.0 <= ep.u1 < 1.0 && 0.0 <= ep.u2 < 1.0 && (n > 0 ==> ep.randomIndex < n)
  }

  /** _choose_action_index: explore with probability ε, else the first
      maximal Q value; an empty action list is numpy's ValueError. */
  function ChooseActionIndex(q: seq<real>, epsilon: real, roll: real, randomIndex: nat): (r: Result<nat>)
    requires |q| > 0 ==> randomIndex < |q|
    ensures r.Err? <==> |q| == 0
    ensures r.Ok? ==> r.value < |q|
    ensures r.Ok? && roll < epsilon ==> r.value == randomIndex
    ensures r.Ok? && roll >= epsilon ==> forall j :: 0 <= j < |q| ==> q[j] <= q[r.value]
    ensures r.Ok? && roll >= epsilon ==> forall j :: 0 <= j < r.value ==> q[j] < q[r.value]
  {
    if |q| == 0 then Err(ValueError)
    else if roll < epsilon then Ok(randomIndex)
    else Ok(ArgMax(q))
  }

  /** The reward of one episode: the principal's expected profit against a
      freshly drawn agent. */
  function Reward(env: Env, spec: CostSpec, ep: Episode, a: Contract): real
    requires 0.0 <= ep.u1 < 1.0 && 0.0 <= ep.u2 < 1.0
  {
    ExpectedProfit(env, DrawCosts(env, spec, ep.u1, ep.u2), a)
  }

  /** QLearningPrincipal.train over the given episodes: each episode picks
      an action, draws an agent and moves that action's Q value towards the
      reward. */
  function Train(env: Env, spec: CostSpec, actions: seq<Contract>, q: seq<real>,
                 episodes: seq<Episode>, epsilon: real, alpha: real): (r: Result<seq<real>>)
    requires |q| == |actions|
    requires forall i :: 0 <= i < |episodes| ==> ValidEpisode(episodes[i], |actions|)
    ensures r.Err? <==> |actions| == 0 && |episodes| > 0
    ensures r.Ok? ==> |r.value| == |q|
    ensures |episodes| == 0 ==> r == Ok(q)
    decreases |episodes|
  {
    if |episodes| == 0 then Ok(q)
    else
      var ep := episodes[0];
      assert ValidEpisode(ep, |actions|);
      match ChooseActionIndex(q, epsilon, ep.roll, ep.randomIndex)
      case Err(e) => Err(e)
      case Ok(idx) =>
        var reward := Reward(env, spec, ep, actions[idx]);
        var q' := QUpdate(q, idx, reward, alpha);
        Train(env, spec, actions, q', episodes[1..], epsilon, alpha)
  }

  /** When α ∈ [0, 1] and every reward any episode can produce lies in
      [lo, hi], training keeps Q values that started in [lo, hi] there. */
  lemma {:induction false} TrainKeepsBounds(env: Env, spec: CostSpec, actions: seq<Contract>, q: seq<real>,
                                            episodes: seq<Episode>, epsilon: real, alpha: real, lo: real, hi: real)
    requires |q| == |actions|
    requires forall i :: 0 <= i < |episodes| ==> ValidEpisode(episodes[i], |actions|)
    requires 0.0 <= alpha <= 1.0
    requires forall j :: 0 <= j < |q| ==> lo <= q[j] <= hi
    requires forall i, k :: 0 <= i < |episodes| && 0 <= k < |actions| && ValidEpisode(episodes[i], |actions|) ==>
               lo <= Reward(env, spec, episodes[i], actions[k]) <= hi
    ensures var r := Train(env, spec, actions, q, episodes, epsilon, alpha);
            r.Ok? ==> forall j :: 0 <= j < |r.value| ==> lo <= r.value[j] <= hi
    decreases |episodes|
  {
    if |episodes| > 0 {
      var ep := episodes[0];
      assert ValidEpisode(ep, |actions|);
      match ChooseActionIndex(q, epsilon, ep.roll, ep.randomIndex)
      case Err(_) =>
      case Ok(idx) =>
        var reward := Reward(env, spec, ep, actions[idx]);
        var q' := QUpdate(q, idx, reward, alpha);
        assert forall i :: 0 <= i < |episodes[1..]| ==> episodes[1..][i] == episodes[i + 1];
        TrainKeepsBounds(env, spec, actions, q', episodes[1..], epsilon, alpha, lo, hi);
    }
  }

  /** QLearningPrincipal.propose_contract: if every Q value is zero, train
      on the warm-up episodes first; then return the action with the first
      maximal Q value, together with the Q table afterwards. */
  function ProposeContract(env: Env, spec: CostSpec, actions: seq<Contract>, q: seq<real>,
                           warmup: seq<Episode>, epsilon: real, alpha: real): (r: Result<(Contract, seq<real>)>)
    requires |q| == |actions|
    requires |warmup| == 2000
    requires forall i :: 0 <= i < |warmup| ==> ValidEpisode(warmup[i], |actions|)
    ensures r.Err? <==> |actions| == 0
    ensures r.Ok? ==> |r.value.1| == |q| && r.value.0 in actions
    ensures r.Ok? ==>
              exists i :: (0 <= i < |actions| && actions[i] == r.value.0
                           && (forall j :: 0 <= j < |r.value.1| ==> r.value.1[j] <= r.value.1[i])
                           && (forall j :: 0 <= j < i ==> r.value.1[j] < r.value.1[i]))
    ensures r.Ok? && !AllZero(q) ==> r.value.1 == q
  {
    var trained := if AllZero(q) then Train(env, spec, actions, q, warmup, epsilon, alpha) else Ok(q);
    match trained
    case Err(e) => Err(e)
    case Ok(q') =>
      if |q'| == 0 then Err(ValueError)
      else
        var i := ArgMax(q');
        assert actions[i] == (actions[i], q').0;
        Ok((actions[i], q'))
  }
}

=== FILE: linear_bonus.dfy ===
/** The linear-bonus principal–agent model: output equals effort e, the
    agent is paid w + b·e and bears the cost c·e², the principal sells output
    at price P. It appears, with the same formulas, in
    EntrustmentAgencyIncentiveMechanism/opticalContrast.py, the
    PrincipalAgentModel of test.py and test2.py, and the
    ImprovedPrincipalAgentModel of test3.py–test7.py. */
module LinearBonus {
  import opened Common

  /** agent_best_response / agent_best_effort / best_effort: e* = b/(2c)
      for b > 0 and 0 otherwise. None is the division by zero a positive
      bonus meets when the cost factor is 0: Python floats raise
      ZeroDivisionError there, numpy scalars give +inf. */
  function BestEffort(b: real, c: real): (e: Option<real>)
    ensures e.None? <==> b > 0.0 && c == 0.0
    ensures b <= 0.0 ==> e == Some(0.0)
    ensures b > 0.0 && e.Some? ==> 2.0 * c * e.value == b
    ensures b > 0.0 && c > 0.0 ==> e.Some? && e.value > 0.0
  {
    if b <= 0.0 then Some(0.0)
    else if c == 0.0 then None
    else Some(b / (2.0 * c))
  }

  /** agent_utility: U_A = w + b·e − c·e². With c > 0 no effort gives
      the agent more than w + b²/(4c). */
  function AgentUtility(w: real, b: real, e: real, c: real): (u: real)
    ensures e == 0.0 ==> u == w
    ensures c > 0.0 ==> u <= w + b * b / (4.0 * c)
  {
    UtilityCeiling(w, b, e, c);
    w + b * e - c * (e * e)
  }

  /** The square completion behind the ceiling:
      w + b²/(4c) − U_A = c·(e − b/(2c))². */
  lemma UtilityCeiling(w: real, b: real, e: real, c: real)
    ensures c > 0.0 ==> w + b * e - c * (e * e) <= w + b * b / (4.0 * c)
  {
    if c > 0.0 {
      var s := b / (2.0 * c);
      assert b == 2.0 * c * s;
      assert b * b / (4.0 * c) == c * (s * s);
      assert c * (s * s) - b * e + c * (e * e) == c * ((e - s) * (e - s));
      assert (e - s) * (e - s) >= 0.0;
      MulLeft(c, 0.0, (e - s) * (e - s));
    }
  }

  /** principal_profit: π = P·e − (w + b·e). Wage and bonus are transfers:
      for every cost factor, profit plus the agent's utility is the surplus
      P·e − c·e². */
  function Profit(price: real, w: real, b: real, e: real): (r: real)
    ensures forall c :: r + AgentUtility(w, b, e, c) == price * e - c * (e * e)
    ensures e == 0.0 ==> r == -w
  {
    price * e - (w + b * e)
  }

  /** Incentive compatibility, the claim in opticalContrast.py's header:
      with c > 0 the best response maximises the agent's utility over all
      non-negative efforts. For b > 0 the loss from any other effort is
      exactly c·(e − e*)². */
  lemma {:induction false} BestEffortMaximises(w: real, b: real, c: real, e: real)
    requires c > 0.0 && e >= 0.0
    ensures BestEffort(b, c).Some?
    ensures AgentUtility(w, b, e, c) <= AgentUtility(w, b, BestEffort(b, c).value, c)
    ensures b > 0.0 ==>
            AgentUtility(w, b, BestEffort(b, c).value, c) - AgentUtility(w, b, e, c)
            == c * ((e - BestEffort(b, c).value) * (e - BestEffort(b, c).value))
  {
    var s := BestEffort(b, c).value;
    if b > 0.0 {
      assert b == 2.0 * c * s;
      calc {
        AgentUtility(w, b, s, c) - AgentUtility(w, b, e, c);
        b * s - c * (s * s) - b * e + c * (e * e);
        2.0 * c * s * s - c * (s * s) - 2.0 * c * s * e + c * (e * e);
        c * ((e - s) * (e - s));
      }
      assert (e - s) * (e - s) >= 0.0;
      assert c * ((e - s) * (e - s)) >= 0.0;
    } else {
      assert b * e <= 0.0;
      assert c * (e * e) >= 0.0;
    }
  }

  /** PrincipalAgentModel.simulate (test.py, test2.py): the agent's best
      effort, its utility and the principal's profit at that effort. The
      parameters are Python floats, so a positive bonus with c = 0 raises
      ZeroDivisionError. */
  datatype Outcome = Outcome(effort: real, agentUtility: real, profit: real)

  function Simulate(w: real, b: real, price: real, c: real): (r: Result<Outcome>)
    ensures r.Err? <==> b > 0.0 && c == 0.0
    ensures r.Err? ==> r.error == ZeroDivisionError
    ensures r.Ok? ==> Some(r.value.effort) == BestEffort(b, c)
    ensures r.Ok? ==> r.value.agentUtility + r.value.profit == price * r.value.effort - c * (r.value.effort * r.value.effort)
    ensures b <= 0.0 ==> r == Ok(Outcome(0.0, w, -w))
  {
    match BestEffort(b, c)
    case None => Err(ZeroDivisionError)
    case Some(e) => Ok(Outcome(e, AgentUtility(w, b, e, c), Profit(price, w, b, e)))
  }
}

=== FILE: linear_share_contract.dfy ===
/** The contract designer and bargaining agent of Simsoft/sim_soft_4.py:
    a linear revenue share b·Y + a with b set by the incentive constraint
    and a by the participation constraint, clipped to limited liability and
    affordability, with a 50% share as the fallback; a Nash-split counter
    offer; and the demo cost sampler with its draws injected. */
module LinearShareContract {
  import opened Common
  import opened BinaryContract

  /** `Δp ≤ 1e-8` is the source's test for a useless probability gap. */
  const ProbEps: real := 0.00000001

  /** The 50% revenue share used whenever no designed contract is valid. */
  function Fallback(env: Env): Contract
  {
    Contract(0.5 * env.revHigh, 0.5 * env.revLow)
  }

  predicate Designable(env: Env)
  {
    env.pHigh - env.pLow > ProbEps && env.revHigh > env.revLow
  }

  /** b* = Δc / (Δp·ΔY), the smallest share that satisfies IC. */
  function ShareStar(env: Env, costs: Costs): real
    requires Designable(env)
  {
    (costs.effort - costs.shirk) / ((env.pHigh - env.pLow) * (env.revHigh - env.revLow))
  }

  /** a* = U0 + c_H − b*·E[Y], the fixed part at which IR binds. */
  function FixedStar(env: Env, costs: Costs): real
    requires Designable(env)
  {
    env.uRes + costs.effort - ShareStar(env, costs) * ExpectedRevenue(env.pHigh, env)
  }

  /** The fixed part after the low wage has been raised to zero if needed. */
  function FixedRaised(env: Env, costs: Costs): real
    requires Designable(env)
  {
    var b := ShareStar(env, costs);
    var wl := FixedStar(env, costs) + b * env.revLow;
    if wl < 0.0 then FixedStar(env, costs) - wl else FixedStar(env, costs)
  }

  /** Steps 2–4 of propose_contract: None when the source falls back to the
      50% share, otherwise the designed (unrounded) wage pair. */
  function Design(env: Env, costs: Costs): (r: Option<Contract>)
    ensures r.Some? ==> Designable(env) && ShareStar(env, costs) <= 1.0
    ensures r.Some? ==> 0.0 <= r.value.wLow && 0.0 <= r.value.wHigh <= env.revHigh
  {
    if !Designable(env) then None
    else
      var b := ShareStar(env, costs);
      if b > 1.0 then None
      else
        var a0 := FixedStar(env, costs);
        var wl0 := a0 + b * env.revLow;
        var a1 := FixedRaised(env, costs);
        var wl1 := if wl0 < 0.0 then 0.0 else wl0;
        var wh1 := a1 + b * env.revHigh;
        var capped := wh1 > env.revHigh;
        var a2 := if capped then a1 - (wh1 - env.revHigh) else a1;
        var wh2 := if capped then env.revHigh else wh1;
        var wl2 := if capped then Max(0.0, a2 + b * env.revLow) else wl1;
        if wl2 < 0.0 || wh2 < 0.0 || wh2 > env.revHigh then None
        else Some(Contract(wh2, wl2))
  }

  /** PrincipalAI.propose_contract. */
  function ProposeContract(env: Env, costs: Costs): (k: Contract)
    ensures !Designable(env) ==> k == Fallback(env)
    ensures Designable(env) && ShareStar(env, costs) > 1.0 ==> k == Fallback(env)
  {
    match Design(env, costs)
    case None => Fallback(env)
    case Some(k) => k
  }

  /** Every proposal either is the 50% fallback or respects limited
      liability and affordability. */
  lemma ProposalIsSafeOrFallback(env: Env, costs: Costs)
    ensures var k := ProposeContract(env, costs);
            k == Fallback(env) || (0.0 <= k.wLow && 0.0 <= k.wHigh <= env.revHigh)
  {
  }

  /** When neither clip fires, the designed contract makes IR and IC bind:
      effort is worth exactly U0, and exactly as much as shirking. */
  lemma {:induction false} UnclippedDesignBinds(env: Env, costs: Costs)
    requires Designable(env) && ShareStar(env, costs) <= 1.0
    requires var b := ShareStar(env, costs);
             var a := FixedStar(env, costs);
             a + b * env.revLow >= 0.0 && 0.0 <= a + b * env.revHigh <= env.revHigh
    ensures Design(env, costs).Some?
    ensures var k := ProposeContract(env, costs);
            Utility(env, costs, k, Work) == env.uRes
            && Utility(env, costs, k, Work) == Utility(env, costs, k, Shirk)
  {
    var b := ShareStar(env, costs);
    var a := FixedStar(env, costs);
    var dp := env.pHigh - env.pLow;
    var dy := env.revHigh - env.revLow;
    assert FixedRaised(env, costs) == a;
    assert Design(env, costs).Some?;
    var k := ProposeContract(env, costs);
    assert k.wLow == a + b * env.revLow;
    assert k.wHigh == a + b * env.revHigh;
    assert ExpectedWage(env.pHigh, k) == a + b * ExpectedRevenue(env.pHigh, env);
    assert b * (dp * dy) == costs.effort - costs.shirk;
    assert k.wHigh - k.wLow == b * dy;
    IncentiveGap(env, costs, k);
    assert dp * (k.wHigh - k.wLow) == b * (dp * dy);
  }

  /** Whenever the revenue cap does not bind, the designed contract is
      accepted and the agent works: IC holds with equality and IR holds,
      with equality unless the low wage had to be raised to zero. */
  lemma {:induction false} UncappedDesignAccepted(env: Env, costs: Costs)
    requires Design(env, costs).Some?
    requires FixedRaised(env, costs) + ShareStar(env, costs) * env.revHigh <= env.revHigh
    ensures var k := ProposeContract(env, costs);
            Accepts(env, costs, k) && BestResponse(env, costs, k) == Work
            && Utility(env, costs, k, Work) == Utility(env, costs, k, Shirk)
    ensures FixedStar(env, costs) + ShareStar(env, costs) * env.revLow >= 0.0 ==>
            Utility(env, costs, ProposeContract(env, costs), Work) == env.uRes
  {
    var b := ShareStar(env, costs);
    var a0 := FixedStar(env, costs);
    var a1 := FixedRaised(env, costs);
    var dp := env.pHigh - env.pLow;
    var dy := env.revHigh - env.revLow;
    if a0 + b * env.revLow < 0.0 {
      assert a1 + b * env.revLow == 0.0;
    }
    var k := ProposeContract(env, costs);
    assert k.wLow == a1 + b * env.revLow;
    assert k.wHigh == a1 + b * env.revHigh;
    assert a1 >= a0;
    assert ExpectedWage(env.pHigh, k) == a1 + b * ExpectedRevenue(env.pHigh, env);
    assert ExpectedWage(env.pHigh, k) - costs.effort == env.uRes + (a1 - a0);
    assert b * (dp * dy) == costs.effort - costs.shirk;
    IncentiveGap(env, costs, k);
    assert dp * (k.wHigh - k.wLow) == b * (dp * dy);
  }

  /** AgentAI.counter_offer: split the total surplus TS = E[Y|effort] − c_H
      − π_min − U0 equally (Nash bargaining), keeping the spread at Δc/Δp.
      The rejected wages are accepted as arguments and ignored. */
  function NashCounterOffer(env: Env, costs: Costs, rejected: Contract, minProfit: real): (r: Option<Contract>)
    ensures r.Some? ==> env.pHigh - env.pLow > 0.0 && TotalSurplus(env, costs, minProfit) > 0.0
    ensures r.Some? ==> r.value.wLow >= 0.0
    ensures r.Some? ==> r.value.wHigh - r.value.wLow == (costs.effort - costs.shirk) / (env.pHigh - env.pLow)
  {
    var dp := env.pHigh - env.pLow;
    if dp <= 0.0 then None
    else
      var ts := TotalSurplus(env, costs, minProfit);
      if ts <= 0.0 then None
      else
        var s := (costs.effort - costs.shirk) / dp;
        var ew := costs.effort + env.uRes + ts / 2.0;
        var wl := ew - env.pHigh * s;
        if wl < 0.0 then
          var wlAlt := costs.effort + env.uRes - env.pHigh * s;
          if wlAlt < 0.0 then None else Some(Contract(wlAlt + s, wlAlt))
        else Some(Contract(wl + s, wl))
  }

  function TotalSurplus(env: Env, costs: Costs, minProfit: real): real
  {
    ExpectedRevenue(env.pHigh, env) - costs.effort - minProfit - env.uRes
  }

  /** The counter offer is refused (None) for Δp ≤ 0 and TS ≤ 0, and its
      fallback branch never yields a contract: w_L_alt = w_L − TS/2 < 0. */
  lemma {:induction false} NashCounterOfferNone(env: Env, costs: Costs, rejected: Contract, minProfit: real)
    ensures env.pHigh - env.pLow <= 0.0 ==> NashCounterOffer(env, costs, rejected, minProfit).None?
    ensures TotalSurplus(env, costs, minProfit) <= 0.0 ==> NashCounterOffer(env, costs, rejected, minProfit).None?
    ensures env.pHigh - env.pLow > 0.0 && TotalSurplus(env, costs, minProfit) > 0.0 ==>
            (NashCounterOffer(env, costs, rejected, minProfit).None?
             <==> costs.effort + env.uRes + TotalSurplus(env, costs, minProfit) / 2.0
                  - env.pHigh * ((costs.effort - costs.shirk) / (env.pHigh - env.pLow)) < 0.0)
  {
  }

  /** Any counter offer keeps IC binding and w_L ≥ 0, and gives each side
      half of the surplus: the agent U0 + TS/2 and the principal π_min + TS/2;
      it is therefore accepted, and does not depend on the rejected wages. */
  lemma {:induction false} NashCounterOfferSplits(env: Env, costs: Costs, rejected: Contract, other: Contract, minProfit: real)
    requires NashCounterOffer(env, costs, rejected, minProfit).Some?
    ensures var k := NashCounterOffer(env, costs, rejected, minProfit).value;
            var ts := TotalSurplus(env, costs, minProfit);
            && ts > 0.0
            && k.wLow >= 0.0
            && k.wHigh - k.wLow == (costs.effort - costs.shirk) / (env.pHigh - env.pLow)
            && Utility(env, costs, k, Work) == env.uRes + ts / 2.0
            && PrincipalProfit(env, k, Work) == minProfit + ts / 2.0
            && Utility(env, costs, k, Work) == Utility(env, costs, k, Shirk)
            && Accepts(env, costs, k)
    ensures NashCounterOffer(env, costs, other, minProfit) == NashCounterOffer(env, costs, rejected, minProfit)
  {
    var dp := env.pHigh - env.pLow;
    var ts := TotalSurplus(env, costs, minProfit);
    var s := (costs.effort - costs.shirk) / dp;
    var ew := costs.effort + env.uRes + ts / 2.0;
    var wl := ew - env.pHigh * s;
    var wlAlt := costs.effort + env.uRes - env.pHigh * s;
    assert wlAlt == wl - ts / 2.0;
    assert dp > 0.0 && ts > 0.0 && wl >= 0.0;
    assert NashCounterOffer(env, costs, other, minProfit).Some?;
    assert NashCounterOffer(env, costs, other, minProfit).value.wLow == wl;
    assert NashCounterOffer(env, costs, other, minProfit).value.wHigh == wl + s;
    var k := NashCounterOffer(env, costs, rejected, minProfit).value;
    assert k.wLow == wl && k.wHigh == wl + s;
    assert ExpectedWage(env.pHigh, k) == ew by {
      assert ExpectedWage(env.pHigh, k) == env.pHigh * (wl + s) + (1.0 - env.pHigh) * wl;
      assert env.pHigh * (wl + s) + (1.0 - env.pHigh) * wl == wl + env.pHigh * s;
    }
    assert Utility(env, costs, k, Work) == ew - costs.effort;
    ProfitSplitsRevenue(env, k, Work);
    SpreadMakesIndifferent(env, costs, k);
  }

  /** PrincipalAI.agent_income on a given wage pair: the agent's expected
      wage under the effort's probability, less that effort's cost, which
      is the agent's utility from the pair. Applied to the proposal just
      returned, this is the intended reading; see AgentIncomeAsWritten for
      the pair the source actually reads. */
  function AgentIncome(env: Env, proposed: Contract, costs: Costs, e: Effort): (r: real)
    ensures r == ExpectedWage(ProbOf(env, e), proposed) - CostOf(costs, e)
    ensures r == Utility(env, costs, proposed, e)
  {
    var p := ProbOf(env, e);
    var c := CostOf(costs, e);
    p * (proposed.wHigh - c) + (1.0 - p) * (proposed.wLow - c)
  }

  /** What propose_contract leaves in self.w_high/self.w_low, given what
      they held before (None before any pair was stored). The two early
      50% fallbacks return without storing; the designed pair and the 50%
      share of the final safety check are stored. */
  function StoredAfter(env: Env, costs: Costs, stored: Option<Contract>): (s: Option<Contract>)
    ensures !Designable(env) ==> s == stored
    ensures Designable(env) && ShareStar(env, costs) > 1.0 ==> s == stored
    ensures Designable(env) && ShareStar(env, costs) <= 1.0 ==> s == Some(ProposeContract(env, costs))
  {
    if !Designable(env) || ShareStar(env, costs) > 1.0 then stored
    else Some(ProposeContract(env, costs))
  }

  /** agent_income as written: it reads the stored pair, which after an
      early fallback is the previous contract rather than the proposal
      just returned; before any pair was stored the attribute lookup
      raises AttributeError. */
  function AgentIncomeAsWritten(env: Env, stored: Option<Contract>, costs: Costs, e: Effort): (r: Result<real>)
    ensures r.Err? <==> stored.None?
    ensures r.Err? ==> r.error == AttributeError
    ensures r.Ok? ==> r.value == Utility(env, costs, stored.value, e)
  {
    match stored
    case None => Err(AttributeError)
    case Some(k) => Ok(AgentIncome(env, k, costs, e))
  }

  /** Whenever the proposal is stored, the written agent_income is the
      income of the proposal just returned. */
  lemma IncomeOfStoredProposal(env: Env, costs: Costs, stored: Option<Contract>, e: Effort)
    requires Designable(env) && ShareStar(env, costs) <= 1.0
    ensures AgentIncomeAsWritten(env, StoredAfter(env, costs, stored), costs, e)
            == Ok(AgentIncome(env, ProposeContract(env, costs), costs, e))
  {
  }

  /** After an early fallback agent_income reports on a stale pair. With
      Y = (10, 20), p = (0.9, 0.5), c = (1, 0) the proposal is the 50%
      share (5, 10), worth 4.5 to a working agent; if (0, 0) was stored
      before, agent_income says −1, and on a first call it raises
      AttributeError. */
  lemma StaleIncomeAfterFallback()
    ensures var env := Env(10.0, 20.0, 0.9, 0.5, 0.0);
            var costs := Costs(1.0, 0.0);
            && ProposeContract(env, costs) == Contract(5.0, 10.0)
            && AgentIncome(env, ProposeContract(env, costs), costs, Work) == 4.5
            && AgentIncomeAsWritten(env, StoredAfter(env, costs, Some(Contract(0.0, 0.0))), costs, Work) == Ok(-1.0)
            && AgentIncomeAsWritten(env, StoredAfter(env, costs, None), costs, Work) == Err(AttributeError)
  {
  }

  /** AgentAI.cost_set with the two `random.randint` results injected:
      c_H is drawn from [int(0.05·Y_H), int(0.15·Y_H)] and c_L from
      [0, max(1, int(0.5·c_H))]; c_H is then lowered one unit at a time while
      the gap exceeds (Y_H − Y_L)/4 and c_H stays above its lower bound; finally
      c_L is pushed below c_H if needed. */
  method CostSet(revHigh: real, revLow: real, drawHigh: int, drawLow: int) returns (cH: int, cL: int)
    requires Trunc(0.05 * revHigh) <= drawHigh <= Trunc(0.15 * revHigh)
    requires 0 <= drawLow <= IntMax(1, Trunc(drawHigh as real * 0.5))
    ensures cL >= 0
    ensures cH <= drawHigh
    ensures cH >= Trunc(0.05 * revHigh)
    ensures cH >= 1 ==> cL < cH
    ensures cH > drawLow ==> cL == drawLow
    ensures (cH - drawLow) as real <= (revHigh - revLow) / 4.0 || cH == Trunc(0.05 * revHigh)
  {
    var hiMin := Trunc(0.05 * revHigh);
    cH := drawHigh;
    cL := drawLow;
    var maxGap := (revHigh - revLow) / 4.0;
    while (cH - cL) as real > maxGap && cH > hiMin
      invariant hiMin <= cH <= drawHigh
      invariant cL == drawLow
      decreases cH - hiMin
    {
      cH := cH - 1;
    }
    if cH <= cL {
      cL := IntMax(0, cH - 1);
    }
  }
}

=== FILE: naive_contract.dfy ===
/** The "one-click optimal contract" of the principal pages in
    EntrustmentAgencyIncentiveMechanism/test14.py, test15.py and test17.py
    (the same formulas appear in all three, and AnalyticalPrincipal of
    SimTest/principal_agent_module_optimized.py proposes the same wages):
    w_H = U0 + c_H and w_L = w_H − (c_H − c_L), together with the report of
    IC and PC slacks and the principal's expected profit. */
module NaiveContract {
  import opened Common
  import opened BinaryContract

  /** The figures evaluate_contract reports: effort and shirk utilities,
      the IC slack UA1 − UA0, the PC slack UA1 − U0 and the principal's
      expected profit under effort. */
  datatype Report = Report(ua1: real, ua0: real, ic: real, pc: real, up: real)

  /** evaluate_contract. */
  function Evaluate(env: Env, costs: Costs, k: Contract): (r: Report)
    ensures r.ua1 == Utility(env, costs, k, Work) && r.ua0 == Utility(env, costs, k, Shirk)
    ensures r.ic == r.ua1 - r.ua0 && r.pc == r.ua1 - env.uRes
    ensures r.ic >= 0.0 <==> IncentiveCompatible(env, costs, k)
    ensures r.pc >= 0.0 <==> Participates(env, costs, k)
    ensures r.ic >= 0.0 && r.pc >= 0.0 <==> Accepts(env, costs, k)
    ensures r.up == PrincipalProfit(env, k, Work)
  {
    var ua1 := env.pHigh * k.wHigh + (1.0 - env.pHigh) * k.wLow - costs.effort;
    var ua0 := env.pLow * k.wHigh + (1.0 - env.pLow) * k.wLow - costs.shirk;
    var up := env.pHigh * env.revHigh + (1.0 - env.pHigh) * env.revLow
              - (env.pHigh * k.wHigh + (1.0 - env.pHigh) * k.wLow);
    assert ua1 == Utility(env, costs, k, Work);
    assert ua0 == Utility(env, costs, k, Shirk);
    Report(ua1, ua0, ua1 - ua0, ua1 - env.uRes, up)
  }

  /** optimal_contract: each wage is the outside option plus the cost of
      the effort it is meant to pay for, so the spread is the cost
      difference (not Δc/Δp; NaiveGaps gives what the agent then gets). */
  function Naive(env: Env, costs: Costs): (k: Contract)
    ensures k.wHigh - costs.effort == env.uRes && k.wLow - costs.shirk == env.uRes
    ensures k.wHigh - k.wLow == costs.effort - costs.shirk
  {
    var w1 := env.uRes + costs.effort;
    Contract(w1, w1 - (costs.effort - costs.shirk))
  }

  /** What the report shows for the naive contract: the PC slack is
      −(1 − p_H)·Δc and the IC slack is −(1 − Δp)·Δc, so neither constraint
      binds unless Δc = 0 or the probabilities are degenerate. */
  lemma {:induction false} NaiveReportSlacks(env: Env, costs: Costs)
    ensures var r := Evaluate(env, costs, Naive(env, costs));
            var dc := costs.effort - costs.shirk;
            && r.pc == -((1.0 - env.pHigh) * dc)
            && r.ic == -((1.0 - (env.pHigh - env.pLow)) * dc)
  {
    var k := Naive(env, costs);
    var dc := costs.effort - costs.shirk;
    assert ExpectedWage(env.pHigh, k) == env.uRes + costs.effort - (1.0 - env.pHigh) * dc;
    assert ExpectedWage(env.pLow, k) == env.uRes + costs.effort - (1.0 - env.pLow) * dc;
  }

  /** The naive contract violates participation whenever effort is costlier
      than shirking and success is not certain (p_H < 1); with
      p_H = 0.8, c_H = 20, c_L = 0, U0 = 0 effort is worth −4. */
  lemma {:induction false} NaiveContractFailsParticipation(env: Env, costs: Costs)
    requires costs.effort > costs.shirk && env.pHigh < 1.0
    ensures !Participates(env, costs, Naive(env, costs))
    ensures env.pHigh - env.pLow < 1.0 ==> !IncentiveCompatible(env, costs, Naive(env, costs))
  {
    var k := Naive(env, costs);
    var dc := costs.effort - costs.shirk;
    var u1, u0 := Utility(env, costs, k, Work), Utility(env, costs, k, Shirk);
    NaiveGaps(env, costs);
    BelowByProduct(u1, env.uRes, 1.0 - env.pHigh, dc);
    if env.pHigh - env.pLow < 1.0 {
      BelowByProduct(u1 - u0, 0.0, 1.0 - (env.pHigh - env.pLow), dc);
    }
  }

  lemma {:induction false} NaiveGaps(env: Env, costs: Costs)
    ensures var k := Naive(env, costs);
            var dc := costs.effort - costs.shirk;
            && Utility(env, costs, k, Work) == env.uRes - (1.0 - env.pHigh) * dc
            && Utility(env, costs, k, Work) - Utility(env, costs, k, Shirk) == -((1.0 - (env.pHigh - env.pLow)) * dc)
  {
    var k := Naive(env, costs);
    IncentiveGap(env, costs, k);
  }

  /** The example of the comments' setting: with p_H = 0.8, c_H = 20,
      c_L = 0 and U0 = 0 the report shows an effort utility of −4. */
  lemma NaiveCounterexample(env: Env, costs: Costs)
    requires env.pHigh == 0.8 && env.uRes == 0.0
    requires costs.effort == 20.0 && costs.shirk == 0.0
    ensures Evaluate(env, costs, Naive(env, costs)).ua1 == -4.0
  {
    var k := Naive(env, costs);
    assert k.wHigh == 20.0 && k.wLow == 0.0;
    assert Utility(env, costs, k, Work) == 0.8 * 20.0 + 0.2 * 0.0 - 20.0;
  }

  /** The contract that makes IR and IC bind, which the comments promise:
      w_L = U0 + c_H − p_H·Δc/Δp and w_H = w_L + Δc/Δp; None when Δp ≤ 0,
      where no wage spread rewards effort. */
  function Binding(env: Env, costs: Costs): (r: Option<Contract>)
    ensures r.Some? <==> env.pHigh - env.pLow > 0.0
  {
    var dp := env.pHigh - env.pLow;
    if dp <= 0.0 then None
    else
      var s := (costs.effort - costs.shirk) / dp;
      var wl := env.uRes + costs.effort - env.pHigh * s;
      Some(Contract(wl + s, wl))
  }

  /** The binding contract reports zero PC and IC slack, and it is the
      cheapest contract the agent accepts: every accepted contract leaves
      the principal at most the binding contract's profit. */
  lemma {:induction false} BindingIsCheapestAccepted(env: Env, costs: Costs, k: Contract)
    requires env.pHigh - env.pLow > 0.0
    ensures var r := Evaluate(env, costs, Binding(env, costs).value);
            r.pc == 0.0 && r.ic == 0.0
    ensures Accepts(env, costs, k) ==>
            PrincipalProfit(env, k, Work) <= PrincipalProfit(env, Binding(env, costs).value, Work)
  {
    var b := Binding(env, costs).value;
    var s := (costs.effort - costs.shirk) / (env.pHigh - env.pLow);
    assert b.wHigh - b.wLow == s;
    SpreadMakesIndifferent(env, costs, b);
    assert ExpectedWage(env.pHigh, b) == b.wLow + env.pHigh * s;
    ProfitSplitsRevenue(env, k, Work);
    ProfitSplitsRevenue(env, b, Work);
  }
}

=== FILE: normalised_utility.dfy ===
/** RiskPreference in SimulationSoftware/RiskPreferenceModule.py: the page
    takes two payoffs and their probabilities, rescales the lower payoff to
    0 and the higher to 1, applies a concave (square root), linear or
    convex (square) curve, and maps the result back onto the payoff scale,
    so that every attitude agrees with the payoffs at both ends. */
module NormalisedUtility {
  import opened Common
  import RiskPreference

  type Attitude = RiskPreference.Attitude

  /** A computed utility, or the exception computing it raised. */
  datatype Value = Value(v: real) | Raised(error: PyError)

  /** What the square root passed in must satisfy on non-negative
      arguments. */
  ghost predicate IsSqrt(sqrt: real -> real)
  {
    forall t :: t >= 0.0 ==> sqrt(t) >= 0.0 && sqrt(t) * sqrt(t) == t
  }

  /** The loss-clamped payoff rescaled so that y1 maps to 0 and y2 to 1. */
  function Scaled(y1: real, y2: real, x: real): real
    requires y1 != y2
  {
    (RiskPreference.ClampLoss(x) - y1) / (y2 - y1)
  }

  /** The curve applied to the rescaled payoff: `math.pow(t, 1/2)` for the
      averse attitude, which rejects a negative t; `math.pow(t, 2)` for the
      preferring one; the identity otherwise and for `nature`, the
      reference line of the plot. */
  function Curve(att: Attitude, nature: bool, sqrt: real -> real, t: real): (r: Value)
    ensures r.Raised? <==> !nature && att.Averse? && t < 0.0
    ensures r.Raised? ==> r.error == ValueError
  {
    if nature then Value(t)
    else match att
      case Averse => if t < 0.0 then Raised(ValueError) else Value(sqrt(t))
      case Neutral => Value(t)
      case Preferring => Value(t * t)
      case Unknown => Value(t)
  }

  /** Back from the unit scale to the payoff scale. */
  function Unscale(y1: real, y2: real, f: real): real
  {
    y1 + (y2 - y1) * f
  }

  /** `utility(x, nature)` against the stored payoffs y1 and y2; the
      rescaling divides by zero when the payoffs coincide. */
  function Utility(att: Attitude, nature: bool, sqrt: real -> real, y1: real, y2: real, x: real): (r: Value)
    ensures y1 == y2 ==> r == Raised(ZeroDivisionError)
    ensures y1 != y2 ==> (r.Raised? <==> Curve(att, nature, sqrt, Scaled(y1, y2, x)).Raised?)
    ensures y1 != y2 && r.Raised? ==> r.error == ValueError && att.Averse? && !nature
  {
    if y2 - y1 == 0.0 then Raised(ZeroDivisionError)
    else
      var f := Curve(att, nature, sqrt, Scaled(y1, y2, x));
      if f.Raised? then Raised(f.error) else Value(Unscale(y1, y2, f.v))
  }

  /** Exact division: the quotient is the factor that reproduces the
      dividend. */
  lemma DivIs(a: real, d: real, t: real)
    requires d != 0.0 && t * d == a
    ensures a / d == t
  {
    var q := a / d;
    assert q * d == a;
    assert (q - t) * d == 0.0;
  }

  /** Rescaling to [0, 1] and back is the identity above the loss floor. */
  lemma AffineBack(y1: real, y2: real, x: real)
    requires y1 != y2 && x >= RiskPreference.LossFloor
    ensures Unscale(y1, y2, Scaled(y1, y2, x)) == x
  {
    var d := y2 - y1;
    var t := (x - y1) / d;
    assert t * d == x - y1;
    assert Scaled(y1, y2, x) == t;
  }

  /** With distinct payoffs the neutral curve and the reference line give
      back every payoff above the loss floor unchanged. */
  lemma LinearIsIdentity(att: Attitude, nature: bool, sqrt: real -> real, y1: real, y2: real, x: real)
    requires y1 != y2 && x >= RiskPreference.LossFloor
    requires nature || att.Neutral? || att.Unknown?
    ensures Utility(att, nature, sqrt, y1, y2, x) == Value(x)
  {
    AffineBack(y1, y2, x);
  }

  /** Every attitude values the two payoffs at themselves, since each curve
      fixes 0 and 1. */
  lemma EndpointsFixed(att: Attitude, nature: bool, sqrt: real -> real, y1: real, y2: real)
    requires y1 != y2 && y1 >= RiskPreference.LossFloor && y2 >= RiskPreference.LossFloor
    requires sqrt(0.0) == 0.0 && sqrt(1.0) == 1.0
    ensures Utility(att, nature, sqrt, y1, y2, y1) == Value(y1)
    ensures Utility(att, nature, sqrt, y1, y2, y2) == Value(y2)
  {
    DivIs(0.0, y2 - y1, 0.0);
    DivIs(y2 - y1, y2 - y1, 1.0);
    assert Scaled(y1, y2, y1) == 0.0;
    assert Scaled(y1, y2, y2) == 1.0;
  }

  /** A non-negative root of a number at most 1 is at least that number. */
  lemma RootAbove(s: real, t: real)
    requires s >= 0.0 && s * s == t && t <= 1.0
    ensures t <= s
  {
    if s > 1.0 {
      MulLeft(s, 1.0, s);
    }
    ScaleWithinUnit(s, s, s * s);
  }

  /** On [0, 1] the square lies below the identity and the square root
      above it. */
  lemma CurvesAroundIdentity(sqrt: real -> real, t: real)
    requires IsSqrt(sqrt) && 0.0 <= t <= 1.0
    ensures t * t <= t <= sqrt(t)
  {
    ScaleWithinUnit(t, t, t * t);
    RootAbove(sqrt(t), t);
  }

  /** Between the payoffs the convex curve lies below the payoff and the
      concave one above it: the risk lover discounts and the risk averter
      inflates an intermediate payoff. */
  lemma CurvatureBounds(sqrt: real -> real, y1: real, y2: real, x: real)
    requires IsSqrt(sqrt)
    requires y1 < y2 && y1 <= x <= y2 && x >= RiskPreference.LossFloor
    ensures Utility(RiskPreference.Preferring, false, sqrt, y1, y2, x).Value?
    ensures Utility(RiskPreference.Averse, false, sqrt, y1, y2, x).Value?
    ensures Utility(RiskPreference.Preferring, false, sqrt, y1, y2, x).v <= x
    ensures x <= Utility(RiskPreference.Averse, false, sqrt, y1, y2, x).v
  {
    var d := y2 - y1;
    var t := Scaled(y1, y2, x);
    assert t == (x - y1) / d;
    FractionInUnit(x - y1, d);
    AffineBack(y1, y2, x);
    CurvesAroundIdentity(sqrt, t);
    MulLeft(d, t * t, t);
    MulLeft(d, t, sqrt(t));
    assert Unscale(y1, y2, t * t) <= Unscale(y1, y2, t) <= Unscale(y1, y2, sqrt(t));
  }

  /** The concave curve has no value below the lower payoff. */
  lemma AverseFailsBelowRange(sqrt: real -> real, y1: real, y2: real, x: real)
    requires y1 < y2 && RiskPreference.LossFloor <= x < y1
    ensures Utility(RiskPreference.Averse, false, sqrt, y1, y2, x) == Raised(ValueError)
  {
    var d := y2 - y1;
    var t := (x - y1) / d;
    assert t * d == x - y1;
    assert Scaled(y1, y2, x) == t;
  }

  /** `expected_utility` on this page: the zipped sum, stopped by the first
      utility that raises. */
  function Expected(att: Attitude, sqrt: real -> real, y1: real, y2: real, xs: seq<real>, ps: seq<real>, n: nat): Value
    requires n <= |xs| && n <= |ps|
  {
    if n == 0 then Value(0.0)
    else
      var s := Expected(att, sqrt, y1, y2, xs, ps, n - 1);
      var u := Utility(att, false, sqrt, y1, y2, xs[n - 1]);
      if s.Raised? then s
      else if u.Raised? then Raised(u.error)
      else Value(s.v + u.v * ps[n - 1])
  }

  /** The expectation raises exactly when some outcome's utility raises,
      and then it raises the error of the first such outcome. */
  lemma {:induction false} ExpectedRaisesFirst(att: Attitude, sqrt: real -> real, y1: real, y2: real, xs: seq<real>, ps: seq<real>, n: nat)
    requires n <= |xs| && n <= |ps|
    ensures var r := Expected(att, sqrt, y1, y2, xs, ps, n);
            && (r.Raised? <==> exists i :: 0 <= i < n && Utility(att, false, sqrt, y1, y2, xs[i]).Raised?)
            && (r.Raised? ==>
                  exists i :: 0 <= i < n && Utility(att, false, sqrt, y1, y2, xs[i]) == r
                    && forall j :: 0 <= j < i ==> !Utility(att, false, sqrt, y1, y2, xs[j]).Raised?)
  {
    if n > 0 {
      ExpectedRaisesFirst(att, sqrt, y1, y2, xs, ps, n - 1);
      var s := Expected(att, sqrt, y1, y2, xs, ps, n - 1);
      var u := Utility(att, false, sqrt, y1, y2, xs[n - 1]);
      if s.Raised? {
        var i :| 0 <= i < n - 1 && Utility(att, false, sqrt, y1, y2, xs[i]) == s
                 && forall j :: 0 <= j < i ==> !Utility(att, false, sqrt, y1, y2, xs[j]).Raised?;
        assert Utility(att, false, sqrt, y1, y2, xs[i]) == Expected(att, sqrt, y1, y2, xs, ps, n);
      } else if u.Raised? {
        assert forall j :: 0 <= j < n - 1 ==> !Utility(att, false, sqrt, y1, y2, xs[j]).Raised?;
        assert Utility(att, false, sqrt, y1, y2, xs[n - 1]) == Expected(att, sqrt, y1, y2, xs, ps, n);
      }
    }
  }

  function ExpectedUtility(att: Attitude, sqrt: real -> real, y1: real, y2: real, xs: seq<real>, ps: seq<real>): Value
  {
    Expected(att, sqrt, y1, y2, xs, ps, IntMin(|xs|, |ps|))
  }

  /** u * p + v * q, failing with the first failed utility. */
  function Combine(u: Value, v: Value, p: real, q: real): Value
  {
    if u.Raised? then u else if v.Raised? then v else Value(u.v * p + v.v * q)
  }

  /** The expectation over a two-outcome lottery. */
  lemma ExpectedPair(att: Attitude, sqrt: real -> real, y1: real, y2: real, x: real, y: real, p: real, q: real)
    ensures ExpectedUtility(att, sqrt, y1, y2, [x, y], [p, q])
            == Combine(Utility(att, false, sqrt, y1, y2, x), Utility(att, false, sqrt, y1, y2, y), p, q)
  {
    var xs, ps := [x, y], [p, q];
    ExpectedFirstTwo(att, sqrt, y1, y2, xs, ps);
    assert xs[0] == x && xs[1] == y && ps[0] == p && ps[1] == q;
  }

  /** The first two pairs of the zip combine as Combine does. */
  lemma ExpectedFirstTwo(att: Attitude, sqrt: real -> real, y1: real, y2: real, xs: seq<real>, ps: seq<real>)
    requires 2 <= |xs| && 2 <= |ps|
    ensures Expected(att, sqrt, y1, y2, xs, ps, 2)
            == Combine(Utility(att, false, sqrt, y1, y2, xs[0]), Utility(att, false, sqrt, y1, y2, xs[1]), ps[0], ps[1])
  {
    ExpectedStep(att, sqrt, y1, y2, xs, ps, 1);
    ExpectedStep(att, sqrt, y1, y2, xs, ps, 2);
    CombineTwoSteps(Utility(att, false, sqrt, y1, y2, xs[0]), Utility(att, false, sqrt, y1, y2, xs[1]), ps[0], ps[1],
                    Expected(att, sqrt, y1, y2, xs, ps, 1), Expected(att, sqrt, y1, y2, xs, ps, 2));
  }

  /** Two steps of the zipped sum from zero are Combine. */
  lemma CombineTwoSteps(u: Value, v: Value, p: real, q: real, e1: Value, e2: Value)
    requires e1 == if u.Raised? then u else Value(0.0 + u.v * p)
    requires e2 == if e1.Raised? then e1 else if v.Raised? then v else Value(e1.v + v.v * q)
    ensures e2 == Combine(u, v, p, q)
  {
  }

  /** One more pair of the zip: a failure so far stays, a failing utility
      is raised, otherwise its weighted value is added. */
  lemma ExpectedStep(att: Attitude, sqrt: real -> real, y1: real, y2: real, xs: seq<real>, ps: seq<real>, n: nat)
    requires 0 < n <= |xs| && n <= |ps|
    ensures var s := Expected(att, sqrt, y1, y2, xs, ps, n - 1);
            var u := Utility(att, false, sqrt, y1, y2, xs[n - 1]);
            Expected(att, sqrt, y1, y2, xs, ps, n)
            == if s.Raised? then s else if u.Raised? then u else Value(s.v + u.v * ps[n - 1])
  {
  }

  /** With distinct payoffs and outcomes above the floor, the neutral
      expectation is the expected payoff of the test10 model. */
  lemma {:induction false} NeutralExpectedIsMean(sqrt: real -> real, y1: real, y2: real, xs: seq<real>, ps: seq<real>, n: nat)
    requires n <= |xs| && n <= |ps| && y1 != y2
    requires forall i :: 0 <= i < n ==> xs[i] >= RiskPreference.LossFloor
    ensures Expected(RiskPreference.Neutral, sqrt, y1, y2, xs, ps, n) == Value(RiskPreference.Weighted(x => x, xs, ps, n))
  {
    if n > 0 {
      NeutralExpectedIsMean(sqrt, y1, y2, xs, ps, n - 1);
      LinearIsIdentity(RiskPreference.Neutral, false, sqrt, y1, y2, xs[n - 1]);
      var id := (x: real) => x;
      assert id(xs[n - 1]) == xs[n - 1];
      assert RiskPreference.Weighted(id, xs, ps, n)
             == RiskPreference.Weighted(id, xs, ps, n - 1) + xs[n - 1] * ps[n - 1];
    }
  }

  /** What pressing "calculate" on the page yields. */
  datatype Calculation = NegativeProbability | SumNotOne | Computed(eu: Value)

  /** The checks of `on_calculate_eu`, shared by both versions. */
  function Validate(p1: real, p2: real): (r: Option<Calculation>)
    ensures r.None? <==> p1 >= 0.0 && p2 >= 0.0 && p1 + p2 == 1.0
    ensures r.Some? ==> (r.value.NegativeProbability? <==> p1 < 0.0 || p2 < 0.0)
    ensures r.Some? ==> r.value.NegativeProbability? || r.value.SumNotOne?
  {
    if p1 < 0.0 || p2 < 0.0 then Some(NegativeProbability)
    else if p1 + p2 != 1.0 then Some(SumNotOne)
    else None
  }

  /** `on_calculate_eu` as written: the payoffs are put in ascending order
      but the probabilities are left where they were entered. */
  function CalculateAsWritten(att: Attitude, sqrt: real -> real, o1: real, o2: real, p1: real, p2: real): (r: Calculation)
    ensures r.NegativeProbability? <==> p1 < 0.0 || p2 < 0.0
    ensures r.SumNotOne? <==> p1 >= 0.0 && p2 >= 0.0 && p1 + p2 != 1.0
  {
    var v := Validate(p1, p2);
    if v.Some? then v.value
    else
      var lo, hi := if o1 > o2 then o2 else o1, if o1 > o2 then o1 else o2;
      Computed(ExpectedUtility(att, sqrt, lo, hi, [lo, hi], [p1, p2]))
  }

  /** Entering payoff 20 with probability 0.75 and payoff 10 with 0.25 gives
      a neutral expected utility of 12.5 instead of 17.5, while the same
      lottery entered the other way round gives 17.5. */
  lemma ProbabilitiesDetachFromPayoffs(sqrt: real -> real)
    ensures CalculateAsWritten(RiskPreference.Neutral, sqrt, 20.0, 10.0, 0.75, 0.25) == Computed(Value(12.5))
    ensures CalculateAsWritten(RiskPreference.Neutral, sqrt, 10.0, 20.0, 0.25, 0.75) == Computed(Value(17.5))
    ensures 20.0 * 0.75 + 10.0 * 0.25 == 17.5
  {
    ExpectedPair(RiskPreference.Neutral, sqrt, 10.0, 20.0, 10.0, 20.0, 0.75, 0.25);
    ExpectedPair(RiskPreference.Neutral, sqrt, 10.0, 20.0, 10.0, 20.0, 0.25, 0.75);
    LinearIsIdentity(RiskPreference.Neutral, false, sqrt, 10.0, 20.0, 10.0);
    LinearIsIdentity(RiskPreference.Neutral, false, sqrt, 10.0, 20.0, 20.0);
  }

  /** `on_calculate_eu` with each probability kept beside its payoff. */
  function Calculate(att: Attitude, sqrt: real -> real, o1: real, o2: real, p1: real, p2: real): (r: Calculation)
    ensures r.NegativeProbability? <==> p1 < 0.0 || p2 < 0.0
    ensures r.SumNotOne? <==> p1 >= 0.0 && p2 >= 0.0 && p1 + p2 != 1.0
    ensures r.Computed? && o1 == o2 ==> r.eu == Raised(ZeroDivisionError)
  {
    var v := Validate(p1, p2);
    if v.Some? then v.value
    else if o1 > o2 then Computed(ExpectedUtility(att, sqrt, o2, o1, [o2, o1], [p2, p1]))
    else
      ExpectedPair(att, sqrt, o1, o2, o1, o2, p1, p2);
      Computed(ExpectedUtility(att, sqrt, o1, o2, [o1, o2], [p1, p2]))
  }

  /** The result does not depend on the order in which the two
      payoff-probability pairs are entered. */
  lemma CalculateOrderFree(att: Attitude, sqrt: real -> real, o1: real, o2: real, p1: real, p2: real)
    ensures Calculate(att, sqrt, o1, o2, p1, p2) == Calculate(att, sqrt, o2, o1, p2, p1)
  {
    assert p1 + p2 == p2 + p1;
  }

  /** A neutral user is shown the expected payoff of the lottery entered. */
  lemma NeutralCalculateIsMean(sqrt: real -> real, o1: real, o2: real, p1: real, p2: real)
    requires o1 != o2 && o1 >= RiskPreference.LossFloor && o2 >= RiskPreference.LossFloor
    requires p1 >= 0.0 && p2 >= 0.0 && p1 + p2 == 1.0
    ensures Calculate(RiskPreference.Neutral, sqrt, o1, o2, p1, p2) == Computed(Value(o1 * p1 + o2 * p2))
  {
    LinearIsIdentity(RiskPreference.Neutral, false, sqrt, o1, o2, o1);
    LinearIsIdentity(RiskPreference.Neutral, false, sqrt, o1, o2, o2);
    LinearIsIdentity(RiskPreference.Neutral, false, sqrt, o2, o1, o1);
    LinearIsIdentity(RiskPreference.Neutral, false, sqrt, o2, o1, o2);
    if o1 > o2 {
      ExpectedPair(RiskPreference.Neutral, sqrt, o2, o1, o2, o1, p2, p1);
    } else {
      ExpectedPair(RiskPreference.Neutral, sqrt, o1, o2, o1, o2, p1, p2);
    }
  }

  /** The outcome of a scenario: the decision, or the exception raised. */
  datatype Verdict = Decided(d: RiskPreference.Decision) | Failed(error: PyError)

  /** `simulate_one_scenario` on this page: the same lottery as in test10,
      valued against the payoffs stored by the last calculation. */
  function Scenario(att: Attitude, sqrt: real -> real, y1: real, y2: real, p: real, gain: real, loss: real): (r: Verdict)
    ensures r.Decided? ==> (r.d.invest <==> r.d.euInvest > r.d.euNotInvest)
    ensures y1 == y2 ==> r == Failed(ZeroDivisionError)
  {
    var eu := ExpectedUtility(att, sqrt, y1, y2, [gain, -loss], [p, 1.0 - p]);
    var eu0 := Utility(att, false, sqrt, y1, y2, 0.0);
    ExpectedPair(att, sqrt, y1, y2, gain, -loss, p, 1.0 - p);
    if eu.Raised? then Failed(eu.error)
    else if eu0.Raised? then Failed(eu0.error)
    else Decided(RiskPreference.Decision(eu.v, eu0.v, eu.v > eu0.v))
  }

  /** With the page's default payoffs 10 and 20 the averse scenario always
      fails: a loss, and a sure zero, lie below the lower payoff. */
  lemma AverseScenarioFailsOnDefaults(sqrt: real -> real, p: real, gain: real, loss: real)
    requires loss >= 0.0
    ensures Scenario(RiskPreference.Averse, sqrt, 10.0, 20.0, p, gain, loss) == Failed(ValueError)
  {
    ExpectedPair(RiskPreference.Averse, sqrt, 10.0, 20.0, gain, -loss, p, 1.0 - p);
    AverseFailsBelowRange(sqrt, 10.0, 20.0, 0.0);
    var c := RiskPreference.ClampLoss(-loss);
    AverseFailsBelowRange(sqrt, 10.0, 20.0, c);
  }

  /** A neutral user decides here exactly as the test10 model does, for
      any distinct stored payoffs. */
  lemma NeutralScenarioAgrees(sqrt: real -> real, y1: real, y2: real, p: real, gain: real, loss: real,
                              a: real, exp: real -> real)
    requires y1 != y2
    ensures Scenario(RiskPreference.Neutral, sqrt, y1, y2, p, gain, loss)
            == Decided(RiskPreference.Scenario(RiskPreference.Neutral, a, exp, p, gain, loss))
  {
    ExpectedPair(RiskPreference.Neutral, sqrt, y1, y2, gain, -loss, p, 1.0 - p);
    LinearIsIdentity(RiskPreference.Neutral, false, sqrt, y1, y2, 0.0);
    LinearIsIdentity(RiskPreference.Neutral, false, sqrt, y1, y2, RiskPreference.ClampLoss(gain));
    LinearIsIdentity(RiskPreference.Neutral, false, sqrt, y1, y2, RiskPreference.ClampLoss(-loss));
  }
}

=== FILE: risk_preference.dfy ===
/** RiskPreferenceModel in dist/test10.py: utilities for three attitudes
    towards risk on a loss-clamped payoff, expected utility over paired
    outcome and probability lists, the choice of the best option, and a
    one-shot invest-or-not decision. */
module RiskPreference {
  import opened Common

  /** The attitude string; any other string behaves as neutral. */
  datatype Attitude = Averse | Neutral | Preferring | Unknown

  /** Payoffs below this are raised to it before any utility is taken. */
  const LossFloor: real := -0.9999

  /** A negative payoff is replaced by `max(x, -0.9999)`. */
  function ClampLoss(x: real): (c: real)
    ensures c >= LossFloor && c >= x
    ensures x >= LossFloor ==> c == x
    ensures x < LossFloor ==> c == LossFloor
  {
    if x < 0.0 then Max(x, LossFloor) else x
  }

  /** `utility`: 1 - exp(-a x) when averse (exp is passed in), x when
      neutral or unknown, (x + 1)^2 - 1 when preferring, all on the clamped
      payoff. */
  function Utility(att: Attitude, a: real, exp: real -> real, x: real): (u: real)
    ensures att.Preferring? ==> u > -1.0
    ensures !att.Averse? && x >= LossFloor ==> (u == x <==> !att.Preferring? || x == 0.0)
  {
    var c := ClampLoss(x);
    match att
    case Averse => 1.0 - exp(-a * c)
    case Neutral => c
    case Preferring => Convex(c)
    case Unknown => c
  }

  /** The risk lover's curve (c + 1)² − 1. Above the loss floor it stays
      above −1 and meets the identity only at 0. */
  function Convex(c: real): (v: real)
    requires c >= LossFloor
    ensures v > -1.0
    ensures v == c <==> c == 0.0
  {
    var v := (c + 1.0) * (c + 1.0) - 1.0;
    ConvexShape(c, v);
    v
  }

  lemma ConvexShape(c: real, v: real)
    requires c >= LossFloor && v == (c + 1.0) * (c + 1.0) - 1.0
    ensures v > -1.0
    ensures v == c <==> c == 0.0
  {
    var d := c + 1.0;
    ProductPositive(d, d);
    assert d * d == c * d + d;
    assert v == c * d + c;
    if c != 0.0 {
      ProductNonZero(c, d);
      assert v != c;
    }
  }

  /** Every attitude values a zero payoff at zero. */
  lemma UtilityAtZero(att: Attitude, a: real, exp: real -> real)
    requires exp(0.0) == 1.0
    ensures Utility(att, a, exp, 0.0) == 0.0
  {
    assert -a * 0.0 == 0.0;
  }

  /** Every attitude prefers more to less (the averse one for a
      non-negative coefficient and an increasing exp). */
  lemma UtilityMonotone(att: Attitude, a: real, exp: real -> real, x: real, y: real)
    requires x <= y && a >= 0.0
    requires forall u, v :: u <= v ==> exp(u) <= exp(v)
    ensures Utility(att, a, exp, x) <= Utility(att, a, exp, y)
  {
    var cx, cy := ClampLoss(x), ClampLoss(y);
    assert cx <= cy;
    match att
    case Averse =>
      MulLeft(a, cx, cy);
      assert -a * cy <= -a * cx;
    case Preferring =>
      SquareMonotone(cx + 1.0, cy + 1.0);
    case _ =>
  }

  /** On gains the convex (preferring) utility lies above the linear one,
      and neither moves a gain. */
  lemma PreferringAboveNeutralOnGains(a: real, exp: real -> real, x: real)
    requires x >= 0.0
    ensures Utility(Neutral, a, exp, x) == x
    ensures Utility(Preferring, a, exp, x) >= Utility(Neutral, a, exp, x)
  {
    assert (x + 1.0) * (x + 1.0) - 1.0 == x * x + 2.0 * x;
    assert x * x >= 0.0;
  }

  /** The sum of f(xs[i]) * ps[i] over the first n pairs. */
  function Weighted(f: real -> real, xs: seq<real>, ps: seq<real>, n: nat): real
    requires n <= |xs| && n <= |ps|
  {
    if n == 0 then 0.0 else Weighted(f, xs, ps, n - 1) + f(xs[n - 1]) * ps[n - 1]
  }

  /** `expected_utility`: `zip` pairs outcomes with probabilities up to the
      shorter list. */
  function ExpectedUtility(f: real -> real, xs: seq<real>, ps: seq<real>): (r: real)
    ensures |xs| == 0 || |ps| == 0 ==> r == 0.0
  {
    Weighted(f, xs, ps, IntMin(|xs|, |ps|))
  }

  /** `zip` drops the tail of the longer list: the expectation is the one
      over the paired prefixes. */
  lemma ZipIgnoresExtra(f: real -> real, xs: seq<real>, ps: seq<real>)
    ensures var n := IntMin(|xs|, |ps|);
            ExpectedUtility(f, xs, ps) == ExpectedUtility(f, xs[..n], ps[..n])
  {
    var n := IntMin(|xs|, |ps|);
    WeightedPrefix(f, xs, ps, n, n);
  }

  /** The first n terms only read the first n entries of each list, so
      cutting both lists at m ≥ n changes nothing. */
  lemma {:induction false} WeightedPrefix(f: real -> real, xs: seq<real>, ps: seq<real>, n: nat, m: nat)
    requires n <= m <= |xs| && m <= |ps|
    ensures Weighted(f, xs, ps, n) == Weighted(f, xs[..m], ps[..m], n)
  {
    if n > 0 {
      WeightedPrefix(f, xs, ps, n - 1, m);
      assert xs[..m][n - 1] == xs[n - 1];
      assert ps[..m][n - 1] == ps[n - 1];
    }
  }

  /** The accumulation loop of `expected_utility`. */
  method ComputeExpectedUtility(f: real -> real, xs: seq<real>, ps: seq<real>) returns (eu: real)
    ensures eu == ExpectedUtility(f, xs, ps)
  {
    var n := IntMin(|xs|, |ps|);
    eu := 0.0;
    var i := 0;
    while i < n
      invariant 0 <= i <= n
      invariant eu == Weighted(f, xs, ps, i)
    {
      eu := eu + f(xs[i]) * ps[i];
      i := i + 1;
    }
  }

  /** Pointwise better utilities give a better expectation under
      non-negative probabilities. */
  lemma {:induction false} WeightedMonotone(f: real -> real, g: real -> real, xs: seq<real>, ps: seq<real>, n: nat)
    requires n <= |xs| && n <= |ps|
    requires forall i :: 0 <= i < n ==> ps[i] >= 0.0 && f(xs[i]) <= g(xs[i])
    ensures Weighted(f, xs, ps, n) <= Weighted(g, xs, ps, n)
  {
    if n > 0 {
      WeightedMonotone(f, g, xs, ps, n - 1);
      var x, p := xs[n - 1], ps[n - 1];
      MulLeft(p, f(x), g(x));
      assert f(x) * p == p * f(x) && g(x) * p == p * g(x);
    }
  }

  /** Utilities that agree on the outcomes give the same expectation. */
  lemma {:induction false} WeightedCongruent(f: real -> real, g: real -> real, xs: seq<real>, ps: seq<real>, n: nat)
    requires n <= |xs| && n <= |ps|
    requires forall i :: 0 <= i < n ==> f(xs[i]) == g(xs[i])
    ensures Weighted(f, xs, ps, n) == Weighted(g, xs, ps, n)
  {
    if n > 0 {
      WeightedCongruent(f, g, xs, ps, n - 1);
    }
  }

  /** For payoffs above the floor the neutral expected utility is the
      plain expected payoff. */
  lemma NeutralExpectedUtilityIsMean(a: real, exp: real -> real, xs: seq<real>, ps: seq<real>)
    requires forall i :: 0 <= i < |xs| ==> xs[i] >= LossFloor
    ensures ExpectedUtility(x => Utility(Neutral, a, exp, x), xs, ps) == ExpectedUtility(x => x, xs, ps)
  {
    WeightedCongruent(x => Utility(Neutral, a, exp, x), x => x, xs, ps, IntMin(|xs|, |ps|));
  }

  /** Over gains a risk lover's expected utility is at least the
      neutral one. */
  lemma PreferringExpectsMoreOnGains(a: real, exp: real -> real, xs: seq<real>, ps: seq<real>)
    requires forall i :: 0 <= i < |xs| ==> xs[i] >= 0.0
    requires forall i :: 0 <= i < |ps| ==> ps[i] >= 0.0
    ensures ExpectedUtility(x => Utility(Neutral, a, exp, x), xs, ps)
            <= ExpectedUtility(x => Utility(Preferring, a, exp, x), xs, ps)
  {
    forall i | 0 <= i < IntMin(|xs|, |ps|)
      ensures Utility(Neutral, a, exp, xs[i]) <= Utility(Preferring, a, exp, xs[i])
    {
      PreferringAboveNeutralOnGains(a, exp, xs[i]);
    }
    WeightedMonotone(x => Utility(Neutral, a, exp, x), x => Utility(Preferring, a, exp, x), xs, ps, IntMin(|xs|, |ps|));
  }

  /** Expectation over a two-outcome lottery. */
  lemma ExpectedUtilityPair(f: real -> real, x: real, y: real, p: real, q: real)
    ensures ExpectedUtility(f, [x, y], [p, q]) == f(x) * p + f(y) * q
  {
    assert Weighted(f, [x, y], [p, q], 1) == f(x) * p;
  }

  datatype Choice = Choice(name: string, outcomes: seq<real>, probs: seq<real>)

  function Score(f: real -> real, c: Choice): real
  {
    ExpectedUtility(f, c.outcomes, c.probs)
  }

  /** Choice k holds the best score, and every earlier choice scores
      strictly less. */
  predicate FirstBestAt(f: real -> real, choices: seq<Choice>, k: int, best: real)
  {
    && 0 <= k < |choices|
    && Score(f, choices[k]) == best
    && (forall j :: 0 <= j < |choices| ==> Score(f, choices[j]) <= best)
    && (forall j :: 0 <= j < k ==> Score(f, choices[j]) < best)
  }

  /** `best_choice`: a strictly better expected utility replaces the best,
      starting from (None, -1e9). */
  method BestChoice(f: real -> real, choices: seq<Choice>) returns (name: Option<string>, best: real)
    ensures name.None? <==> forall j :: 0 <= j < |choices| ==> Score(f, choices[j]) <= -1e9
    ensures name.None? ==> best == -1e9
    ensures name.Some? ==>
              best > -1e9 && exists k :: FirstBestAt(f, choices, k, best) && choices[k].name == name.value
  {
    name, best := None, -1e9;
    ghost var at := 0;
    var i := 0;
    while i < |choices|
      invariant 0 <= i <= |choices|
      invariant name.None? <==> forall j :: 0 <= j < i ==> Score(f, choices[j]) <= -1e9
      invariant name.None? ==> best == -1e9
      invariant name.Some? ==> best > -1e9 && at < i && Score(f, choices[at]) == best
                               && choices[at].name == name.value
                               && forall j :: 0 <= j < at ==> Score(f, choices[j]) < best
      invariant forall j :: 0 <= j < i ==> Score(f, choices[j]) <= best
    {
      var eu := ComputeExpectedUtility(f, choices[i].outcomes, choices[i].probs);
      if eu > best {
        name, best, at := Some(choices[i].name), eu, i;
      }
      i := i + 1;
    }
    if name.Some? {
      assert FirstBestAt(f, choices, at, best);
    }
  }

  datatype Decision = Decision(euInvest: real, euNotInvest: real, invest: bool)

  /** `simulate_one_scenario`: gain with probability p, lose `loss`
      otherwise, against a sure zero; invest on a strictly better
      expectation. */
  function Scenario(att: Attitude, a: real, exp: real -> real, p: real, gain: real, loss: real): (d: Decision)
    ensures d.invest <==> d.euInvest > d.euNotInvest
    ensures d.euNotInvest == Utility(att, a, exp, 0.0)
    ensures d.euInvest == Utility(att, a, exp, gain) * p + Utility(att, a, exp, -loss) * (1.0 - p)
  {
    var f := x => Utility(att, a, exp, x);
    var eu := ExpectedUtility(f, [gain, -loss], [p, 1.0 - p]);
    var eu0 := f(0.0);
    ExpectedUtilityPair(f, gain, -loss, p, 1.0 - p);
    Decision(eu, eu0, eu > eu0)
  }

  /** A neutral investor weighs the gain against the loss capped at
      0.9999: the clamp makes any large loss look almost harmless. */
  lemma NeutralScenarioCapsLoss(a: real, exp: real -> real, p: real, gain: real, loss: real)
    requires gain >= 0.0 && loss >= 0.0
    ensures Scenario(Neutral, a, exp, p, gain, loss).invest <==>
              gain * p - Min(loss, 0.9999) * (1.0 - p) > 0.0
  {
  }
}

=== FILE: seller_removal.dfy ===
/** The deterministic seller-removal loop of the lemon-market page
    (AdverseSelectionModule.simulate_market, identical in
    EntrustmentAgencyIncentiveMechanism/test15.py and test17.py): each round
    buyers pay the average value of the cars on offer, and while that is
    below the good-car value a fixed number of good cars leaves. */
module SellerRemoval {
  import opened Common

  const MaxRounds: int := 1000

  /** Average value of the cars on offer. */
  function AveragePrice(h: int, l: int, hv: real, lv: real): (p: real)
    requires h + l != 0
    ensures p * (h + l) as real == h as real * hv + l as real * lv
  {
    (h as real * hv + l as real * lv) / (h + l) as real
  }

  /** With some bad cars on offer and bad cars worth less, the average stays
      strictly below the good-car value. */
  lemma AverageBelowHigh(h: int, l: int, hv: real, lv: real)
    requires h >= 0 && l > 0 && lv < hv
    ensures AveragePrice(h, l, hv, lv) < hv
  {
    var n := (h + l) as real;
    var p := AveragePrice(h, l, hv, lv);
    assert l as real * lv < l as real * hv;
    assert p * n < hv * n;
  }

  /** With no bad cars the average is exactly the good-car value. */
  lemma AverageWithoutLemons(h: int, hv: real, lv: real)
    requires h > 0
    ensures AveragePrice(h, 0, hv, lv) == hv
  {
    var p := AveragePrice(h, 0, hv, lv);
    assert p * h as real == hv * h as real;
  }

  /** One round that removes good cars: some remained, the average price
      was below the good-car value, and `step` of them left. */
  predicate Removes(h: int, h': int, l: int, hv: real, lv: real, step: int)
  {
    h > 0 && h + l != 0 && AveragePrice(h, l, hv, lv) < hv && h' == IntMax(h - step, 0)
  }

  /** The three plotted lists. */
  datatype Trace = Trace(rounds: seq<int>, high: seq<int>, low: seq<int>)

  /** What every logged trace looks like: equal-length lists, round k
      logged as k except a final repeat of the last round after a break,
      the initial good cars first, one `Removes` step between consecutive
      rounds, the bad cars constant, and good cars never negative after the
      first entry and never increasing for a non-negative step. */
  predicate Shape(t: Trace, h0: int, l: int, hv: real, lv: real, step: int)
  {
    && |t.rounds| == |t.high| == |t.low| && 1 <= |t.rounds|
    && var n := |t.rounds| - 1;
    && (forall k :: 0 <= k < n ==> t.rounds[k] == k)
    && (t.rounds[n] == n || (n > 0 && t.rounds[n] == n - 1 && t.high[n] == t.high[n - 1]))
    && t.high[0] == h0
    && (forall k :: 0 <= k < n && t.rounds[k + 1] == k + 1 ==> Removes(t.high[k], t.high[k + 1], l, hv, lv, step))
    && (forall k :: 0 <= k < |t.low| ==> t.low[k] == l)
    && (forall k :: 1 <= k < |t.high| ==> t.high[k] >= 0)
    && (step >= 0 ==> forall k, k' :: 0 <= k < k' < |t.high| ==> t.high[k'] <= t.high[k])
  }

  /** The loop state after `rd` completed rounds: what has been logged so
      far, and the current good-car count h still to be logged. */
  predicate Open(rounds: seq<int>, highs: seq<int>, lows: seq<int>, rd: int, h: int,
                 h0: int, l: int, hv: real, lv: real, step: int)
  {
    && 0 <= rd && |rounds| == |highs| == |lows| == rd
    && (forall k :: 0 <= k < rd ==> rounds[k] == k)
    && (rd > 0 ==> highs[0] == h0)
    && (rd == 0 ==> h == h0)
    && (forall k :: 0 <= k < rd ==> lows[k] == l)
    && (rd > 0 ==> h >= 0)
    && (forall k :: 1 <= k < rd ==> highs[k] >= 0)
    && (step >= 0 ==> forall k, k' :: 0 <= k < k' < rd ==> highs[k'] <= highs[k])
    && (step >= 0 && rd > 0 ==> h <= highs[rd - 1])
    && (forall k :: 0 <= k < rd - 1 ==> Removes(highs[k], highs[k + 1], l, hv, lv, step))
    && (rd > 0 ==> Removes(highs[rd - 1], h, l, hv, lv, step))
  }

  /** A round that removes good cars keeps the loop state well formed. */
  lemma Advance(rounds: seq<int>, highs: seq<int>, lows: seq<int>, rd: int, h: int,
                h0: int, l: int, hv: real, lv: real, step: int)
    requires Open(rounds, highs, lows, rd, h, h0, l, hv, lv, step)
    requires h > 0 && h + l != 0 && AveragePrice(h, l, hv, lv) < hv
    ensures Open(rounds + [rd], highs + [h], lows + [l], rd + 1, IntMax(h - step, 0), h0, l, hv, lv, step)
  {
  }

  /** Logging the current state closes a well-shaped trace. */
  lemma CloseTrace(rounds: seq<int>, highs: seq<int>, lows: seq<int>, rd: int, h: int,
                   h0: int, l: int, hv: real, lv: real, step: int)
    requires Open(rounds, highs, lows, rd, h, h0, l, hv, lv, step)
    ensures var t := Trace(rounds + [rd], highs + [h], lows + [l]);
            Shape(t, h0, l, hv, lv, step) && t.rounds[rd] == rd && t.high[rd] == h
  {
  }

  /** Logging the last state once more keeps the shape. */
  lemma RepeatLast(t: Trace, h0: int, l: int, hv: real, lv: real, step: int)
    requires Shape(t, h0, l, hv, lv, step)
    requires t.rounds[|t.rounds| - 1] == |t.rounds| - 1 && t.high[|t.high| - 1] >= 0
    ensures var n := |t.rounds| - 1;
            Shape(Trace(t.rounds + [n], t.high + [t.high[n]], t.low + [t.low[n]]), h0, l, hv, lv, step)
  {
  }

  /** `simulate_market`: at most 1000 rounds while good cars remain; a round
      logs the state, stops if the average price reaches the good-car value,
      and otherwise removes `step` good cars (not below zero). The final
      state is logged once more after the loop. A market whose counts sum
      to zero divides by zero. */
  method SimulateMarket(h0: int, l: int, hv: real, lv: real, step: int) returns (r: Result<Trace>)
    ensures r.Err? ==> r.error == ZeroDivisionError && l < 0
    ensures l >= 0 ==> r.Ok?
    ensures r.Ok? ==> Shape(r.value, h0, l, hv, lv, step)
    ensures r.Ok? ==>
              var t := r.value;
              var n := |t.rounds| - 1;
              && |t.rounds| <= MaxRounds + 2
              && (h0 > 0 ==> n >= 1)
              && (t.high[n] <= 0 || t.rounds[n] == MaxRounds
                  || (t.high[n] + l != 0 && AveragePrice(t.high[n], l, hv, lv) >= hv))
  {
    var h := h0;
    var rounds, highs, lows := [], [], [];
    var rd := 0;
    while rd < MaxRounds && h > 0
      invariant rd <= MaxRounds
      invariant Open(rounds, highs, lows, rd, h, h0, l, hv, lv, step)
    {
      if h + l == 0 {
        return Err(ZeroDivisionError);
      }
      if AveragePrice(h, l, hv, lv) >= hv {
        CloseTrace(rounds, highs, lows, rd, h, h0, l, hv, lv, step);
        var t := Trace(rounds + [rd], highs + [h], lows + [l]);
        RepeatLast(t, h0, l, hv, lv, step);
        return Ok(Trace(t.rounds + [rd], t.high + [h], t.low + [l]));
      }
      Advance(rounds, highs, lows, rd, h, h0, l, hv, lv, step);
      rounds, highs, lows := rounds + [rd], highs + [h], lows + [l];
      h := IntMax(h - step, 0);
      rd := rd + 1;
    }
    CloseTrace(rounds, highs, lows, rd, h, h0, l, hv, lv, step);
    r := Ok(Trace(rounds + [rd], highs + [h], lows + [l]));
  }

  /** With bad cars on offer that are worth less, the price never reaches
      the good-car value: the loop ends only when the good cars are gone or
      after the last round. */
  method SimulateWithLemons(h0: int, l: int, hv: real, lv: real, step: int) returns (t: Trace)
    requires h0 >= 0 && l > 0 && lv < hv && step >= 0
    ensures var n := |t.rounds| - 1;
            && |t.rounds| == |t.high| == |t.low| && n >= 0
            && (t.high[n] == 0 || t.rounds[n] == MaxRounds)
            && forall k, k' :: 0 <= k < k' < |t.high| ==> t.high[k'] <= t.high[k]
  {
    var r := SimulateMarket(h0, l, hv, lv, step);
    t := r.value;
    var n := |t.rounds| - 1;
    if t.high[n] > 0 && t.rounds[n] != MaxRounds {
      assert n > 0 ==> t.high[n] >= 0;
      AverageBelowHigh(t.high[n], l, hv, lv);
      assert false;
    }
  }

  /** Without bad cars the first round already prices at the good-car value,
      so the loop stops at once and logs the initial state twice. */
  method SimulateWithoutLemons(h0: int, hv: real, lv: real, step: int) returns (t: Trace)
    requires h0 > 0
    ensures t == Trace([0, 0], [h0, h0], [0, 0])
  {
    var r := SimulateMarket(h0, 0, hv, lv, step);
    t := r.value;
    AverageWithoutLemons(h0, hv, lv);
    if t.rounds[1] == 1 {
      assert false;
    }
  }
}

=== FILE: signaling.dfy ===
/** The Spence education-signalling pages. SignalingModule._on_calculate
    (identical in Simsoft/sim_soft_4.py, SimTest/APPUITest5.py and
    SimTest/APPUITest3.py) computes the education level e_L at which a
    low-productivity worker stops gaining from imitation and the level e_H
    up to which a high-productivity worker still gains, and recommends their
    midpoint when e_L < e_H; test17.py plots the same two thresholds, and
    EducationSignalingModel in test12.py builds the separating equilibrium
    on the low type's threshold. Wages a1 < a2 (or R_low, R_high) and unit
    education costs c1 (low type) and c2 (high type). */
module Signaling {
  import opened Common

  /** Outcome of `_on_calculate`: one of the two input errors, a division by
      a zero cost, or the thresholds and the recommendation (None when there
      is no separating interval). */
  datatype Calculation =
    | PremiumError
    | CrossingError
    | Crashed(error: PyError)
    | Thresholds(eLow: real, eHigh: real, eStar: Option<real>)

  function Calculate(a1: real, a2: real, c1: real, c2: real): (r: Calculation)
    ensures r.PremiumError? <==> a2 <= a1
    ensures r.CrossingError? <==> a1 < a2 && c1 <= c2
    ensures r.Crashed? <==> a1 < a2 && c2 < c1 && (c1 == 0.0 || c2 == 0.0)
    ensures r.Crashed? ==> r.error == ZeroDivisionError
    ensures r.Thresholds? ==>
              && r.eLow * c1 == a2 - a1 && r.eHigh * c2 == a2 - a1
              && (r.eStar.Some? <==> r.eLow < r.eHigh)
              && (r.eStar.Some? ==> r.eLow < r.eStar.value < r.eHigh
                                    && r.eStar.value - r.eLow == r.eHigh - r.eStar.value)
  {
    if a2 <= a1 then PremiumError
    else if c1 <= c2 then CrossingError
    else if c1 == 0.0 || c2 == 0.0 then Crashed(ZeroDivisionError)
    else
      var da := a2 - a1;
      var eL := da / c1;
      var eH := da / c2;
      Thresholds(eL, eH, if eL < eH then Some((eL + eH) / 2.0) else None)
  }

  /** A positive premium over costs c1 > c2 separates exactly when the two
      costs have the same sign: both positive (the usual case) or both
      negative; a negative c2 with a positive c1 never separates. */
  lemma SeparatingIffSameSign(a1: real, a2: real, c1: real, c2: real)
    requires a1 < a2 && c2 < c1 && c1 != 0.0 && c2 != 0.0
    ensures Calculate(a1, a2, c1, c2).Thresholds?
    ensures Calculate(a1, a2, c1, c2).eStar.Some? <==> (c2 > 0.0 || c1 < 0.0)
  {
    var da := a2 - a1;
    var eL, eH := da / c1, da / c2;
    if c2 > 0.0 {
      assert eL * c1 == da && eH * c2 == da;
      assert eL * c2 < eL * c1;
      assert eL < eH;
    } else if c1 < 0.0 {
      assert eL * c1 == da && eH * c2 == da;
      assert eL > 0.0 ==> eL * c1 < 0.0;
      assert eL < 0.0 && eH < 0.0;
      assert eH * c1 < eH * c2;
      assert eH * c1 < eL * c1;
      assert (eL - eH) * c1 > 0.0;
      assert eL < eH;
    } else {
      assert eL > 0.0 && eH < 0.0;
    }
  }

  /** With positive costs the recommended education separates the types:
      the low type earns strictly less than a1 by imitating, while the high
      type earns strictly more than a1 by signalling. */
  lemma MidpointSeparates(a1: real, a2: real, c1: real, c2: real)
    requires a1 < a2 && 0.0 < c2 < c1
    ensures Calculate(a1, a2, c1, c2).Thresholds?
    ensures var r := Calculate(a1, a2, c1, c2);
            r.eStar.Some? && a2 - c1 * r.eStar.value < a1 && a2 - c2 * r.eStar.value > a1
  {
    SeparatingIffSameSign(a1, a2, c1, c2);
    var r := Calculate(a1, a2, c1, c2);
    var e := r.eStar.value;
    assert c1 * e > c1 * r.eLow;
    assert c2 * e < c2 * r.eHigh;
  }

  /** `simulate` in test17.py: a threshold is NaN (None) when its cost is
      zero, and no input check is made. */
  function PlotThreshold(a1: real, a2: real, c: real): (e: Option<real>)
    ensures e.None? <==> c == 0.0
    ensures e.Some? ==> e.value * c == a2 - a1
  {
    if c != 0.0 then Some((a2 - a1) / c) else None
  }

  /** Where both apply, the plotted thresholds are the calculated ones. */
  lemma PlotMatchesCalculation(a1: real, a2: real, c1: real, c2: real)
    requires Calculate(a1, a2, c1, c2).Thresholds?
    ensures PlotThreshold(a1, a2, c1) == Some(Calculate(a1, a2, c1, c2).eLow)
    ensures PlotThreshold(a1, a2, c2) == Some(Calculate(a1, a2, c1, c2).eHigh)
  {
  }

  /** The separating equilibrium of test12.py. */
  datatype Equilibrium = Equilibrium(eLow: real, wageLow: real, eHigh: real, wageHigh: real, warning: bool)

  /** `compute_equilibrium`: the low type takes no education and R_low; the
      high type takes the least education the low type will not imitate,
      (R_high - R_low)/c1, and R_high; the warning fires when the high type
      would rather not signal. A zero c1 divides by zero. */
  function ComputeEquilibrium(rHigh: real, rLow: real, c1: real, c2: real): (r: Result<Equilibrium>)
    ensures r.Err? <==> c1 == 0.0
    ensures r.Ok? ==>
              var q := r.value;
              && q.eLow == 0.0 && q.wageLow == rLow && q.wageHigh == rHigh
              && rHigh - c1 * q.eHigh == rLow
              && (q.warning <==> rHigh - c2 * q.eHigh < rLow)
  {
    if c1 == 0.0 then Err(ZeroDivisionError)
    else
      var eHigh := (rHigh - rLow) / c1;
      Ok(Equilibrium(0.0, rLow, eHigh, rHigh, rHigh - c2 * eHigh < rLow))
  }

  /** `type_utility`: wage of the type less its education cost. */
  function TypeUtility(rHigh: real, rLow: real, c1: real, c2: real, high: bool, e: real): (u: real)
    ensures high ==> u + c2 * e == rHigh
    ensures !high ==> u + c1 * e == rLow
  {
    if high then rHigh - c2 * e else rLow - c1 * e
  }

  /** At the equilibrium education the low type is exactly indifferent
      between imitating and taking no education. */
  lemma LowTypeIndifferent(rHigh: real, rLow: real, c1: real, c2: real)
    requires c1 != 0.0
    ensures var q := ComputeEquilibrium(rHigh, rLow, c1, c2).value;
            TypeUtility(rHigh, rLow, c1, c2, false, 0.0) == rHigh - c1 * q.eHigh
  {
  }

  /** The header's claim: with c1 > 0, c2 <= c1 and R_high >= R_low the
      high type weakly gains from signalling, so the warning never fires. */
  lemma NoWarningUnderSingleCrossing(rHigh: real, rLow: real, c1: real, c2: real)
    requires c1 > 0.0 && c2 <= c1 && rHigh >= rLow
    ensures ComputeEquilibrium(rHigh, rLow, c1, c2).Ok?
    ensures !ComputeEquilibrium(rHigh, rLow, c1, c2).value.warning
  {
    var e := (rHigh - rLow) / c1;
    assert e >= 0.0;
    assert c2 * e <= c1 * e;
  }

  /** Utilities fall with education when costs are non-negative. */
  lemma TypeUtilityNonIncreasing(rHigh: real, rLow: real, c1: real, c2: real, high: bool, e: real, e': real)
    requires c1 >= 0.0 && c2 >= 0.0 && e <= e'
    ensures TypeUtility(rHigh, rLow, c1, c2, high, e') <= TypeUtility(rHigh, rLow, c1, c2, high, e)
  {
    if high {
      MulLeft(c2, e, e');
    } else {
      MulLeft(c1, e, e');
    }
  }
}

=== FILE: theft_insurance.dfy ===
/** The car-theft moral-hazard page (MoralHazardModule in
    Simsoft/sim_soft_4.py, SimTest/APPUITest5.py and SimTest/APPUITest3.py):
    an owner with wealth w who may lose d to theft chooses whether to buy
    full insurance at the fair premium d*p and whether to install an
    anti-theft device costing c_d that lowers the theft probability to p_d;
    once insured, the true theft probability rises by q, which costs the
    insurer extra.

    The utility is the CRRA family, logarithmic near gamma = 1, and minus
    infinity for non-positive wealth. Expected utilities are computed in
    floating point, where a zero probability times minus infinity is NaN;
    `Ext` carries those values so the comparisons behave as in Python. The
    logarithm and the real power stay uninterpreted: they are parameters,
    and properties that need the utility to increase ask for it. */
module TheftInsurance {
  import opened Common

  /** An IEEE double as far as this model needs it. */
  datatype Ext = NegInf | Fin(v: real) | PosInf | NaN

  /** A finite weight times an extended value. */
  function Scale(c: real, x: Ext): (r: Ext)
    ensures x.Fin? ==> r.Fin? && r.v == c * x.v
    ensures c == 0.0 && !x.Fin? ==> r == NaN
    ensures x.NaN? ==> r.NaN?
  {
    match x
    case Fin(v) => Fin(c * v)
    case NaN => NaN
    case NegInf => if c > 0.0 then NegInf else if c < 0.0 then PosInf else NaN
    case PosInf => if c > 0.0 then PosInf else if c < 0.0 then NegInf else NaN
  }

  /** Addition: opposite infinities give NaN. */
  function Plus(x: Ext, y: Ext): (r: Ext)
    ensures x.Fin? && y.Fin? ==> r.Fin? && r.v == x.v + y.v
    ensures x.NaN? || y.NaN? ==> r.NaN?
    ensures x.NegInf? && y.PosInf? ==> r.NaN?
  {
    match (x, y)
    case (NaN, _) => NaN
    case (_, NaN) => NaN
    case (NegInf, PosInf) => NaN
    case (PosInf, NegInf) => NaN
    case (NegInf, _) => NegInf
    case (_, NegInf) => NegInf
    case (PosInf, _) => PosInf
    case (_, PosInf) => PosInf
    case (Fin(a), Fin(b)) => Fin(a + b)
  }

  /** Position on the extended line; NaN has none. */
  function Rank(x: Ext): (r: int)
    requires !x.NaN?
  {
    match x
    case NegInf => 0
    case Fin(_) => 1
    case PosInf => 2
  }

  /** `x > y` on doubles: false whenever NaN is involved. */
  predicate Gt(x: Ext, y: Ext)
  {
    !x.NaN? && !y.NaN? &&
    (if x.Fin? && y.Fin? then x.v > y.v else Rank(x) > Rank(y))
  }

  /** `x >= y` on doubles: false whenever NaN is involved. */
  predicate Ge(x: Ext, y: Ext)
  {
    Gt(x, y) || (!x.NaN? && x == y)
  }

  /** Python's `max(a, b)`: the second only when it is strictly greater. */
  function PyMax(a: Ext, b: Ext): (r: Ext)
    ensures r == a || r == b
    ensures Gt(b, a) ==> r == b
  {
    if Gt(b, a) then b else a
  }

  /** The two transcendental functions the utility uses. */
  datatype Transcendentals = Transcendentals(ln: real -> real, pow: (real, real) -> real)

  const LogTolerance: real := 0.00000001

  /** The utility of positive wealth: log w when gamma is within 1e-8 of 1,
      otherwise (w^(1-gamma) - 1) / (1 - gamma). */
  function Kernel(tr: Transcendentals, gamma: real, w: real): real
  {
    if Abs(gamma - 1.0) < LogTolerance then tr.ln(w)
    else (tr.pow(w, 1.0 - gamma) - 1.0) / (1.0 - gamma)
  }

  /** `_utility`: minus infinity for non-positive wealth. */
  function Utility(tr: Transcendentals, gamma: real, w: real): (u: Ext)
    ensures w <= 0.0 <==> u == NegInf
    ensures w > 0.0 ==> u == Fin(Kernel(tr, gamma, w))
  {
    if w <= 0.0 then NegInf else Fin(Kernel(tr, gamma, w))
  }

  /** The utility strictly increases in positive wealth. */
  ghost predicate Increasing(tr: Transcendentals, gamma: real)
  {
    forall a, b :: 0.0 < a < b ==> Kernel(tr, gamma, a) < Kernel(tr, gamma, b)
  }

  /** The expected utility of a lottery that leaves `good` with probability
      1 − p and `bad` with probability p, in floating point: any chance of
      ruin is minus infinity, and a zero chance of it is NaN. */
  function Lottery(tr: Transcendentals, gamma: real, p: real, good: real, bad: real): (r: Ext)
    ensures good > 0.0 && bad > 0.0 ==> r == Fin((1.0 - p) * Kernel(tr, gamma, good) + p * Kernel(tr, gamma, bad))
    ensures bad <= 0.0 && p == 0.0 ==> r.NaN?
    ensures bad <= 0.0 && p > 0.0 && good > 0.0 ==> r == NegInf
  {
    Plus(Scale(1.0 - p, Utility(tr, gamma, good)), Scale(p, Utility(tr, gamma, bad)))
  }

  /** The page's scalar inputs. */
  datatype Params = Params(w: real, d: real, p: real, pd: real, cd: real)

  /** Everything the decision engine computes. */
  datatype Analysis = Analysis(
    premium: real,
    euNoDevice: Ext, euDevice: Ext, installUninsured: bool, euUninsured: Ext,
    uNoDevice: Ext, uDevice: Ext, installInsured: bool,
    wouldInsure: bool, probActual: real)

  /** The shared part of `_decide` (SimTest/APPUITest5.py) and `_simulate`
      (the other two files): expected utilities without insurance, the
      device choice without and with insurance, the insurance choice against
      the better uninsured option, and the true theft probability once
      insured, clamped to [0, 1]. */
  function Analyse(tr: Transcendentals, pr: Params, gamma: real, q: real): (a: Analysis)
    ensures a.premium == pr.d * pr.p
    ensures a.euNoDevice == Lottery(tr, gamma, pr.p, pr.w, pr.w - pr.d)
    ensures a.euDevice == Lottery(tr, gamma, pr.pd, pr.w - pr.cd, pr.w - pr.d - pr.cd)
    ensures a.uNoDevice == Utility(tr, gamma, pr.w - a.premium)
    ensures a.uDevice == Utility(tr, gamma, pr.w - a.premium - pr.cd)
    ensures a.installUninsured <==> Gt(a.euDevice, a.euNoDevice)
    ensures a.euUninsured == PyMax(a.euNoDevice, a.euDevice)
    ensures a.installInsured <==> Gt(a.uDevice, a.uNoDevice)
    ensures a.wouldInsure <==> Ge(a.uNoDevice, a.euUninsured)
    ensures 0.0 <= a.probActual <= 1.0
    ensures a.probActual == Clamp01((if a.installInsured then pr.pd else pr.p) + q)
  {
    var premium := pr.d * pr.p;
    var euNo := Lottery(tr, gamma, pr.p, pr.w, pr.w - pr.d);
    var euDev := Lottery(tr, gamma, pr.pd, pr.w - pr.cd, pr.w - pr.d - pr.cd);
    var installNo := Gt(euDev, euNo);
    var euOpt := if installNo then euDev else euNo;
    var uNo := Utility(tr, gamma, pr.w - premium);
    var uDev := Utility(tr, gamma, pr.w - premium - pr.cd);
    var installIns := Gt(uDev, uNo);
    var insure := Ge(uNo, euOpt);
    var baseProb := if installIns then pr.pd else pr.p;
    Analysis(premium, euNo, euDev, installNo, euOpt, uNo, uDev, installIns, insure, Clamp01(baseProb + q))
  }

  /** A costly device is never worth installing once fully insured: the
      premium is paid either way and the device only lowers wealth. */
  lemma CostlyDeviceNotInstalledWhenInsured(tr: Transcendentals, pr: Params, gamma: real, q: real)
    requires Increasing(tr, gamma) && pr.cd > 0.0
    ensures !Analyse(tr, pr, gamma, q).installInsured
  {
    var a := Analyse(tr, pr, gamma, q);
    var lo := pr.w - pr.d * pr.p - pr.cd;
    var hi := pr.w - pr.d * pr.p;
    assert a.uDevice == Utility(tr, gamma, lo) && a.uNoDevice == Utility(tr, gamma, hi);
    if lo > 0.0 {
      assert Kernel(tr, gamma, lo) < Kernel(tr, gamma, hi);
    }
  }

  /** Wealth that stays positive in every outcome and probabilities in
      [0, 1] give finite expected utilities: no NaN reaches the comparisons. */
  lemma PositiveWealthFinite(tr: Transcendentals, pr: Params, gamma: real, q: real)
    requires pr.w > 0.0 && pr.w - pr.d - pr.cd > 0.0 && pr.w - pr.cd > 0.0 && pr.w - pr.d > 0.0
    requires pr.w - pr.d * pr.p > 0.0 && pr.w - pr.d * pr.p - pr.cd > 0.0
    ensures var a := Analyse(tr, pr, gamma, q);
            a.euNoDevice.Fin? && a.euDevice.Fin? && a.uNoDevice.Fin? && a.uDevice.Fin?
            && (a.wouldInsure <==> a.uNoDevice.v >= a.euUninsured.v)
  {
  }

  /** With a zero theft probability and ruinous theft, the expected
      utility without a device is NaN (0 times minus infinity), so neither
      the device nor the insurance comparison can succeed against it. */
  lemma RuinWithZeroProbability(tr: Transcendentals, pr: Params, gamma: real, q: real)
    requires pr.p == 0.0 && pr.w > 0.0 && pr.w - pr.d <= 0.0
    ensures Analyse(tr, pr, gamma, q).euNoDevice.NaN?
    ensures !Analyse(tr, pr, gamma, q).installUninsured
    ensures !Analyse(tr, pr, gamma, q).wouldInsure
  {
  }

  /** The insurer's extra expected payout: d times the rise of the true
      theft probability over the priced one, when it rises. */
  function ExtraPayout(d: real, p: real, probActual: real): (x: real)
    ensures probActual <= p ==> x == 0.0
    ensures d >= 0.0 ==> x >= 0.0
    ensures d >= 0.0 && probActual <= 1.0 ==> x <= Max(0.0, d * (1.0 - p))
  {
    if probActual <= p then 0.0
    else if d >= 0.0 && probActual <= 1.0 then
      MulLeft(d, probActual - p, 1.0 - p);
      d * (probActual - p)
    else d * (probActual - p)
  }

  /** `_decide` in SimTest/APPUITest5.py: the heat-map category (0: neither,
      1: device only, 2: insurance and device, 3: insurance without device,
      the moral-hazard cell) and the extra payout, charged only when the
      owner insures. */
  function Decide(tr: Transcendentals, pr: Params, gamma: real, q: real): (r: (int, real))
    ensures var a := Analyse(tr, pr, gamma, q);
            && 0 <= r.0 <= 3
            && (r.0 >= 2 <==> a.wouldInsure)
            && (r.0 == 1 <==> !a.wouldInsure && a.installUninsured)
            && (r.0 == 2 <==> a.wouldInsure && a.installInsured)
            && (r.1 != 0.0 ==> a.wouldInsure)
            && (pr.d >= 0.0 ==> 0.0 <= r.1 <= Max(0.0, pr.d * (1.0 - pr.p)))
  {
    var a := Analyse(tr, pr, gamma, q);
    var cat := Category(Chosen(a));
    (cat, if a.wouldInsure then ExtraPayout(pr.d, pr.p, a.probActual) else 0.0)
  }

  /** The decision `_simulate` caches in Simsoft/sim_soft_4.py and
      SimTest/APPUITest3.py: whether the owner insures, and whether the
      device is installed in the chosen situation. */
  function Chosen(a: Analysis): (r: (bool, bool))
  {
    (a.wouldInsure, if a.wouldInsure then a.installInsured else a.installUninsured)
  }

  /** The category `_decide` encodes an (insured, install) decision as. */
  function Category(c: (bool, bool)): (cat: int)
    ensures 0 <= cat <= 3
    ensures cat >= 2 <==> c.0
  {
    if !c.0 && !c.1 then 0
    else if !c.0 && c.1 then 1
    else if c.0 && c.1 then 2
    else 3
  }

  /** `_simulate` in SimTest/APPUITest5.py decodes the category:
      insured = cat in (2, 3), install = cat in (1, 2). It inverts the
      encoding on 0..3. */
  function Decode(cat: int): (r: (bool, bool))
    ensures 0 <= cat <= 3 ==> Category(r) == cat
  {
    (cat == 2 || cat == 3, cat == 1 || cat == 2)
  }

  /** Decoding an encoded decision gives it back. */
  lemma CategoryRoundTrip(c: (bool, bool))
    ensures Decode(Category(c)) == c
  {
  }

  /** Decoding the category gives back exactly the decision the other two
      files compute directly, so the encoding loses nothing. */
  lemma DecodeRecoversDecision(tr: Transcendentals, pr: Params, gamma: real, q: real)
    ensures Decode(Decide(tr, pr, gamma, q).0) == Chosen(Analyse(tr, pr, gamma, q))
  {
  }

  /** The extra payout in `_simulate` of Simsoft/sim_soft_4.py and
      SimTest/APPUITest3.py, which does not ask whether the owner insures. */
  function UnconditionedPayout(tr: Transcendentals, pr: Params, gamma: real, q: real): (x: real)
    ensures pr.d >= 0.0 ==> x >= 0.0
  {
    ExtraPayout(pr.d, pr.p, Analyse(tr, pr, gamma, q).probActual)
  }

  /** The two payouts agree for an insured owner; for an uninsured one the
      older files still report the payout that APPUITest5 sets to zero. */
  lemma PayoutVariantsAgreeWhenInsured(tr: Transcendentals, pr: Params, gamma: real, q: real)
    ensures Analyse(tr, pr, gamma, q).wouldInsure ==>
              Decide(tr, pr, gamma, q).1 == UnconditionedPayout(tr, pr, gamma, q)
    ensures !Analyse(tr, pr, gamma, q).wouldInsure ==> Decide(tr, pr, gamma, q).1 == 0.0
  {
  }

  /** Without moral hazard (q <= 0), a device no riskier than the priced
      probability, and a priced probability in [0, 1], the insurer pays
      nothing extra. */
  lemma NoHazardNoExtraPayout(tr: Transcendentals, pr: Params, gamma: real, q: real)
    requires q <= 0.0 && pr.pd <= pr.p && 0.0 <= pr.p <= 1.0
    ensures UnconditionedPayout(tr, pr, gamma, q) == 0.0
    ensures Decide(tr, pr, gamma, q).1 == 0.0
  {
    var a := Analyse(tr, pr, gamma, q);
    var base := if a.installInsured then pr.pd else pr.p;
    assert base + q <= pr.p;
  }

  /** `_plot_policy_map`: cell [i][j] of both grids is `_decide` at
      gamma = gs[i] and q = qs[j] with the page's other inputs. */
  method PolicyMap(tr: Transcendentals, pr: Params, gs: seq<real>, qs: seq<real>)
    returns (grid: seq<seq<int>>, hazard: seq<seq<real>>)
    ensures |grid| == |hazard| == |gs|
    ensures forall i :: 0 <= i < |gs| ==> |grid[i]| == |hazard[i]| == |qs|
    ensures forall i, j :: 0 <= i < |gs| && 0 <= j < |qs| ==>
              (grid[i][j], hazard[i][j]) == Decide(tr, pr, gs[i], qs[j])
    ensures forall i, j :: 0 <= i < |gs| && 0 <= j < |qs| ==> 0 <= grid[i][j] <= 3
    ensures pr.d >= 0.0 ==> forall i, j :: 0 <= i < |gs| && 0 <= j < |qs| ==> hazard[i][j] >= 0.0
  {
    grid, hazard := [], [];
    var i := 0;
    while i < |gs|
      invariant 0 <= i <= |gs|
      invariant |grid| == |hazard| == i
      invariant forall a :: 0 <= a < i ==> |grid[a]| == |hazard[a]| == |qs|
      invariant forall a, b :: 0 <= a < i && 0 <= b < |qs| ==>
                  (grid[a][b], hazard[a][b]) == Decide(tr, pr, gs[a], qs[b])
    {
      var row, hrow := [], [];
      var j := 0;
      while j < |qs|
        invariant 0 <= j <= |qs|
        invariant |row| == |hrow| == j
        invariant forall b :: 0 <= b < j ==> (row[b], hrow[b]) == Decide(tr, pr, gs[i], qs[b])
      {
        var r := Decide(tr, pr, gs[i], qs[j]);
        row, hrow := row + [r.0], hrow + [r.1];
        j := j + 1;
      }
      grid, hazard := grid + [row], hazard + [hrow];
      i := i + 1;
    }
    forall i, j | 0 <= i < |gs| && 0 <= j < |qs|
      ensures 0 <= grid[i][j] <= 3 && (pr.d >= 0.0 ==> hazard[i][j] >= 0.0)
    {
      var r := Decide(tr, pr, gs[i], qs[j]);
      assert grid[i][j] == r.0 && hazard[i][j] == r.1;
    }
  }
}

=== FILE: trust_market.dfy ===
/** The adaptive-trust lemon market (LemonMarketSimulator, identical in
    Simsoft/sim_soft_4.py, SimTest/APPUITest5.py and SimTest/APPUITest3.py):
    buyers pay a price set by their trust in the share of good cars,
    good-car sellers leave while that price is below their value, and
    trust moves toward the observed share of good cars. */
module TrustMarket {
  import opened Common

  /** Simulator state: numbers of good and bad cars still offered, the
      buyers' trust, and the fixed parameters. */
  datatype Market = Market(high: int, low: int, tau: real,
                           vHigh: real, vLow: real, beta: real, gamma: real)

  /** One history row: the five lists grow together, one entry per step. */
  datatype Row = Row(high: int, low: int, q: real, tau: real, price: real)

  datatype Stepped = Stepped(next: Market, row: Row)

  /** The constructor: round(total * q0) good cars, the rest bad, and the
      initial trust equal to the initial good share. */
  function Init(total: int, q0: real, vHigh: real, vLow: real, beta: real, gamma: real): (m: Market)
    ensures m.high + m.low == total
    ensures -0.5 <= m.high as real - total as real * q0 <= 0.5
    ensures m.tau == q0 && m.vHigh == vHigh && m.vLow == vLow && m.beta == beta && m.gamma == gamma
  {
    var high := RoundHalfEven(total as real * q0);
    Market(high, total - high, q0, vHigh, vLow, beta, gamma)
  }

  /** Observed share of good cars; the denominator is at least one, so an
      empty market divides by one. */
  function Share(m: Market): (q: real)
    ensures m.high + m.low > 0 ==> q * (m.high + m.low) as real == m.high as real
    ensures m.high + m.low <= 0 ==> q == m.high as real
  {
    m.high as real / IntMax(m.high + m.low, 1) as real
  }

  /** Price buyers offer: trust-weighted average of the two values, so the
      premium over the bad-car value is trust times the value gap. */
  function Price(m: Market): (p: real)
    ensures p - m.vLow == m.tau * (m.vHigh - m.vLow)
    ensures m.tau == 1.0 ==> p == m.vHigh
    ensures m.tau == 0.0 ==> p == m.vLow
  {
    m.tau * m.vHigh + (1.0 - m.tau) * m.vLow
  }

  /** Trust after the step: moved toward the observed share by the
      adjustment speed, then clamped to [0, 1]. */
  function NextTrust(m: Market): (t: real)
    ensures 0.0 <= t <= 1.0
  {
    Clamp01(m.tau + m.beta * (Share(m) - m.tau))
  }

  /** Whether good-car sellers leave in this step. With trust at most 1
      and bad cars worth no more than good ones, they leave exactly when
      some remain, trust is below 1 and bad cars are worth less. */
  predicate Exits(m: Market): (b: bool)
    ensures m.tau <= 1.0 && m.vLow <= m.vHigh ==>
            (b <==> m.high > 0 && m.tau < 1.0 && m.vLow < m.vHigh)
  {
    PriceBelowHigh(m);
    Price(m) < m.vHigh && m.high > 0
  }

  /** The price falls short of the good-car value by (1 − τ)·(V_H − V_L):
      for τ ≤ 1 and V_L ≤ V_H it is below V_H exactly when both factors
      are positive. */
  lemma PriceBelowHigh(m: Market)
    ensures m.tau <= 1.0 && m.vLow <= m.vHigh ==>
            (Price(m) < m.vHigh <==> m.tau < 1.0 && m.vLow < m.vHigh)
  {
    var s, d := 1.0 - m.tau, m.vHigh - m.vLow;
    assert m.tau * m.vHigh == m.vHigh - s * m.vHigh;
    assert s * m.vHigh - s * m.vLow == s * d;
    assert Price(m) == m.vHigh - s * d;
    if s > 0.0 && d > 0.0 {
      ProductPositive(s, d);
    }
  }

  /** `_step`: share and price are taken from the state before any exit;
      when the price is below the good-car value, between one and all of
      the remaining good sellers leave (a zero good-car value makes the
      exit ratio divide by zero); trust moves toward the share and is
      clamped to [0, 1]. */
  function Step(m: Market): (r: Result<Stepped>)
    ensures r.Err? <==> Exits(m) && m.vHigh == 0.0
    ensures r.Err? ==> r.error == ZeroDivisionError
    ensures r.Ok? ==>
              var n := r.value.next;
              && (Exits(m) ==> 1 <= m.high - n.high <= m.high)
              && (!Exits(m) ==> n.high == m.high)
              && n.low == m.low
              && n.tau == NextTrust(m)
              && n.vHigh == m.vHigh && n.vLow == m.vLow && n.beta == m.beta && n.gamma == m.gamma
    ensures r.Ok? ==>
              r.value.row == Row(r.value.next.high, r.value.next.low, Share(m), r.value.next.tau, Price(m))
  {
    var q := Share(m);
    var p := Price(m);
    if Exits(m) && m.vHigh == 0.0 then Err(ZeroDivisionError)
    else
      var high :=
        if Exits(m) then
          var exitRatio := m.gamma * (1.0 - p / m.vHigh);
          var exitNum := IntMax(1, RoundHalfEven(m.high as real * exitRatio));
          m.high - IntMin(exitNum, m.high)
        else m.high;
      var n := m.(high := high, tau := NextTrust(m));
      Ok(Stepped(n, Row(n.high, n.low, q, n.tau, p)))
  }

  /** With non-negative counts the observed share is a fraction. */
  lemma ShareIsFraction(m: Market)
    requires m.high >= 0 && m.low >= 0
    ensures 0.0 <= Share(m) <= 1.0
    ensures m.high + m.low > 0 ==> Share(m) * (m.high + m.low) as real == m.high as real
  {
    var d := IntMax(m.high + m.low, 1) as real;
    FractionInUnit(m.high as real, d);
  }

  /** For trust in [0, 1] the price lies between the two car values. */
  lemma PriceBetweenValues(m: Market)
    requires 0.0 <= m.tau <= 1.0
    ensures m.vLow <= m.vHigh ==> m.vLow <= Price(m) <= m.vHigh
    ensures m.vHigh <= m.vLow ==> m.vHigh <= Price(m) <= m.vLow
  {
    var t, d := m.tau, m.vHigh - m.vLow;
    assert (1.0 - t) * m.vLow == m.vLow - t * m.vLow;
    assert t * m.vHigh - t * m.vLow == t * d;
    assert Price(m) == m.vLow + t * d;
    ScaleWithinUnit(t, d, t * d);
  }

  /** While buyers do not fully trust the market and bad cars are worth
      less, every step drives at least one good seller out. */
  lemma DistrustForcesExit(m: Market)
    requires 0.0 <= m.tau < 1.0 && m.vLow < m.vHigh && m.high > 0
    ensures Exits(m)
  {
    var s, d := 1.0 - m.tau, m.vHigh - m.vLow;
    assert m.tau * m.vHigh == m.vHigh - s * m.vHigh;
    assert s * m.vHigh - s * m.vLow == s * d;
    assert Price(m) == m.vHigh - s * d;
    ProductPositive(s, d);
  }

  /** For an adjustment speed in [0, 1] the clamp never fires: the new
      trust is a convex combination of the old trust and the share, so it
      lies between them. */
  lemma TrustMovesTowardShare(m: Market)
    requires 0.0 <= m.beta <= 1.0 && 0.0 <= m.tau <= 1.0
    requires m.high >= 0 && m.low >= 0
    ensures m.tau <= Share(m) ==> m.tau <= NextTrust(m) <= Share(m)
    ensures Share(m) <= m.tau ==> Share(m) <= NextTrust(m) <= m.tau
  {
    var q := Share(m);
    ShareIsFraction(m);
    var raw := m.tau + m.beta * (q - m.tau);
    ConvexStep(m.tau, q, m.beta, raw);
    assert 0.0 <= q <= 1.0;
    if m.tau <= q {
      assert m.tau <= raw <= q;
    } else {
      assert q <= raw <= m.tau;
    }
    assert NextTrust(m) == Clamp01(raw) == raw;
  }

  /** The history the simulator accumulates. `terminal` records whether the
      'all good cars have left' message was logged. */
  datatype History = History(high: seq<int>, low: seq<int>, q: seq<real>,
                             tau: seq<real>, price: seq<real>, terminal: bool)

  predicate Aligned(h: History)
  {
    |h.high| == |h.low| == |h.q| == |h.tau| == |h.price|
  }

  function Append(h: History, row: Row): (h': History)
    ensures Aligned(h) ==> Aligned(h') && |h'.high| == |h.high| + 1
  {
    h.(high := h.high + [row.high], low := h.low + [row.low], q := h.q + [row.q],
       tau := h.tau + [row.tau], price := h.price + [row.price])
  }

  /** `run` in SimTest/APPUITest5.py and SimTest/APPUITest3.py: at most
      `steps` steps, stopping (and logging the terminal message) when an
      iteration starts with no good cars left. */
  method Run(m0: Market, steps: int) returns (r: Result<History>, m: Market)
    ensures r.Ok? ==>
              var h := r.value;
              && Aligned(h) && |h.high| <= IntMax(steps, 0)
              && (h.terminal <==> |h.high| < steps)
              && (h.terminal ==> m.high == 0)
              && (forall k :: 0 <= k < |h.high| ==> h.high[k] != 0 || k == |h.high| - 1)
              && (forall k, k' :: 0 <= k < k' < |h.high| ==> h.high[k'] <= h.high[k])
              && (forall k :: 0 <= k < |h.high| ==> h.high[k] <= m0.high && h.low[k] == m0.low)
              && (forall k :: 0 <= k < |h.tau| ==> 0.0 <= h.tau[k] <= 1.0)
              && (m0.high >= 0 ==> forall k :: 0 <= k < |h.high| ==> h.high[k] >= 0)
    ensures r.Err? ==> r.error == ZeroDivisionError
  {
    var h := History([], [], [], [], [], false);
    m := m0;
    var i := 0;
    while i < steps
      invariant 0 <= i <= IntMax(steps, 0)
      invariant Aligned(h) && |h.high| == i && !h.terminal
      invariant m.low == m0.low && m.high <= m0.high
      invariant m0.high >= 0 ==> m.high >= 0
      invariant i > 0 ==> m.high == h.high[i - 1]
      invariant forall k :: 0 <= k < |h.high| ==> h.high[k] != 0 || k == |h.high| - 1
      invariant forall k, k' :: 0 <= k < k' < |h.high| ==> h.high[k'] <= h.high[k]
      invariant forall k :: 0 <= k < |h.high| ==> h.high[k] <= m0.high && h.low[k] == m0.low
      invariant forall k :: 0 <= k < |h.tau| ==> 0.0 <= h.tau[k] <= 1.0
      invariant 0.0 <= m.tau <= 1.0 || i == 0
    {
      if m.high == 0 {
        h := h.(terminal := true);
        r := Ok(h);
        return;
      }
      var s := Step(m);
      if s.Err? {
        r := Err(s.error);
        return;
      }
      m := s.value.next;
      h := Append(h, s.value.row);
      i := i + 1;
    }
    r := Ok(h);
  }

  /** What the teaching run reports at the end: good cars and price before
      the first step and in the last history row. */
  datatype Summary = Summary(initHigh: int, finalHigh: int, initPrice: real, finalPrice: real)

  /** `_on_run` in Simsoft/sim_soft_4.py: step first, then stop as soon as
      the logged number of good cars is zero; the summary reads the last
      history row, which does not exist when no step was taken. */
  method TeachingRun(m0: Market, steps: int) returns (r: Result<Summary>, h: History)
    ensures steps <= 0 ==> r == Err(IndexError)
    ensures r.Err? ==> r.error == IndexError || r.error == ZeroDivisionError
    ensures r.Ok? ==>
              && Aligned(h) && 1 <= |h.high| <= steps
              && (forall k :: 0 <= k < |h.high| - 1 ==> h.high[k] != 0)
              && (|h.high| < steps ==> h.high[|h.high| - 1] == 0)
              && (forall k, k' :: 0 <= k < k' < |h.high| ==> h.high[k'] <= h.high[k])
              && r.value.initHigh == m0.high && r.value.initPrice == Price(m0)
              && r.value.finalHigh == h.high[|h.high| - 1] && r.value.finalPrice == h.price[|h.price| - 1]
              && r.value.finalHigh <= r.value.initHigh
  {
    h := History([], [], [], [], [], false);
    var m := m0;
    var t := 0;
    while t < steps
      invariant 0 <= t <= IntMax(steps, 0)
      invariant Aligned(h) && |h.high| == t
      invariant m.high <= m0.high
      invariant t > 0 ==> m.high == h.high[t - 1]
      invariant forall k :: 0 <= k < |h.high| ==> h.high[k] != 0
      invariant forall k, k' :: 0 <= k < k' < |h.high| ==> h.high[k'] <= h.high[k]
      invariant forall k :: 0 <= k < |h.high| ==> h.high[k] <= m0.high
    {
      var s := Step(m);
      if s.Err? {
        r := Err(s.error);
        return;
      }
      m := s.value.next;
      h := Append(h, s.value.row);
      t := t + 1;
      if m.high == 0 {
        break;
      }
    }
    if |h.high| == 0 {
      r := Err(IndexError);
      return;
    }
    r := Ok(Summary(m0.high, h.high[|h.high| - 1], Price(m0), h.price[|h.price| - 1]));
  }
}

=== FILE: used_car_round.dfy ===
/** One trading round of the used-car (lemons) market pages: every car is
    offered at a buyer price, its owner sells when the price reaches the
    reservation price of its quality, and the round reports the average
    sale price, the share of good cars among the sales and the number sold.
    Buyers either price every car from their belief
    (ImprovedLemonsMarket in EntrustmentAgencyIncentiveMechanism/test7.py,
    test3.py and test4.py) or use the fixed prices of
    LemonsMarketModel.one_round in test2.py and simulate_market in test.py;
    with quality checking on, a detected car is priced at its true value.
    Which cars are good, and which checks succeed, are drawn at random in
    the source and are inputs here. */
module UsedCarRound {
  import opened Common

  datatype Quality = High | Low

  /** The owners' reservation prices. */
  function Threshold(q: Quality): real
  {
    if q == High then 8.0 else 3.0
  }

  /** What a detected car fetches: its true value. */
  function TrueValue(q: Quality): real
  {
    if q == High then 10.0 else 4.0
  }

  /** `buyer_offer_price`: the belief-weighted value of a car. */
  function OfferPrice(belief: real): (p: real)
    ensures 0.0 <= belief <= 1.0 ==> 4.0 <= p <= 10.0
    ensures p - 4.0 == 6.0 * belief
  {
    belief * 10.0 + (1.0 - belief) * 4.0
  }

  /** Prices under the belief-based buyers: a detected car at its true
      value, every other car at the offer price. */
  function BeliefPrices(cars: seq<Quality>, detected: seq<bool>, check: bool, offer: real): (ps: seq<real>)
    requires |detected| == |cars|
    ensures |ps| == |cars|
    ensures forall i :: 0 <= i < |cars| ==>
              ps[i] == (if check && detected[i] then TrueValue(cars[i]) else offer)
  {
    seq(|cars|, i requires 0 <= i < |cars| => if check && detected[i] then TrueValue(cars[i]) else offer)
  }

  /** Prices under the fixed-price buyers of test2.py and test.py: a detected
      car at its true value, an undetected one at 6, and 5 for every car
      when checking is off. */
  function FixedPrices(cars: seq<Quality>, detected: seq<bool>, check: bool): (ps: seq<real>)
    requires |detected| == |cars|
    ensures |ps| == |cars|
    ensures forall i :: 0 <= i < |cars| ==>
              ps[i] == (if !check then 5.0 else if detected[i] then TrueValue(cars[i]) else 6.0)
  {
    seq(|cars|, i requires 0 <= i < |cars| =>
      if !check then 5.0 else if detected[i] then TrueValue(cars[i]) else 6.0)
  }

  predicate Sells(q: Quality, price: real)
  {
    price >= Threshold(q)
  }

  /** Reference definitions of the round's tallies, car by car. */
  function SoldCount(cars: seq<Quality>, ps: seq<real>): (n: nat)
    requires |ps| == |cars|
    ensures n <= |cars|
  {
    if |cars| == 0 then 0
    else SoldCount(cars[..|cars| - 1], ps[..|cars| - 1])
         + (if Sells(cars[|cars| - 1], ps[|cars| - 1]) then 1 else 0)
  }

  function SoldHigh(cars: seq<Quality>, ps: seq<real>): (n: nat)
    requires |ps| == |cars|
    ensures n <= SoldCount(cars, ps)
  {
    if |cars| == 0 then 0
    else SoldHigh(cars[..|cars| - 1], ps[..|cars| - 1])
         + (if Sells(cars[|cars| - 1], ps[|cars| - 1]) && cars[|cars| - 1] == High then 1 else 0)
  }

  function Revenue(cars: seq<Quality>, ps: seq<real>): real
    requires |ps| == |cars|
  {
    if |cars| == 0 then 0.0
    else Revenue(cars[..|cars| - 1], ps[..|cars| - 1])
         + (if Sells(cars[|cars| - 1], ps[|cars| - 1]) then ps[|cars| - 1] else 0.0)
  }

  /** Number of cars of one quality. */
  function CountOf(cars: seq<Quality>, q: Quality): (n: nat)
    ensures n <= |cars|
  {
    if |cars| == 0 then 0
    else CountOf(cars[..|cars| - 1], q) + (if cars[|cars| - 1] == q then 1 else 0)
  }

  /** The trading loop shared by all variants: zero sales report (0, 0);
      otherwise the averages of the sales. */
  method Trade(cars: seq<Quality>, ps: seq<real>) returns (avgPrice: real, fracHigh: real, nSold: nat)
    requires |ps| == |cars|
    ensures nSold == SoldCount(cars, ps) && nSold <= |cars|
    ensures nSold == 0 ==> avgPrice == 0.0 && fracHigh == 0.0
    ensures nSold > 0 ==> avgPrice == Revenue(cars, ps) / nSold as real
                          && fracHigh == SoldHigh(cars, ps) as real / nSold as real
    ensures 0.0 <= fracHigh <= 1.0
  {
    nSold := 0;
    var total := 0.0;
    var soldHigh: nat := 0;
    var i := 0;
    while i < |cars|
      invariant 0 <= i <= |cars|
      invariant nSold == SoldCount(cars[..i], ps[..i])
      invariant soldHigh == SoldHigh(cars[..i], ps[..i])
      invariant total == Revenue(cars[..i], ps[..i])
    {
      TalliesAppend(cars, ps, i);
      if ps[i] >= Threshold(cars[i]) {
        nSold := nSold + 1;
        total := total + ps[i];
        if cars[i] == High {
          soldHigh := soldHigh + 1;
        }
      }
      i := i + 1;
    }
    assert cars[..i] == cars && ps[..i] == ps;
    assert soldHigh == SoldHigh(cars, ps) && total == Revenue(cars, ps);
    if nSold == 0 {
      avgPrice, fracHigh := 0.0, 0.0;
    } else {
      avgPrice := total / nSold as real;
      fracHigh := soldHigh as real / nSold as real;
      FractionInUnit(soldHigh as real, nSold as real);
    }
  }

  /** Extending the prefix by one car adds that car's sale to each tally. */
  lemma TalliesAppend(cars: seq<Quality>, ps: seq<real>, i: nat)
    requires |ps| == |cars| && i < |cars|
    ensures var sold := Sells(cars[i], ps[i]);
            && SoldCount(cars[..i + 1], ps[..i + 1]) == SoldCount(cars[..i], ps[..i]) + (if sold then 1 else 0)
            && SoldHigh(cars[..i + 1], ps[..i + 1]) == SoldHigh(cars[..i], ps[..i]) + (if sold && cars[i] == High then 1 else 0)
            && Revenue(cars[..i + 1], ps[..i + 1]) == Revenue(cars[..i], ps[..i]) + (if sold then ps[i] else 0.0)
  {
    assert cars[..i + 1][..i] == cars[..i] && ps[..i + 1][..i] == ps[..i];
  }


  /** When every car is offered the same price, good cars sell exactly when
      it reaches 8 and bad cars exactly when it reaches 3. */
  lemma {:induction false} UniformPriceSales(cars: seq<Quality>, ps: seq<real>, p: real)
    requires |ps| == |cars|
    requires forall i :: 0 <= i < |ps| ==> ps[i] == p
    ensures SoldHigh(cars, ps) == (if p >= 8.0 then CountOf(cars, High) else 0)
    ensures SoldCount(cars, ps) == (if p >= 8.0 then CountOf(cars, High) else 0)
                                   + (if p >= 3.0 then CountOf(cars, Low) else 0)
  {
    if |cars| > 0 {
      var n := |cars| - 1;
      UniformPriceSales(cars[..n], ps[..n], p);
    }
  }

  /** When every car is offered the same price, the revenue is that price
      times the number sold. */
  lemma {:induction false} UniformPriceRevenue(cars: seq<Quality>, ps: seq<real>, p: real)
    requires |ps| == |cars|
    requires forall i :: 0 <= i < |ps| ==> ps[i] == p
    ensures Revenue(cars, ps) == p * SoldCount(cars, ps) as real
  {
    if |cars| > 0 {
      var n := |cars| - 1;
      UniformPriceRevenue(cars[..n], ps[..n], p);
      var sold := Sells(cars[n], ps[n]);
      assert ps[n] == p;
      RevenueStep(Revenue(cars[..n], ps[..n]), SoldCount(cars[..n], ps[..n]), p, sold,
                  Revenue(cars, ps), SoldCount(cars, ps));
    } else {
      assert p * 0 as real == 0.0;
    }
  }

  /** Adding one sale at price p to a revenue of k sales at p. */
  lemma RevenueStep(r: real, k: nat, p: real, sold: bool, r': real, k': nat)
    requires r == p * k as real
    requires r' == r + (if sold then p else 0.0) && k' == k + (if sold then 1 else 0)
    ensures r' == p * k' as real
  {
  }

  /** test2.py and test.py without checking: every car is priced at 5, so
      no good car sells, the good share of sales is 0, and whenever a bad
      car is on offer the average price is 5. */
  method UncheckedFixedRound(cars: seq<Quality>, detected: seq<bool>)
    returns (avgPrice: real, fracHigh: real, nSold: nat)
    requires |detected| == |cars|
    ensures nSold == SoldCount(cars, FixedPrices(cars, detected, false))
    ensures fracHigh == 0.0
    ensures nSold == CountOf(cars, Low)
    ensures nSold == 0 ==> avgPrice == 0.0
    ensures nSold > 0 ==> avgPrice == 5.0
    ensures var ps := FixedPrices(cars, detected, false);
            nSold > 0 ==> avgPrice == Revenue(cars, ps) / nSold as real
                          && fracHigh == SoldHigh(cars, ps) as real / nSold as real
  {
    var ps := FixedPrices(cars, detected, false);
    UniformPriceSales(cars, ps, 5.0);
    UniformPriceRevenue(cars, ps, 5.0);
    avgPrice, fracHigh, nSold := Trade(cars, ps);
  }

  /** The belief update after a round: a weighted average of the old belief
      and the good share of sales. */
  function UpdateBelief(belief: real, rate: real, fracHigh: real): (b: real)
    ensures 0.0 <= rate <= 1.0 && belief <= fracHigh ==> belief <= b <= fracHigh
    ensures 0.0 <= rate <= 1.0 && fracHigh <= belief ==> fracHigh <= b <= belief
    ensures b - belief == rate * (fracHigh - belief)
  {
    var b := (1.0 - rate) * belief + rate * fracHigh;
    assert (1.0 - rate) * belief == belief - rate * belief;
    assert rate * fracHigh - rate * belief == rate * (fracHigh - belief);
    assert 0.0 <= rate <= 1.0 ==> Min(belief, fracHigh) <= b <= Max(belief, fracHigh) by {
      if 0.0 <= rate <= 1.0 {
        ConvexStep(belief, fracHigh, rate, b);
      }
    }
    b
  }

  /** `simulate_one_round` of ImprovedLemonsMarket (test7.py, test3.py,
      test4.py): price from the belief, trade, then update the belief. For
      a belief and learning rate in [0, 1] the belief stays in [0, 1]. */
  method BeliefRound(cars: seq<Quality>, detected: seq<bool>, check: bool, belief: real, rate: real)
    returns (avgPrice: real, fracHigh: real, nSold: nat, belief': real)
    requires |detected| == |cars|
    ensures nSold == SoldCount(cars, BeliefPrices(cars, detected, check, OfferPrice(belief)))
    ensures nSold == 0 ==> avgPrice == 0.0 && fracHigh == 0.0
    ensures 0.0 <= fracHigh <= 1.0
    ensures var ps := BeliefPrices(cars, detected, check, OfferPrice(belief));
            nSold > 0 ==> avgPrice == Revenue(cars, ps) / nSold as real
                          && fracHigh == SoldHigh(cars, ps) as real / nSold as real
    ensures belief' == UpdateBelief(belief, rate, fracHigh)
    ensures 0.0 <= belief <= 1.0 && 0.0 <= rate <= 1.0 ==> 0.0 <= belief' <= 1.0
    ensures !check ==> nSold == (if OfferPrice(belief) >= 8.0 then CountOf(cars, High) else 0)
                                + (if OfferPrice(belief) >= 3.0 then CountOf(cars, Low) else 0)
  {
    var offer := OfferPrice(belief);
    var ps := BeliefPrices(cars, detected, check, offer);
    if !check {
      UniformPriceSales(cars, ps, offer);
    }
    avgPrice, fracHigh, nSold := Trade(cars, ps);
    belief' := UpdateBelief(belief, rate, fracHigh);
  }

  /** `simulate_market` in test.py: cars are generated only when the list is
      empty; the round then trades at the fixed prices. */
  method FixedMarket(cars: seq<Quality>, generated: seq<Quality>, detected: seq<bool>, check: bool)
    returns (avgPrice: real, fracHigh: real, nSold: nat, used: seq<Quality>)
    requires |detected| == (if |cars| == 0 then |generated| else |cars|)
    ensures used == (if |cars| == 0 then generated else cars)
    ensures nSold == SoldCount(used, FixedPrices(used, detected, check))
    ensures nSold == 0 ==> avgPrice == 0.0 && fracHigh == 0.0
    ensures !check ==> fracHigh == 0.0 && (nSold > 0 ==> avgPrice == 5.0)
    ensures var ps := FixedPrices(used, detected, check);
            nSold > 0 ==> avgPrice == Revenue(used, ps) / nSold as real
                          && fracHigh == SoldHigh(used, ps) as real / nSold as real
  {
    used := if |cars| == 0 then generated else cars;
    if check {
      avgPrice, fracHigh, nSold := Trade(used, FixedPrices(used, detected, check));
    } else {
      avgPrice, fracHigh, nSold := UncheckedFixedRound(used, detected);
    }
  }
}
